=== FILE: README.md ===
# No Nothing Magazine storefront — a Dafny model of its sequential core

The magazine's web shop and reader are mostly React views and AWS/Shopify
calls. Inside them are several pieces of deterministic logic. This project
models them in Dafny as immutable data and pure functions, and proves what
they promise.

- **The browser cart** (`CartClient`): a local mirror of a Shopify cart,
  a list of lines keyed by `product_id`. It covers:
  - adding and removing items, which moves the touched line to the end and
    drops a line once its quantity is no longer positive;
  - the total and the currency;
  - the id handling, which deletes the first `gid://shopify/Cart/`;
  - `init` and `sync`, which take the backend's responses as parameters;
  - `localStorage`'s `nnmcheckoutID`, modelled as the `stored` field.
- **The GraphQL text builder of the backend**:
  - `GraphQLTypes`: the value and the type form of a `ShopifyGraphQLType`.
  - `GraphQLApi`: the selection texts of the response types, and
    `add_tabs_to_lines`.
  - `GraphQLActions`: query and mutation text, variable declarations, and
    the `variables` JSON.
  - `CartRequests`: the three cart requests built with it: read a cart,
    create a cart, add lines.
  - A Rust `HashMap` is a sequence of fields with distinct keys, in the
    map's iteration order. Rendering properties hold for whatever order
    that sequence gives.
- **The issue archive** (`IssueArchive`):
  - the S3 key → issue number parser;
  - the choice of the latest issue as the maximum;
  - the region → bucket table;
  - the key of an issue's PDF.
  - Every `unwrap`/`panic!` becomes a `Fail` result.
- **Small utilities**:
  - `handle_to_link` (`Links`);
  - the featured-artists ranking (`Featured`), given the list of fetched
    issues. Names are compared by JavaScript's `length`, which counts UTF-16
    code units, so a character outside the Basic Multilingual Plane counts
    twice;
  - the page and zoom rules of the PDF issue viewer (`IssueViewer`).

`Wrappers` (Option/Result) and `Strings` (find, first-occurrence replace,
join, separator popping, decimal text) are shared helpers.

The model follows the code, quirks included:

- `add_item` moves the updated line to the end of the list, rather than
  updating it in place.
- `init` appends the server's lines to whatever `items` holds, rather than
  seeding the list.
- `dupe` passes the id through the constructor's marker deletion again.
  A doubly marked id therefore changes (`CartClient.DupeChangesDoublyMarkedId`).
- Stripping the cart marker is not idempotent: `gid://shopify/Cart/` twice
  loses both copies in two steps (`ShopifyIds.StripNotIdempotent`).
  `ShopifyIds.StripIdempotentIff` states exactly when it is idempotent.

## Model

| member | source | states |
|---|---|---|
| CartClient.ConvertToCartItem | src/components/cart/Cart.tsx:28-39 | a converted item has an empty line id and, read back as an item, is the item it came from |
| CartClient.ConvertAsItem | src/components/cart/Cart.tsx:26-39 | converting a line's item form back to a line restores the line except for its line id |
| CartClient.FindNodeFrom | src/components/cart/Cart.tsx:64 | a found node is the first whose first variant is the id, every node before it having variants; a failure means none matches before a node without variants, or none matches at all |
| CartClient.CartItemFromCartLine | src/components/cart/Cart.tsx:63-75 | enrichment succeeds exactly when some node is the first match; the line then takes id, product, quantity, price and currency from the server line and title, handle and description from that node |
| CartClient.PushUntilFail | src/components/cart/Cart.tsx:115-117 | the pushes keep the old items as a prefix, the i-th pushed line is the value of the i-th result, and pushing stops exactly at the first failure |
| CartClient.AppendLines | src/components/cart/Cart.tsx:115-117 | the old items stay as a prefix; the i-th appended line is the enrichment of the i-th server line; all lines are appended, or the loop stops at the first line whose enrichment fails |
| CartClient.FirstWithProduct | src/components/cart/Cart.tsx:178 | `find` returns the earliest line of the product; it returns nothing exactly when no line has the product |
| CartClient.WithoutProduct | src/components/cart/Cart.tsx:179 | `filter` keeps exactly the lines of other products, and the list shrinks by the product's line count |
| CartClient.WithoutProductConcat | src/components/cart/Cart.tsx:179 | filtering commutes with concatenation, so the other lines keep their relative order |
| CartClient.WithoutAbsentProduct | src/components/cart/Cart.tsx:179 | filtering out a product no line has leaves the list unchanged |
| CartClient.AddLine | src/components/cart/Cart.tsx:177-188 | after `add_item`, the other lines come first in their order, then exactly one line of the product: the old line with the quantity added, or the converted item |
| CartClient.RemoveLine | src/components/cart/Cart.tsx:193-204 | `remove_item` on an absent product leaves the lines unchanged; otherwise the other lines stay in order, followed by the decremented line only if its quantity is still positive |
| CartClient.RemoveLineTouched | src/components/cart/Cart.tsx:197-202 | after `remove_item` the product has at most one line, and that line's quantity is positive |
| CartClient.AddLineKeepsUnique | src/components/cart/Cart.tsx:178-188 | `add_item` keeps at most one line per product |
| CartClient.RemoveLineKeepsUnique | src/components/cart/Cart.tsx:194-204 | `remove_item` keeps at most one line per product |
| CartClient.AddLineKeepsPositive | src/components/cart/Cart.tsx:181-186 | adding a quantity of at least 1 keeps every line quantity positive |
| CartClient.RemoveLineKeepsPositive | src/components/cart/Cart.tsx:197-202 | removing never leaves a line with quantity 0 or less |
| CartClient.Total | src/components/cart/Cart.tsx:149-151 | the `reduce` loop computes the sum of price times quantity over the lines, 0 for an empty cart |
| CartClient.TotalAfterAdd | src/components/cart/Cart.tsx:149-190 | on a cart with one line per product, `add_item` raises the total by the added quantity times the price of the line it lands on |
| CartClient.Currency | src/components/cart/Cart.tsx:153-155 | the first line's currency, or "USD" for an empty cart; either way "USD" or the currency of some line |
| CartClient.SingleCurrency | src/components/cart/Cart.tsx:153-155 | a cart whose lines share one currency reports that currency |
| CartClient.AddLineKeepsCurrency | src/components/cart/Cart.tsx:177-188 | adding an item in the cart's currency keeps every line in that currency |
| CartClient.New | src/components/cart/Cart.tsx:92-97 | a new cart has no lines and no URL; an id without the marker is kept, and a gid becomes its bare token |
| CartClient.SetId | src/components/cart/Cart.tsx:136-139 | `set_id` stores exactly the id it keeps; an id without the marker is kept, and a gid becomes its bare token; nothing else changes |
| CartClient.Dupe | src/components/cart/Cart.tsx:100-105 | the copy has the same URL, lines, storage and catalog, and equals the original when the id has no marker |
| CartClient.DupeChangesDoublyMarkedId | src/components/cart/Cart.tsx:93-105 | a doubly marked id keeps one marker through the constructor, which `dupe` then deletes |
| CartClient.InitRequest | src/components/cart/Cart.tsx:108-127 | `init` fetches the stored cart exactly when a non-empty id is stored, and otherwise creates a checkout |
| CartClient.Init | src/components/cart/Cart.tsx:108-128 | `init` adopts the stored id (or the response's), persists it and takes the URL; it appends the enriched server lines after the existing items, the i-th appended line being the i-th server line's enrichment; it completes exactly when every line is appended, and otherwise the next server line is one whose enrichment fails |
| CartClient.InitTwiceDuplicates | src/components/cart/Cart.tsx:115-126 | two completed `init`s with the same response on an empty cart hold every line twice |
| CartClient.SyncRequest | src/components/cart/Cart.tsx:158-170 | `sync` sends nothing for an empty cart, and otherwise posts all lines |
| CartClient.Sync | src/components/cart/Cart.tsx:158-174 | `sync` is a no-op on an empty cart; otherwise it adopts the response's stripped id and URL and persists the id; the lines are never touched |
| CartClient.AddItem | src/components/cart/Cart.tsx:177-190 | `add_item` followed by its `sync`: the lines of `AddLine`, and the response's id and URL |
| CartClient.RemoveItem | src/components/cart/Cart.tsx:193-206 | `remove_item` followed by its `sync`: the lines of `RemoveLine`; when no line is left the id, URL and storage are unchanged, otherwise the sync's stripped id is stored and its URL taken; the catalog is never changed |
| CartClient.MutatorsKeepValid | src/components/cart/Cart.tsx:177-206 | adding at least one unit, or removing any amount, keeps one positive line per product |
| CartClient.RepeatedAdds | src/components/cart/Cart.tsx:177-190 | repeated adds of one absent product leave exactly one line for it, last, holding the sum of the added quantities |
| ShopifyIds.StripCartGid | src/components/cart/Cart.tsx:137 | an id without the marker is unchanged; otherwise exactly one marker's length is removed |
| ShopifyIds.CartGid | nnmbackend/src/utils/shopify/cart/get_cart.rs:46 | the global id is the marker followed by the token |
| ShopifyIds.StripCartGidOfGid | src/components/cart/Cart.tsx:137 | stripping a gid gives back its token |
| ShopifyIds.StripCartGidInside | src/components/cart/Cart.tsx:93 | a marker anywhere is deleted when no earlier occurrence exists, and the text around it is kept |
| ShopifyIds.GidRoundTrip | nnmbackend/src/utils/shopify/cart/get_cart.rs:46 | a gid stripped by the browser and re-prefixed by the backend is the gid Shopify issued |
| ShopifyIds.StripIdempotentIff | src/components/cart/Cart.tsx:137 | stripping twice equals stripping once exactly when the once-stripped id has no marker left |
| ShopifyIds.StripNotIdempotent | src/components/cart/Cart.tsx:93 | a doubly marked id loses one marker per strip |
| GraphQLTypes.Lookup | nnmbackend/src/utils/shopify/graphql/types.rs:14 | a key is found exactly when the map has it, and the found entry is in the map |
| GraphQLTypes.ValueString | nnmbackend/src/utils/shopify/graphql/types.rs:31-67 | ids and strings are written between double quotes, arrays between brackets, objects between braces, and booleans as "true" or "false" |
| GraphQLTypes.ValueStringArray | nnmbackend/src/utils/shopify/graphql/types.rs:39-51 | an array renders as "[", the element value forms joined by ", ", and "]"; the empty array renders as "[]" |
| GraphQLTypes.ValueStringObject | nnmbackend/src/utils/shopify/graphql/types.rs:52-64 | an object renders as its `"k": v` entries joined by ", " inside braces; the empty object renders as "{}" |
| GraphQLTypes.QuotedVerbatim | nnmbackend/src/utils/shopify/graphql/types.rs:33-34 | ids and strings render alike: the payload between two quotes, unescaped |
| GraphQLTypes.IntValueRoundTrip | nnmbackend/src/utils/shopify/graphql/types.rs:36 | a non-negative Int renders as digits that read back as the number; a negative one as "-" and the digits of its magnitude |
| GraphQLTypes.TypeString | nnmbackend/src/utils/shopify/graphql/types.rs:72-96 | every type form except an object's ends in "!"; an object's is written between braces |
| GraphQLTypes.TypeStringNonNull | nnmbackend/src/utils/shopify/graphql/types.rs:74-80 | every type form except an object's ends in "!" |
| GraphQLTypes.ArrayTypeFromFirst | nnmbackend/src/utils/shopify/graphql/types.rs:80 | an array's type form is "[" + the first element's type + "]!", so arrays with the same first element share it; an empty array gives "[]!" |
| GraphQLTypes.CustomForms | nnmbackend/src/utils/shopify/graphql/types.rs:65-94 | a custom type renders its value as the underlying value and its type as its name followed by "!" |
| GraphQLTypes.ToObject | nnmbackend/src/utils/shopify/graphql/types.rs:20-29 | an object gives its own map; any other value gives the one-entry map from the key to the value |
| GraphQLTypes.CostText | nnmbackend/src/utils/shopify/graphql/types.rs:143-169 | the cost selection starts "cost {\n" without arguments, or "cost(" with the typed arguments and a trailing ", " kept; it always ends "totalTaxAmountEstimated\n}" |
| GraphQLTypes.CostHeadForm | nnmbackend/src/utils/shopify/graphql/types.rs:146-154 | the cost argument list keeps its final separator: it is the join of the arguments followed by ", " |
| GraphQLApi.AddTabsToLines | nnmbackend/src/utils/shopify/graphql/api.rs:67-77 | the result is empty exactly when the input has no lines, and otherwise ends in a newline |
| GraphQLApi.AddTabsKeepsLines | nnmbackend/src/utils/shopify/graphql/api.rs:67-77 | the lines of the result are the input's lines, one for one, each prefixed by the given number of tabs |
| GraphQLApi.CartHead | nnmbackend/src/utils/shopify/graphql/api.rs:86-99 | without arguments the cart text starts "cart {\n\tid\n\tcheckoutUrl\n"; with arguments it lists them as `k: $k` joined by ", ", with no trailing separator |
| GraphQLApi.CartText | nnmbackend/src/utils/shopify/graphql/api.rs:83-107 | the cart text is its head, then the cost block indented one tab, then a tail ending with the lines selection |
| GraphQLApi.CartCostBlockLines | nnmbackend/src/utils/shopify/graphql/api.rs:101 | the embedded cost block consists of the cost selection's lines, each indented one tab |
| GraphQLApi.Lines | nnmbackend/src/utils/shopify/graphql/api.rs:69 | `str::lines` yields no line exactly for the empty text, and never more lines than the text has characters |
| GraphQLApi.Selection.Label | nnmbackend/src/utils/shopify/graphql/types.rs:106-222 | "cost" is the label exactly of the money, cost and line-cost selections; "merchandise", "lines", "cart" and "userError" are each the label of exactly one selection: merchandise, line item, cart and user error |
| GraphQLApi.Selection.ToGraphQL | nnmbackend/src/utils/shopify/graphql/types.rs:106-226 | every selection text ends with "}"; the money, line-cost, merchandise, line-item and user-error selections give their fixed texts whatever the arguments; the cost text starts as its arguments decide; the cart text starts with the cart head |
| GraphQLApi.UserErrorFields | nnmbackend/src/utils/shopify/graphql/api.rs:116-123 | the user-error selection is the two lines "{ field" and "message }", whatever its arguments |
| GraphQLApi.ArgumentsIgnored | nnmbackend/src/utils/shopify/graphql/types.rs:182-226 | every selection except cost and cart renders the same text whatever its arguments |
| GraphQLApi.CartArgumentList | nnmbackend/src/utils/shopify/graphql/api.rs:86-99 | the cart selection has no argument list without arguments, and `cart(k: $k, …)` with them |
| GraphQLActions.Insert | nnmbackend/src/utils/shopify/graphql/actions.rs:43-45 | after an insert the key maps to the new value, every other key keeps its lookup, and the key set gains the key |
| GraphQLActions.NewQuery | nnmbackend/src/utils/shopify/graphql/actions.rs:27-33 | a new query has no variables, so its variables JSON is "{}", and it is labelled by its selection |
| GraphQLActions.NewMutation | nnmbackend/src/utils/shopify/graphql/actions.rs:35-41 | a new mutation has no variables, so its variables JSON is "{}", and it is labelled by its name, or "mutation" without one |
| GraphQLActions.InsertKeepsDistinct | nnmbackend/src/utils/shopify/graphql/actions.rs:44 | inserting keeps the keys distinct |
| GraphQLActions.InsertLength | nnmbackend/src/utils/shopify/graphql/actions.rs:44 | inserting grows the map by one exactly when the key is new |
| GraphQLActions.AddVariable | nnmbackend/src/utils/shopify/graphql/actions.rs:43-45 | `add_variable` sets one key and leaves the action, the selection and every other variable unchanged |
| GraphQLActions.FmtEntry | nnmbackend/src/utils/shopify/graphql/actions.rs:56-76 | every variable appends its entry, `"k": ` and its JSON value, followed by ", " |
| GraphQLActions.JsonValue | nnmbackend/src/utils/shopify/graphql/actions.rs:56-75 | a variable's JSON value is its value form, except that an object's is its value form without the enclosing braces |
| GraphQLActions.FmtLoop | nnmbackend/src/utils/shopify/graphql/actions.rs:55-77 | the loop only appends to the text, and once any variable is written the text ends in ", " |
| GraphQLActions.FmtLoopTerminated | nnmbackend/src/utils/shopify/graphql/actions.rs:55-77 | the loop appends every variable's entry followed by ", ", in order |
| GraphQLActions.FmtVariables | nnmbackend/src/utils/shopify/graphql/actions.rs:47-84 | the variables JSON is the entries joined by ", " inside braces, and is "{}" exactly when there are no variables |
| GraphQLActions.NoTrailingSeparator | nnmbackend/src/utils/shopify/graphql/actions.rs:78-82 | the variables JSON starts with "{", ends with "}" and has no ", " before the closing brace |
| GraphQLActions.ObjectVariableUnbraced | nnmbackend/src/utils/shopify/graphql/actions.rs:74 | an object-valued variable is written without its own braces |
| GraphQLActions.QueryHead | nnmbackend/src/utils/shopify/graphql/actions.rs:97-110 | a query head is "query", the `($k: T, …)` declaration list when there are variables, and " {\n" |
| GraphQLActions.QueryTextShape | nnmbackend/src/utils/shopify/graphql/actions.rs:97-118 | a query text starts with its head and ends with "\n}" |
| GraphQLActions.QueryToGraphQL | nnmbackend/src/utils/shopify/graphql/actions.rs:92-119 | gives nothing for a mutation; fails exactly when the label names a variable missing from the arguments; otherwise gives a text that starts with the head and ends with "\n}" |
| GraphQLActions.QuerySubArguments | nnmbackend/src/utils/shopify/graphql/actions.rs:111-116 | the selection receives `to_object` of the variable named by its label, or all the arguments when no variable has that name |
| GraphQLActions.QueryRendered | nnmbackend/src/utils/shopify/graphql/actions.rs:97-118 | a query whose label names no variable renders as its head, the selection given all variables, and "\n}" |
| GraphQLActions.MutationTailForm | nnmbackend/src/utils/shopify/graphql/actions.rs:145-160 | the argument list `(k: $k, …)` appears only with variables, followed by the selection closed twice |
| GraphQLActions.MutationToGraphQL | nnmbackend/src/utils/shopify/graphql/actions.rs:121-162 | gives a text exactly for a mutation |
| GraphQLActions.MutationMatchesReference | nnmbackend/src/utils/shopify/graphql/actions.rs:121-162 | the mutation text is "mutation", the declarations, " {\n", " name" only for a named mutation, the argument list, " {\n", the selection given no arguments, and "\n}\n}" |
| GraphQLActions.MutationWithoutVariables | nnmbackend/src/utils/shopify/graphql/actions.rs:125-160 | a mutation without variables has neither declarations nor an argument list |
| GraphQLActions.MutationShape | nnmbackend/src/utils/shopify/graphql/actions.rs:121-162 | a mutation text starts with "mutation", its declarations, the name and the argument list, and ends with "\n}\n}" |
| GraphQLActions.Label | nnmbackend/src/utils/shopify/graphql/actions.rs:166-172 | the label is the selection's label for a query, the name of a named mutation, and "mutation" otherwise |
| GraphQLActions.ToGraphQL | nnmbackend/src/utils/shopify/graphql/actions.rs:174-179 | dispatches on the action; fails only where the query renderer fails, and never yields an empty text |
| GraphQLActions.RenderedText | nnmbackend/src/utils/shopify/graphql/actions.rs:87 | rendering a query with its own variables never fails |
| GraphQLActions.RenderedKeyword | nnmbackend/src/utils/shopify/graphql/actions.rs:97-123 | a rendered text starts with "query" or "mutation", as its action says |
| GraphQLActions.ToPayload | nnmbackend/src/utils/shopify/graphql/actions.rs:86-88 | the payload is `{"query":"`, then exactly the text rendered with the query's own variables (which starts with the keyword), then `", "variables": `, the variables JSON and "}" |
| GraphQLActions.PayloadParts | nnmbackend/src/utils/shopify/graphql/actions.rs:86-88 | two queries with the same payload render the same text exactly when their variables JSON agree |
| CartRequests.LineEntryFields | nnmbackend/src/utils/shopify/cart/add_item.rs:68-81 | a line entry's map has exactly the keys merchandiseId and quantity, mapped to the id and the quantity |
| CartRequests.LineEntry | nnmbackend/src/utils/shopify/cart/add_item.rs:65-84 | a line entry is declared `CartLineInput!` and renders as the object of the merchandise id (quoted) and the quantity |
| CartRequests.SwappedLineEntry | nnmbackend/src/utils/shopify/cart/add_item.rs:68-81 | in the other iteration order it is the same map with the same type; only the order of the rendered entries differs |
| CartRequests.LineEntries | nnmbackend/src/utils/shopify/cart/add_item.rs:100-105 | one line entry per item, in payload order, from the item's product id and quantity |
| CartRequests.AddItemsMutation | nnmbackend/src/utils/shopify/cart/add_item.rs:86-109 | the `cartLinesAdd` mutation over the cart selection, with exactly the variables cartId (the gid of the cart) and lines |
| CartRequests.AddItemsVariables | nnmbackend/src/utils/shopify/cart/add_item.rs:94-106 | the two variable keys are distinct; cartId strips back to the browser's token; the i-th line carries the i-th item's id and quantity |
| CartRequests.AddItemsDeclarations | nnmbackend/src/utils/shopify/cart/add_item.rs:94-106 | the mutation passes `cartId: $cartId, lines: $lines` and declares `$lines` as `[CartLineInput!]!`, or as `[]!` when there are no items |
| CartRequests.AddItemsText | nnmbackend/src/utils/shopify/cart/add_item.rs:86-109 | the text names `cartLinesAdd`, passes the variables, and selects the whole cart without arguments |
| CartRequests.AddItemsJson | nnmbackend/src/utils/shopify/cart/add_item.rs:94-106 | the variables JSON holds the quoted gid and the array of line objects |
| CartRequests.GetCartQuery | nnmbackend/src/utils/shopify/cart/get_cart.rs:42-49 | a query over the cart selection whose only variable is id, the gid of the token; its label is "cart" |
| CartRequests.GetCartText | nnmbackend/src/utils/shopify/cart/get_cart.rs:42-49 | the text is "query ($id: ID!) {\n", then the cart selection given all variables, then "\n}" |
| CartRequests.GetCartHead | nnmbackend/src/utils/shopify/cart/get_cart.rs:44-47 | the cart selection starts "cart(id: $id) {\n\tid\n\tcheckoutUrl\n" |
| CartRequests.GetCartJson | nnmbackend/src/utils/shopify/cart/get_cart.rs:46 | the variables JSON is the one entry id holding the quoted gid |
| CartRequests.CreateCartMutation | nnmbackend/src/utils/shopify/cart/create_cart.rs:54-60 | the `cartCreate` mutation over the cart selection, without variables; its label is "cartCreate" |
| CartRequests.CreateCartText | nnmbackend/src/utils/shopify/cart/create_cart.rs:54-60 | the text is "mutation {\n cartCreate {\n", the cart selection without arguments, then "\n}\n}"; the variables JSON is "{}" |
| IssueArchive.ClientRegion | nnmbackend/src/utils/s3/mod.rs:41-48 | the configured region, or us-east-1 when none is configured |
| IssueArchive.BucketFor | nnmbackend/src/utils/s3/mod.rs:92-108 | us-east-1 → nonothingissues1, us-east-2 → nonothingissues; any other or missing region fails |
| IssueArchive.BucketDeterminesRegion | nnmbackend/src/utils/s3/mod.rs:92-108 | different accepted regions use different buckets |
| IssueArchive.DefaultRegionBucket | nnmbackend/src/utils/s3/mod.rs:41-108 | a client without a configured region reads nonothingissues1 |
| IssueArchive.TrimStartMatches | nnmbackend/src/utils/s3/mod.rs:79 | the result is a suffix of the text that no longer starts with the pattern |
| IssueArchive.TrimEndMatches | nnmbackend/src/utils/s3/mod.rs:80 | the result is a prefix of the text that no longer ends with the pattern |
| IssueArchive.TrimStartRepeated | nnmbackend/src/utils/s3/mod.rs:79 | every leading repetition of the pattern is removed, not only the first |
| IssueArchive.ParseUsize | nnmbackend/src/utils/s3/mod.rs:81-82 | parsing succeeds exactly for an optional "+" followed by one or more digits whose value fits 64 bits, and gives that value |
| IssueArchive.ParseDisplayed | nnmbackend/src/utils/s3/mod.rs:81 | a number's decimal text, with or without "+", parses back to it when it fits 64 bits, and fails otherwise |
| IssueArchive.ParseRejects | nnmbackend/src/utils/s3/mod.rs:81-82 | the empty text, a lone "+" and anything starting with "-" fail |
| IssueArchive.FromIssueMarker | nnmbackend/src/utils/s3/mod.rs:72 | a key containing "issue_" is cut to start at its first occurrence; any other key is kept whole |
| IssueArchive.IssueNumberOf | nnmbackend/src/utils/s3/mod.rs:68-85 | a key not ending in ".pdf" contributes 0, and any parsed number fits 64 bits |
| IssueArchive.SameEnding | nnmbackend/src/utils/s3/mod.rs:72-76 | cutting at the marker does not change whether the key ends in ".pdf" |
| IssueArchive.PrefixIgnored | nnmbackend/src/utils/s3/mod.rs:72 | anything before the first "issue_" does not change the key's number |
| IssueArchive.IssueKey | nnmbackend/src/utils/s3/mod.rs:151 | an issue's key ends in ".pdf" |
| IssueArchive.IssueFileRoundTrip | nnmbackend/src/utils/s3/mod.rs:127-137 | `issue_{n}.pdf` parses back to n |
| IssueArchive.IssueKeyRoundTrip | nnmbackend/src/utils/s3/mod.rs:127-151 | the key built for issue n, `nnm_issues/issue_{n}.pdf`, parses back to n |
| IssueArchive.IssueNumberOfMiddle | nnmbackend/src/utils/s3/mod.rs:72-82 | a key `issue_<mid>.pdf` reads as `parse::<usize>` of its middle, when the middle neither starts with "issue_" nor ends with ".pdf" |
| IssueArchive.NonNumericPdf | nnmbackend/src/utils/s3/mod.rs:78-82 | an `issue_<mid>.pdf` key whose middle is not an optional "+" followed by digits fails rather than counting as 0 |
| IssueArchive.OverflowingPdf | nnmbackend/src/utils/s3/mod.rs:78-82 | an `issue_<digits>.pdf` key whose number exceeds 64 bits fails |
| IssueArchive.Contribution | nnmbackend/src/utils/s3/mod.rs:69 | a listed object without a key fails; otherwise the object contributes its key's number |
| IssueArchive.MaxContribution | nnmbackend/src/utils/s3/mod.rs:86-87 | the maximum fails exactly for an empty listing or when some entry fails; otherwise it is at least every entry and is one of them |
| IssueArchive.LatestIssue | nnmbackend/src/utils/s3/mod.rs:66-88 | the latest issue is the largest number any key gives; it fails exactly on an empty listing or a failing key |
| IssueArchive.IssueObject | nnmbackend/src/utils/s3/mod.rs:147-153 | an issue's object is in the region's bucket under the key `nnm_issues/issue_{n}.pdf`, which parses back to the issue, and fails exactly when the region has no bucket |
| IssueArchive.LatestIssueObject | nnmbackend/src/utils/s3/mod.rs:110-145 | the object fetched for the latest issue is in the region's bucket, and its key's number is the number of some listed key and at least every listed key's number; it fails exactly for a region without a bucket, an empty listing or a failing key |
| Links.HandleToLink | src/util/links.ts:1-10 | a handle not starting with "@", the empty one included, is returned unchanged; otherwise the rest of the handle follows "https://instagram.com/" |
| Links.LinkStartsWithH | src/util/links.ts:8-9 | a rewritten handle starts with "h" |
| Links.HandleToLinkIdempotent | src/util/links.ts:1-10 | applying `handle_to_link` twice equals applying it once |
| Links.InstagramHandle | src/util/links.ts:8-9 | "@x" becomes "https://instagram.com/x" |
| Links.LinkReadsBack | src/util/links.ts:8-9 | the handle can be read back from the link |
| Featured.IndexOfHandle | src/pages/featured.tsx:26 | `map.has` finds the entry of the handle, or reports that no entry has it |
| Featured.Utf16Length | src/pages/featured.tsx:33 | a name's JavaScript length lies between its number of characters and twice that |
| Featured.Utf16LengthBmp | src/pages/featured.tsx:33 | the JavaScript length equals the number of characters exactly when every character is in the Basic Multilingual Plane |
| Featured.Utf16LengthAstral | src/pages/featured.tsx:33 | two flowers (U+1F338) measure 4 and "abc" measures 3 |
| Featured.Record | src/pages/featured.tsx:26-40 | one appearance adds its handle to the tallied handles, adds an entry exactly when the handle is new, and leaves every other handle's entry unchanged |
| Featured.RecordAll | src/pages/featured.tsx:25-41 | the `forEach` adds exactly the handles of the issue's contributors |
| Featured.TallyIssues | src/pages/featured.tsx:21-42 | the tallied handles are exactly the handles of the contributors of the issues that loaded |
| Featured.RecordSummarises | src/pages/featured.tsx:25-41 | recording one more appearance keeps the tallies a summary: one entry per handle, the appearance count, and the earliest longest name |
| Featured.RecordKnown | src/pages/featured.tsx:26-36 | a known handle counts one more and takes the new name only when it is strictly longer in UTF-16 code units; the summary stays exact |
| Featured.RecordKnownAt | src/pages/featured.tsx:27-35 | the recorded handle's count becomes its number of appearances, and its name the earliest of its longest |
| Featured.RecordKnownOther | src/pages/featured.tsx:26-27 | the appearance changes neither the count nor the name of any other handle |
| Featured.RecordNew | src/pages/featured.tsx:37-40 | a new handle is added after the others with count 1 and its name |
| Featured.RecordAllSummarises | src/pages/featured.tsx:25-41 | the `forEach` over an issue's contributors keeps the tallies a summary of everything seen |
| Featured.TallyIssuesSummarises | src/pages/featured.tsx:21-42 | after the loop, every handle that appears has exactly one entry, with its number of appearances and the earliest of its longest names, length counted in UTF-16 code units |
| Featured.MissingIssueSkipped | src/pages/featured.tsx:22-24 | an issue that did not load changes neither the tallies nor the appearances |
| Featured.InsertByCountPermutes | src/pages/featured.tsx:44 | inserting into the sorted list adds exactly the new entry |
| Featured.InsertByCountSorted | src/pages/featured.tsx:44 | inserting keeps the list sorted by count, most first |
| Featured.InsertByCountStable | src/pages/featured.tsx:44 | the new entry goes after every entry with the same count |
| Featured.SortByCount | src/pages/featured.tsx:44 | the sort is a permutation of the tallies |
| Featured.SortByCountSorted | src/pages/featured.tsx:44 | the sort is in descending count |
| Featured.SortByCountStable | src/pages/featured.tsx:44 | entries with equal counts keep their order |
| Featured.SortByCountProps | src/pages/featured.tsx:44 | the sort is a permutation in descending count, and entries with equal counts keep their order |
| Featured.SortByCountHandles | src/pages/featured.tsx:44 | the sort keeps the set of handles and their distinctness |
| Featured.SortedTallies | src/pages/featured.tsx:21-44 | the sorted tallies have one entry per appearing handle, in descending count, each with its count and name |
| Featured.Featuring | src/pages/featured.tsx:45-48 | the first min(12, n) sorted entries, each as its name and handle |
| Featured.TopContributors | src/pages/featured.tsx:44-48 | at most 12 artists are shown, each with a handle that appears in a loaded issue |
| Featured.TopContributorsShape | src/pages/featured.tsx:44-48 | the ranking has min(12, number of distinct handles) artists with distinct handles and non-increasing appearance counts, each under its earliest longest name, length counted in UTF-16 code units |
| Featured.TopContributorsFromInput | src/pages/featured.tsx:47 | every returned name and handle appeared together in some loaded issue |
| Featured.TopContributorsAreTop | src/pages/featured.tsx:44-48 | an artist who appears more often than some shown artist is shown too |
| Featured.LongerNameShown | src/pages/featured.tsx:31-35 | a handle seen twice in one issue is shown once, under the name that is longer in UTF-16 code units |
| Featured.LongestByCodeUnits | src/pages/featured.tsx:33 | a handle seen as two flowers and then as "abc" is shown as the two flowers, which measure 4 |
| IssueViewer.InitialWidth | src/components/issueviewer/IssueViewer.tsx:31-32 | the first width is 800 on a wide screen and 400 otherwise, a multiple of 100 within the limits |
| IssueViewer.Initial | src/components/issueviewer/IssueViewer.tsx:25-32 | the viewer starts on the cover at the initial width, a valid state whatever the page count |
| IssueViewer.ShownPagesExist | src/components/issueviewer/IssueViewer.tsx:70-83 | in a valid state every drawn page number lies in 1..numPages, and the contributors are listed exactly when one side of the spread is empty |
| IssueViewer.KeyPage | src/components/issueviewer/IssueViewer.tsx:35-40 | the page changes exactly for ArrowLeft off the cover or ArrowRight before the last page; it moves by at most 2 in the key's direction and stays within the document |
| IssueViewer.KeyPageForward | src/components/issueviewer/IssueViewer.tsx:38-39 | ArrowRight gives page + 2, or the last page numPages - 1 when that is nearer |
| IssueViewer.KeyPageBack | src/components/issueviewer/IssueViewer.tsx:36-37 | ArrowLeft gives page - 2, or the cover from page 1 or 2 |
| IssueViewer.AsWrittenStep | src/components/issueviewer/IssueViewer.tsx:35-78 | Previous moves back 2 only when page ≥ 2 and Next forward 2 only when page + 2 ≤ numPages; a key moves the page as the key handler does; a click on a drawn left page subtracts 2 and on a drawn right page adds 2, with no bound; resizing leaves the page alone and turning leaves the width alone |
| IssueViewer.AsWrittenButtonsKeepValid | src/components/issueviewer/IssueViewer.tsx:35-78 | the keys, the Previous/Next buttons and the −/+ buttons keep the page within 0..numPages and the width a multiple of 100 within 100..1000 |
| IssueViewer.AsWrittenLeftClickEscapes | src/components/issueviewer/IssueViewer.tsx:70 | in a two-page issue, ArrowRight then a click on the left page reaches page -1 |
| IssueViewer.AsWrittenRightClickEscapes | src/components/issueviewer/IssueViewer.tsx:71 | in a three-page issue, two clicks on the right page reach page 4 |
| IssueViewer.AsWrittenRun | src/components/issueviewer/IssueViewer.tsx:35-78 | a session as written without resizing keeps the width, and one of only resizing keeps the spread |
| IssueViewer.Step | src/components/issueviewer/IssueViewer.tsx:70-71 | with page clicks turning like the arrow keys, every event keeps the viewer valid; the other events are unchanged |
| IssueViewer.Run | src/components/issueviewer/IssueViewer.tsx:35-78 | a corrected session without resizing keeps the width, and one of only resizing keeps the spread |
| IssueViewer.RunKeepsValid | src/components/issueviewer/IssueViewer.tsx:35-83 | the corrected viewer stays valid after any sequence of events |
| IssueViewer.SessionValid | src/components/issueviewer/IssueViewer.tsx:25-83 | every session of the corrected viewer is valid from its start on |
| IssueViewer.NothingTurnsBeforeLoad | src/components/issueviewer/IssueViewer.tsx:26-78 | while the page count is still 0, no event moves the spread off the cover, as written or corrected |

## Left out

- The network and storage effects:
  - the `fetch` calls, JSON parsing and `localStorage` inside `Cart.init`/`Cart.sync`. Responses are parameters, and storage is the `stored` field.
  - Shopify's `send_shopify_request`.
  - the S3 listing and presigning calls. A listing is a sequence of optional keys, and presigning is the object reference it would sign.
  - fetching the issues for the ranking. The ranking takes the fetched list.
- Overlapping `sync` calls (the last response wins): that needs a model of concurrency, not of a sequential transition.
- Floating point:
  - JavaScript `number` prices are whole cents, and quantities are whole numbers (`quantity: number` at `src/components/cart/Cart.tsx:23` and `:59`).
  - the `Float` variant of `ShopifyGraphQLType` and its rendering are not modelled.
- `ItemPayload` has only `product_id` and `quantity`. The other fields of the serde struct are never read by the request builders.
- The iteration order of a Rust `HashMap` is not modelled. A map is a field sequence in one iteration order.
  - An insert of a new key appends it.
  - The line entry's two keys are in source order. `CartRequests.SwappedLineEntry` covers the other order.
- The type form of an `Object` value (`{k: T, …}`) is modelled only by its definition; no lemma states its shape.
- GraphQLActions.NoTrailingSeparator: holds only when the last variable's own JSON text does not end in ", ". A raw `JSON` value can end that way, and the final pop then removes its characters.
- CartRequests.AddItemsDeclarations: for an empty item list the lines are declared `[]!`. That is the code's rendering of an empty array type, not a valid GraphQL type.
- IssueArchive.Contribution: a listed object without a key is modelled as a failure, where the code's `unwrap` panics. An empty listing also fails, as the code's `max().unwrap()` panics.
- IssueArchive.ParseUsize: `usize` is taken to be 64 bits wide.
- Rust's `str::lines` also splits at a final "\r\n". `GraphQLApi.AddTabsKeepsLines` is stated for texts without carriage returns; the cost text it is applied to has none.
- The dead branch at `src/pages/featured.tsx:28-30` is folded away. The count map and the name map always hold the same handles, so the name map always has the handle there.
- In `IssueViewer`, the page count is a parameter of a session: 0 until the document loads, then its number of pages.
  - A reload with a different page count is not modelled.
  - The `window` listener registration is not modelled.
  - Neither is the rendering of the `react-pdf` components.
- Not part of the model:
  - the stale `nnmbackend/src/shopify` and `nnmbackend/src/db` modules;
  - the HTTP routes;
  - the Cognito, DynamoDB and news utilities;
  - the agent tooling;
  - the other React pages and components.

## Findings

| source | as written | input that shows it | evidently intended | confidence | as-written member | corrected member |
|---|---|---|---|---|---|---|
| src/components/issueviewer/IssueViewer.tsx:70-71 | a click on the left page sets `page - 2` and a click on the right page sets `page + 2`, with no bound check; only drawing the page guards the click | a two-page issue: ArrowRight from the cover gives page 1, and a click on the left page then gives page -1, so the viewer asks for page number -1 (likewise two right-page clicks in a three-page issue give page 4) | a page click turns the spread as the arrow keys do, so the page stays within 0..numPages like with every other control | high that the page leaves the document; medium on the intended fix; not executed | IssueViewer.AsWrittenLeftClickEscapes | IssueViewer.RunKeepsValid |

=== FILE: cart_client.dfy ===
/** The browser-side cart: a local mirror of a Shopify cart whose lines are
    keyed by `product_id`.

    The original is a mutable class whose `init` and `sync` await HTTP
    calls and read or write `localStorage`. Here a cart is an immutable
    record, `localStorage`'s `nnmcheckoutID` entry is the `stored` field,
    and each backend response is a parameter of the transition it drives.
    Prices are whole cents.
 */
module CartClient {
  import opened Wrappers
  import opened Strings
  import opened ShopifyIds

  /** `ItemResult`: a purchasable unit as the catalog page describes it;
      `quantity` is the amount to add or remove. */
  datatype Item = Item(
    productId: string, title: string, handle: string, description: string,
    currency: string, price: int, quantity: int)

  /** `CartItemResult`: one cart line. An empty `lineId` marks a line the
      server has not assigned an id to yet. */
  datatype Line = Line(
    lineId: string, title: string, handle: string, description: string,
    currency: string, price: int, productId: string, quantity: int)

  /** One entry of the page's catalog data (`merchData[k].node`): display
      metadata and the `shopifyId`s of its variants, in order. */
  datatype CatalogNode = CatalogNode(
    title: string, handle: string, description: string, variantIds: seq<string>)

  /** A Shopify `CartLine` as the backend returns it. */
  datatype ServerLine = ServerLine(
    id: string, merchandiseId: string, amount: int, currencyCode: string, quantity: int)

  /** The body of `GET /checkout/{id}` and of `GET /create_checkout`. */
  datatype CheckoutResponse = CheckoutResponse(id: string, checkoutUrl: string, lines: seq<ServerLine>)

  /** The body of `POST /request_checkout`. */
  datatype SyncResponse = SyncResponse(id: string, checkoutUrl: string)

  /** The HTTP call a transition makes, if any. */
  datatype Request = FetchCheckout(cartId: string) | CreateCheckout | RequestCheckout(items: seq<Line>)

  /** The cart: `#id`, `#url`, `items`, `merchData`, and the persisted id. */
  datatype Cart = Cart(
    id: string, url: string, items: seq<Line>, stored: Option<string>, catalog: seq<CatalogNode>)

  /** A transition that can throw part-way: the state it leaves behind and
      whether it ran to the end. */
  datatype Outcome = Outcome(cart: Cart, completed: bool)

  // ----- the line-item model -----

  /** A cart line read as an `ItemResult`: TypeScript's structural typing
      lets a line stand for an item, ignoring `line_id`. */
  function AsItem(l: Line): Item {
    Item(l.productId, l.title, l.handle, l.description, l.currency, l.price, l.quantity)
  }

  /** `convertToCartItem`: the line for an item never seen by the server. */
  function ConvertToCartItem(item: Item): (l: Line)
    ensures l.lineId == ""
    ensures AsItem(l) == item
  {
    Line("", item.title, item.handle, item.description, item.currency, item.price,
         item.productId, item.quantity)
  }

  /** Going back and forth loses only the server's line id. */
  lemma ConvertAsItem(l: Line)
    ensures ConvertToCartItem(AsItem(l)) == l.(lineId := "")
  {
  }

  predicate HasVariants(n: CatalogNode) {
    |n.variantIds| > 0
  }

  /** `m.node.variants[0].shopifyId == id` for a node that has variants. */
  predicate Matches(n: CatalogNode, id: string) {
    HasVariants(n) && n.variantIds[0] == id
  }

  /** `merchData.find(...)` stops at node `k` and returns it: every node
      before it has variants and does not match. */
  predicate FirstMatch(catalog: seq<CatalogNode>, id: string, k: nat) {
    && k < |catalog|
    && Matches(catalog[k], id)
    && forall j :: 0 <= j < k ==> HasVariants(catalog[j]) && !Matches(catalog[j], id)
  }

  /** The search of `cartItemFromCartLineAndCtx`, from node `i` on. A node
      without variants throws a `TypeError` when the predicate reads it; running off the
      end leaves `merchline` undefined, which throws on the next access. */
  function FindNodeFrom(catalog: seq<CatalogNode>, id: string, i: nat): (r: Result<nat>)
    requires i <= |catalog|
    decreases |catalog| - i
    ensures r.Ok? ==> i <= r.value < |catalog| && Matches(catalog[r.value], id)
    ensures r.Ok? ==> forall j :: i <= j < r.value ==> HasVariants(catalog[j]) && !Matches(catalog[j], id)
    ensures r.Fail? ==> forall j :: i <= j < |catalog| && Matches(catalog[j], id) ==>
                          exists k :: i <= k < j && !HasVariants(catalog[k])
  {
    if i == |catalog| then Fail("merchline is undefined")
    else if !HasVariants(catalog[i]) then Fail("variants[0] is undefined")
    else if catalog[i].variantIds[0] == id then Ok(i)
    else FindNodeFrom(catalog, id, i + 1)
  }

  /** `cartItemFromCartLineAndCtx`: a server line enriched with the title,
      handle and description of the first catalog node whose first variant
      is the line's merchandise. Everything else comes from the server. */
  function CartItemFromCartLine(cl: ServerLine, catalog: seq<CatalogNode>): (r: Result<Line>)
    ensures r.Ok? <==> exists k: nat :: FirstMatch(catalog, cl.merchandiseId, k)
    ensures r.Ok? ==> && r.value.lineId == cl.id && r.value.productId == cl.merchandiseId
                      && r.value.quantity == cl.quantity && r.value.price == cl.amount
                      && r.value.currency == cl.currencyCode
    ensures r.Ok? ==> exists k: nat :: && FirstMatch(catalog, cl.merchandiseId, k)
                                  && r.value.title == catalog[k].title
                                  && r.value.handle == catalog[k].handle
                                  && r.value.description == catalog[k].description
  {
    match FindNodeFrom(catalog, cl.merchandiseId, 0)
    case Fail(e) =>
      assert forall k: nat :: !FirstMatch(catalog, cl.merchandiseId, k);
      Fail(e)
    case Ok(k) =>
      var node := catalog[k];
      assert FirstMatch(catalog, cl.merchandiseId, k);
      Ok(Line(cl.id, node.title, node.handle, node.description, cl.currencyCode, cl.amount,
              cl.merchandiseId, cl.quantity))
  }

  /** Pushes the values of `rs` onto `items` one by one, stopping at the
      first failure: what has been pushed before it stays. */
  function PushUntilFail(items: seq<Line>, rs: seq<Result<Line>>): (r: (seq<Line>, bool))
    decreases |rs|
    ensures |items| <= |r.0| <= |items| + |rs| && r.0[..|items|] == items
    ensures forall i :: 0 <= i < |r.0| - |items| ==> rs[i] == Ok(r.0[|items| + i])
    ensures r.1 <==> |r.0| == |items| + |rs|
    ensures !r.1 ==> rs[|r.0| - |items|].Fail?
  {
    if |rs| == 0 then (items, true)
    else match rs[0]
      case Fail(_) => (items, false)
      case Ok(l) =>
        var r := PushUntilFail(items + [l], rs[1..]);
        var n := |items|;
        assert r.0[..n] == (r.0[..n + 1])[..n];
        assert r.0[n] == (items + [l])[n];
        assert forall i :: 1 <= i < |r.0| - n ==> rs[i] == rs[1..][i - 1];
        r
  }

  /** The `for (let cartline of ...) this.items.push(...)` loop of `init`:
      lines are appended one by one, and the first line that cannot be
      enriched throws, leaving the lines pushed before it in place. */
  function AppendLines(items: seq<Line>, lines: seq<ServerLine>, catalog: seq<CatalogNode>)
    : (r: (seq<Line>, bool))
    ensures |items| <= |r.0| <= |items| + |lines| && r.0[..|items|] == items
    ensures forall i :: 0 <= i < |r.0| - |items| ==>
              CartItemFromCartLine(lines[i], catalog) == Ok(r.0[|items| + i])
    ensures r.1 ==> |r.0| == |items| + |lines|
    ensures !r.1 ==> |r.0| < |items| + |lines|
                     && CartItemFromCartLine(lines[|r.0| - |items|], catalog).Fail?
  {
    var enriched := seq(|lines|, i requires 0 <= i < |lines| => CartItemFromCartLine(lines[i], catalog));
    assert forall i :: 0 <= i < |lines| ==> enriched[i] == CartItemFromCartLine(lines[i], catalog);
    PushUntilFail(items, enriched)
  }

  // ----- lookups over the line list -----

  /** The number of lines for product `pid`. */
  function CountProduct(items: seq<Line>, pid: string): nat {
    if |items| == 0 then 0
    else (if items[0].productId == pid then 1 else 0) + CountProduct(items[1..], pid)
  }

  /** At most one line per product: the invariant the cart is meant to keep. */
  predicate UniqueProducts(items: seq<Line>) {
    forall i, j :: 0 <= i < j < |items| ==> items[i].productId != items[j].productId
  }

  predicate AllPositive(items: seq<Line>) {
    forall i :: 0 <= i < |items| ==> items[i].quantity > 0
  }

  /** `items.find(i => i.product_id == pid)` */
  function FirstWithProduct(items: seq<Line>, pid: string): (r: Option<Line>)
    ensures r.Some? ==> exists i :: && 0 <= i < |items| && items[i] == r.value
                                    && items[i].productId == pid
                                    && forall j :: 0 <= j < i ==> items[j].productId != pid
    ensures r.None? <==> CountProduct(items, pid) == 0
    ensures r.None? ==> forall i :: 0 <= i < |items| ==> items[i].productId != pid
  {
    if |items| == 0 then None
    else if items[0].productId == pid then Some(items[0])
    else
      var r := FirstWithProduct(items[1..], pid);
      if r.Some? then
        var i :| 0 <= i < |items[1..]| && items[1..][i] == r.value && items[1..][i].productId == pid
                  && forall j :: 0 <= j < i ==> items[1..][j].productId != pid;
        assert items[i + 1] == r.value;
        r
      else
        assert forall i :: 1 <= i < |items| ==> items[i] == items[1..][i - 1];
        r
  }

  /** `items.filter(i => i.product_id != pid)` */
  function WithoutProduct(items: seq<Line>, pid: string): (r: seq<Line>)
    ensures forall l :: l in r <==> l in items && l.productId != pid
    ensures |r| == |items| - CountProduct(items, pid)
    ensures CountProduct(r, pid) == 0
  {
    if |items| == 0 then []
    else if items[0].productId == pid then WithoutProduct(items[1..], pid)
    else
      var rest := WithoutProduct(items[1..], pid);
      assert ([items[0]] + rest)[1..] == rest;
      [items[0]] + rest
  }

  lemma {:induction false} CountProductConcat(a: seq<Line>, b: seq<Line>, pid: string)
    ensures CountProduct(a + b, pid) == CountProduct(a, pid) + CountProduct(b, pid)
    decreases |a|
  {
    if |a| > 0 {
      assert (a + b)[1..] == a[1..] + b;
      CountProductConcat(a[1..], b, pid);
    } else {
      assert a + b == b;
    }
  }

  /** Filtering keeps the other lines in their relative order: it commutes
      with concatenation. */
  lemma {:induction false} WithoutProductConcat(a: seq<Line>, b: seq<Line>, pid: string)
    ensures WithoutProduct(a + b, pid) == WithoutProduct(a, pid) + WithoutProduct(b, pid)
    decreases |a|
  {
    if |a| == 0 {
      assert a + b == b;
    } else {
      assert (a + b)[1..] == a[1..] + b;
      WithoutProductConcat(a[1..], b, pid);
    }
  }

  /** Filtering out a product no line has changes nothing. */
  lemma {:induction false} WithoutAbsentProduct(items: seq<Line>, pid: string)
    requires CountProduct(items, pid) == 0
    ensures WithoutProduct(items, pid) == items
    decreases |items|
  {
    if |items| > 0 {
      WithoutAbsentProduct(items[1..], pid);
      assert items == [items[0]] + items[1..];
    }
  }

  lemma {:induction false} UniqueCountAtMostOne(items: seq<Line>, pid: string)
    requires UniqueProducts(items)
    ensures CountProduct(items, pid) <= 1
    decreases |items|
  {
    if |items| > 0 {
      UniqueCountAtMostOne(items[1..], pid);
      if items[0].productId == pid {
        assert forall i :: 0 <= i < |items[1..]| ==> items[1..][i].productId != pid by {
          forall i | 0 <= i < |items[1..]|
            ensures items[1..][i].productId != pid
          {
            assert items[1..][i] == items[i + 1];
          }
        }
        NoProductCountZero(items[1..], pid);
      }
    }
  }

  lemma {:induction false} NoProductCountZero(items: seq<Line>, pid: string)
    requires forall i :: 0 <= i < |items| ==> items[i].productId != pid
    ensures CountProduct(items, pid) == 0
    decreases |items|
  {
    if |items| > 0 {
      assert forall i :: 0 <= i < |items[1..]| ==> items[1..][i] == items[i + 1];
      NoProductCountZero(items[1..], pid);
    }
  }

  // ----- add_item / remove_item on the line list -----

  /** The line list after `add_item`: the matching line (or a fresh one made
      from the item) is moved to the end with the quantity added. */
  function AddLine(items: seq<Line>, item: Item): (r: seq<Line>)
    ensures |r| > 0 && r[..|r| - 1] == WithoutProduct(items, item.productId)
    ensures CountProduct(r, item.productId) == 1
    ensures r[|r| - 1].productId == item.productId
    ensures FirstWithProduct(items, item.productId).Some? ==>
              var prev := FirstWithProduct(items, item.productId).value;
              r[|r| - 1] == prev.(quantity := prev.quantity + item.quantity)
    ensures FirstWithProduct(items, item.productId).None? ==>
              r[|r| - 1] == ConvertToCartItem(item)
  {
    var filtered := WithoutProduct(items, item.productId);
    var last := match FirstWithProduct(items, item.productId)
      case Some(prev) => prev.(quantity := prev.quantity + item.quantity)
      case None => ConvertToCartItem(item);
    CountProductConcat(filtered, [last], item.productId);
    assert (filtered + [last])[..|filtered|] == filtered;
    filtered + [last]
  }

  /** The line list after `remove_item`: the matching line is decremented
      and moved to the end, or dropped once its quantity is no longer
      positive; a product without a line leaves the list as it was. */
  function RemoveLine(items: seq<Line>, item: Item): (r: seq<Line>)
    ensures FirstWithProduct(items, item.productId).None? ==> r == items
    ensures FirstWithProduct(items, item.productId).Some? ==>
              var prev := FirstWithProduct(items, item.productId).value;
              var q := prev.quantity - item.quantity;
              && (q > 0 ==> r == WithoutProduct(items, item.productId) + [prev.(quantity := q)])
              && (q <= 0 ==> r == WithoutProduct(items, item.productId))
  {
    var filtered := WithoutProduct(items, item.productId);
    match FirstWithProduct(items, item.productId)
    case None =>
      WithoutAbsentProduct(items, item.productId);
      filtered
    case Some(prev) =>
      if prev.quantity - item.quantity > 0 then filtered + [prev.(quantity := prev.quantity - item.quantity)]
      else filtered
  }

  /** After `remove_item` the product has at most one line, and that line
      has a positive quantity. */
  lemma RemoveLineTouched(items: seq<Line>, item: Item)
    ensures var r := RemoveLine(items, item);
            && CountProduct(r, item.productId) <= 1
            && forall i :: 0 <= i < |r| && r[i].productId == item.productId ==> r[i].quantity > 0
  {
    var filtered := WithoutProduct(items, item.productId);
    if FirstWithProduct(items, item.productId).Some? {
      var prev := FirstWithProduct(items, item.productId).value;
      if prev.quantity - item.quantity > 0 {
        var last := prev.(quantity := prev.quantity - item.quantity);
        CountProductConcat(filtered, [last], item.productId);
        assert forall i :: 0 <= i < |filtered| ==> filtered[i] in filtered;
      }
    }
  }

  /** Filtering keeps one line per product. */
  lemma {:induction false} WithoutProductKeepsUnique(items: seq<Line>, pid: string)
    requires UniqueProducts(items)
    ensures UniqueProducts(WithoutProduct(items, pid))
    decreases |items|
  {
    if |items| > 0 {
      var rest := items[1..];
      assert UniqueProducts(rest) by {
        forall a, b | 0 <= a < b < |rest|
          ensures rest[a].productId != rest[b].productId
        {
          assert rest[a] == items[a + 1] && rest[b] == items[b + 1];
        }
      }
      WithoutProductKeepsUnique(rest, pid);
      var w := WithoutProduct(rest, pid);
      if items[0].productId != pid {
        forall b | 0 <= b < |w|
          ensures w[b].productId != items[0].productId
        {
          assert w[b] in rest;
          var k :| 0 <= k < |rest| && rest[k] == w[b];
          assert rest[k] == items[k + 1];
        }
        assert WithoutProduct(items, pid) == [items[0]] + w;
      }
    }
  }

  /** `add_item` keeps one line per product. */
  lemma AddLineKeepsUnique(items: seq<Line>, item: Item)
    requires UniqueProducts(items)
    ensures UniqueProducts(AddLine(items, item))
  {
    var r := AddLine(items, item);
    var f := WithoutProduct(items, item.productId);
    WithoutProductKeepsUnique(items, item.productId);
    assert r == f + [r[|r| - 1]];
    forall i | 0 <= i < |f|
      ensures f[i].productId != item.productId
    {
      assert f[i] in f;
    }
  }

  /** `remove_item` keeps one line per product. */
  lemma RemoveLineKeepsUnique(items: seq<Line>, item: Item)
    requires UniqueProducts(items)
    ensures UniqueProducts(RemoveLine(items, item))
  {
    var r := RemoveLine(items, item);
    var f := WithoutProduct(items, item.productId);
    WithoutProductKeepsUnique(items, item.productId);
    if FirstWithProduct(items, item.productId).Some? && |r| > |f| {
      assert r == f + [r[|r| - 1]];
      forall i | 0 <= i < |f|
        ensures f[i].productId != item.productId
      {
        assert f[i] in f;
      }
    }
  }

  /** Adding at least one unit never produces a line with quantity 0 or less. */
  lemma AddLineKeepsPositive(items: seq<Line>, item: Item)
    requires AllPositive(items) && item.quantity >= 1
    ensures AllPositive(AddLine(items, item))
  {
    var r := AddLine(items, item);
    forall i | 0 <= i < |r|
      ensures r[i].quantity > 0
    {
      if i < |r| - 1 {
        assert r[i] in WithoutProduct(items, item.productId);
      } else if FirstWithProduct(items, item.productId).Some? {
        var prev := FirstWithProduct(items, item.productId).value;
        assert prev in items;
      }
    }
  }

  /** Removing never leaves a line with quantity 0 or less behind. */
  lemma RemoveLineKeepsPositive(items: seq<Line>, item: Item)
    requires AllPositive(items)
    ensures AllPositive(RemoveLine(items, item))
  {
    var r := RemoveLine(items, item);
    forall i | 0 <= i < |r|
      ensures r[i].quantity > 0
    {
      if r[i].productId != item.productId {
        assert r[i] in items;
      }
    }
  }

  // ----- totals -----

  /** Σ price × quantity over the lines. */
  function SumOf(items: seq<Line>): int {
    if |items| == 0 then 0 else items[0].price * items[0].quantity + SumOf(items[1..])
  }

  lemma {:induction false} SumOfAppend(items: seq<Line>, l: Line)
    ensures SumOf(items + [l]) == SumOf(items) + l.price * l.quantity
    decreases |items|
  {
    if |items| > 0 {
      assert (items + [l])[1..] == items[1..] + [l];
      SumOfAppend(items[1..], l);
    } else {
      assert (items + [l])[1..] == [];
    }
  }

  /** The product's line, if any, and the other lines make up the total. */
  lemma {:induction false} SumOfWithout(items: seq<Line>, pid: string)
    requires CountProduct(items, pid) <= 1
    ensures SumOf(items) == SumOf(WithoutProduct(items, pid))
              + match FirstWithProduct(items, pid)
                case Some(l) => l.price * l.quantity
                case None => 0
    decreases |items|
  {
    if |items| > 0 {
      if items[0].productId == pid {
        WithoutAbsentProduct(items[1..], pid);
      } else {
        SumOfWithout(items[1..], pid);
      }
    }
  }

  /** `total()`: the `reduce` over the lines, left to right from 0. */
  method Total(c: Cart) returns (t: int)
    ensures t == SumOf(c.items)
  {
    t := 0;
    var i := 0;
    while i < |c.items|
      invariant 0 <= i <= |c.items|
      invariant t == SumOf(c.items[..i])
    {
      assert c.items[..i + 1] == c.items[..i] + [c.items[i]];
      SumOfAppend(c.items[..i], c.items[i]);
      t := t + c.items[i].price * c.items[i].quantity;
      i := i + 1;
    }
    assert c.items[..i] == c.items;
  }

  /** The price of the line an added item lands on: the existing line's,
      or the item's own for a new line. */
  function LandingPrice(items: seq<Line>, item: Item): int {
    match FirstWithProduct(items, item.productId)
    case Some(l) => l.price
    case None => item.price
  }

  lemma Regroup(sumR: int, sumF: int, sumItems: int, price: int, had: int, added: int)
    requires sumR == sumF + price * (had + added)
    requires sumItems == sumF + price * had
    ensures sumR == sumItems + added * price
  {
  }

  /** Adding `item` raises the total by the quantity added times the price
      of the line it lands on. */
  lemma TotalAfterAdd(items: seq<Line>, item: Item)
    requires UniqueProducts(items)
    ensures SumOf(AddLine(items, item)) == SumOf(items) + item.quantity * LandingPrice(items, item)
  {
    var r := AddLine(items, item);
    var f := WithoutProduct(items, item.productId);
    var last := r[|r| - 1];
    assert SumOf(r) == SumOf(f) + last.price * last.quantity by {
      assert r == f + [last];
      SumOfAppend(f, last);
    }
    var found := FirstWithProduct(items, item.productId);
    if found.Some? {
      var l := found.value;
      assert SumOf(items) == SumOf(f) + l.price * l.quantity by {
        UniqueCountAtMostOne(items, item.productId);
        SumOfWithout(items, item.productId);
      }
      assert last == l.(quantity := l.quantity + item.quantity);
      Regroup(SumOf(r), SumOf(f), SumOf(items), l.price, l.quantity, item.quantity);
    } else {
      assert SumOf(items) == SumOf(f) + item.price * 0 by {
        UniqueCountAtMostOne(items, item.productId);
        SumOfWithout(items, item.productId);
      }
      assert last == ConvertToCartItem(item);
      Regroup(SumOf(r), SumOf(f), SumOf(items), item.price, 0, item.quantity);
    }
  }

  /** `currency()`: the first line's currency, "USD" for an empty cart. */
  function Currency(c: Cart): (r: string)
    ensures |c.items| == 0 ==> r == "USD"
    ensures |c.items| > 0 ==> r == c.items[0].currency
    ensures r == "USD" || exists i :: 0 <= i < |c.items| && c.items[i].currency == r
  {
    if |c.items| != 0 then c.items[0].currency else "USD"
  }

  /** A cart whose lines share one currency reports it. */
  lemma SingleCurrency(c: Cart, cur: string)
    requires |c.items| > 0
    requires forall i :: 0 <= i < |c.items| ==> c.items[i].currency == cur
    ensures Currency(c) == cur
  {
  }

  /** Adding an item in the cart's currency keeps the cart single-currency. */
  lemma AddLineKeepsCurrency(items: seq<Line>, item: Item, cur: string)
    requires forall i :: 0 <= i < |items| ==> items[i].currency == cur
    requires item.currency == cur
    ensures forall i :: 0 <= i < |AddLine(items, item)| ==> AddLine(items, item)[i].currency == cur
  {
    var r := AddLine(items, item);
    forall i | 0 <= i < |r|
      ensures r[i].currency == cur
    {
      if i < |r| - 1 {
        assert r[i] in WithoutProduct(items, item.productId);
      } else if FirstWithProduct(items, item.productId).Some? {
        assert FirstWithProduct(items, item.productId).value in items;
      }
    }
  }

  // ----- the Cart object -----

  /** `new Cart(id, merchData)`; `stored` is whatever `localStorage` holds. */
  function New(id: string, catalog: seq<CatalogNode>, stored: Option<string>): (r: Cart)
    ensures r.items == [] && r.url == "" && r.stored == stored && r.catalog == catalog
    ensures !Contains(id, CartGidPrefix) ==> r.id == id
    ensures forall token :: id == CartGid(token) ==> r.id == token
  {
    StripEveryGid();
    Cart(StripCartGid(id), "", [], stored, catalog)
  }

  /** `set_id`: keeps and persists the id with its first marker deleted. */
  function SetId(c: Cart, id: string): (r: Cart)
    ensures r.stored == Some(r.id)
    ensures r.url == c.url && r.items == c.items && r.catalog == c.catalog
    ensures !Contains(id, CartGidPrefix) ==> r.id == id
    ensures forall token :: id == CartGid(token) ==> r.id == token
  {
    StripEveryGid();
    var s := StripCartGid(id);
    c.(id := s, stored := Some(s))
  }

  /** `dupe()`: a copy built through the constructor, so the id passes
      through the marker deletion once more. */
  function Dupe(c: Cart): (r: Cart)
    ensures r.url == c.url && r.items == c.items && r.stored == c.stored && r.catalog == c.catalog
    ensures !Contains(c.id, CartGidPrefix) ==> r == c
  {
    New(c.id, c.catalog, c.stored).(url := c.url, items := c.items)
  }

  /** A doubly marked id given to the constructor still carries one marker,
      which `dupe` then deletes: the copy's id differs. */
  lemma DupeChangesDoublyMarkedId()
    ensures New(CartGid(CartGid("7")), [], None).id == CartGid("7")
    ensures Dupe(New(CartGid(CartGid("7")), [], None)).id == "7"
  {
    StripNotIdempotent();
  }

  /** `localStorage.getItem(...)` is truthy: present and not empty. */
  predicate HasStoredId(c: Cart) {
    c.stored.Some? && c.stored.value != ""
  }

  /** The one request `init` sends. */
  function InitRequest(c: Cart): (r: Request)
    ensures HasStoredId(c) <==> r.FetchCheckout?
    ensures !HasStoredId(c) <==> r.CreateCheckout?
    ensures r.FetchCheckout? ==> r.cartId == StripCartGid(c.stored.value)
  {
    if HasStoredId(c) then FetchCheckout(StripCartGid(c.stored.value)) else CreateCheckout
  }

  /** `init()`, given the response to `InitRequest`: adopts the stored id
      (or, without one, the response's id), takes the checkout URL, and
      APPENDS the response's lines to whatever `items` already holds. */
  function Init(c: Cart, resp: CheckoutResponse): (r: Outcome)
    ensures HasStoredId(c) ==> r.cart.id == StripCartGid(c.stored.value)
    ensures !HasStoredId(c) ==> r.cart.id == StripCartGid(resp.id)
    ensures r.cart.stored == Some(r.cart.id)
    ensures r.cart.url == resp.checkoutUrl && r.cart.catalog == c.catalog
    ensures |c.items| <= |r.cart.items| <= |c.items| + |resp.lines|
    ensures r.cart.items[..|c.items|] == c.items
    ensures r.completed <==> |r.cart.items| == |c.items| + |resp.lines|
    ensures !r.completed ==> CartItemFromCartLine(resp.lines[|r.cart.items| - |c.items|], c.catalog).Fail?
    ensures forall i :: 0 <= i < |r.cart.items| - |c.items| ==>
              CartItemFromCartLine(resp.lines[i], c.catalog) == Ok(r.cart.items[|c.items| + i])
  {
    var adopted := if HasStoredId(c) then SetId(c, c.stored.value) else SetId(c, resp.id);
    var appended := AppendLines(c.items, resp.lines, c.catalog);
    Outcome(adopted.(url := resp.checkoutUrl, items := appended.0), appended.1)
  }

  /** `init` twice with the same lines doubles them: it never replaces. */
  lemma InitTwiceDuplicates(c: Cart, resp: CheckoutResponse)
    requires c.items == [] && |resp.lines| > 0
    requires Init(c, resp).completed
    ensures var once := Init(c, resp).cart;
            var twice := Init(once, resp);
            twice.completed && |twice.cart.items| == 2 * |resp.lines|
            && twice.cart.items[..|resp.lines|] == twice.cart.items[|resp.lines|..]
  {
    var once := Init(c, resp).cart;
    var twice := Init(once, resp);
    assert once.catalog == c.catalog;
    var n := |resp.lines|;
    assert |once.items| == n;
    assert forall i :: 0 <= i < n ==> CartItemFromCartLine(resp.lines[i], c.catalog).Ok?;
    forall i | 0 <= i < n
      ensures twice.cart.items[..n][i] == twice.cart.items[n..][i]
    {
      assert CartItemFromCartLine(resp.lines[i], c.catalog) == Ok(once.items[i]);
      assert CartItemFromCartLine(resp.lines[i], c.catalog) == Ok(twice.cart.items[n + i]);
    }
  }

  /** The request `sync` sends: none for an empty cart, otherwise every line. */
  function SyncRequest(c: Cart): (r: Option<Request>)
    ensures r.None? <==> |c.items| == 0
    ensures r.Some? ==> r.value == RequestCheckout(c.items)
  {
    if |c.items| == 0 then None else Some(RequestCheckout(c.items))
  }

  /** `sync()`: a no-op for an empty cart; otherwise the response's id
      (stripped and persisted) and URL replace the cart's. The response's
      lines are never merged into `items`. */
  function Sync(c: Cart, resp: SyncResponse): (r: Cart)
    ensures |c.items| == 0 ==> r == c
    ensures |c.items| > 0 ==> && r.id == StripCartGid(resp.id) && r.stored == Some(r.id)
                              && r.url == resp.checkoutUrl
    ensures r.items == c.items && r.catalog == c.catalog
  {
    if |c.items| == 0 then c else SetId(c, resp.id).(url := resp.checkoutUrl)
  }

  /** `add_item`, then the `sync` it awaits, answered by `resp`. */
  function AddItem(c: Cart, item: Item, resp: SyncResponse): (r: Cart)
    ensures r.items == AddLine(c.items, item)
    ensures r.id == StripCartGid(resp.id) && r.stored == Some(r.id) && r.url == resp.checkoutUrl
    ensures r.catalog == c.catalog
  {
    Sync(c.(items := AddLine(c.items, item)), resp)
  }

  /** `remove_item`, then the `sync` it awaits; emptying the cart skips it. */
  function RemoveItem(c: Cart, item: Item, resp: SyncResponse): (r: Cart)
    ensures r.items == RemoveLine(c.items, item)
    ensures |r.items| == 0 ==> r.id == c.id && r.url == c.url && r.stored == c.stored
    ensures |r.items| > 0 ==> && r.id == StripCartGid(resp.id) && r.stored == Some(r.id)
                              && r.url == resp.checkoutUrl
    ensures r.catalog == c.catalog
  {
    Sync(c.(items := RemoveLine(c.items, item)), resp)
  }

  /** The cart's line invariant: one line per product, every quantity positive. */
  predicate ValidLines(items: seq<Line>) {
    UniqueProducts(items) && AllPositive(items)
  }

  /** `add_item` with a positive quantity and `remove_item` with any
      quantity both keep the line invariant. */
  lemma MutatorsKeepValid(c: Cart, item: Item, resp: SyncResponse)
    requires ValidLines(c.items)
    ensures item.quantity >= 1 ==> ValidLines(AddItem(c, item, resp).items)
    ensures ValidLines(RemoveItem(c, item, resp).items)
  {
    if item.quantity >= 1 {
      AddLineKeepsUnique(c.items, item);
      AddLineKeepsPositive(c.items, item);
    }
    RemoveLineKeepsUnique(c.items, item);
    RemoveLineKeepsPositive(c.items, item);
  }

  /** `items` after adding each of `adds` in turn. */
  function AddAll(items: seq<Line>, adds: seq<Item>): seq<Line>
    decreases |adds|
  {
    if |adds| == 0 then items else AddLine(AddAll(items, adds[..|adds| - 1]), adds[|adds| - 1])
  }

  function QuantitySum(adds: seq<Item>): int
    decreases |adds|
  {
    if |adds| == 0 then 0 else QuantitySum(adds[..|adds| - 1]) + adds[|adds| - 1].quantity
  }

  /** A product's only line, when it is the last one, is what `find` returns. */
  lemma {:induction false} OnlyLineIsFirst(items: seq<Line>, pid: string)
    requires |items| > 0 && items[|items| - 1].productId == pid
    requires CountProduct(items, pid) == 1
    ensures FirstWithProduct(items, pid) == Some(items[|items| - 1])
  {
    var init := items[..|items| - 1];
    assert items == init + [items[|items| - 1]];
    CountProductConcat(init, [items[|items| - 1]], pid);
    assert CountProduct(init, pid) == 0;
    assert FirstWithProduct(init, pid).None?;
    assert forall k :: 0 <= k < |init| ==> items[k].productId != pid by {
      forall k | 0 <= k < |init|
        ensures items[k].productId != pid
      {
        assert init[k] == items[k];
      }
    }
    var f := FirstWithProduct(items, pid);
    var i :| 0 <= i < |items| && items[i] == f.value && items[i].productId == pid
             && forall j :: 0 <= j < i ==> items[j].productId != pid;
    assert i == |items| - 1;
  }

  /** Adding the same product repeatedly to a cart without it leaves exactly
      one line for it, last, holding the sum of the added quantities. */
  lemma {:induction false} RepeatedAdds(items: seq<Line>, adds: seq<Item>, pid: string)
    requires |adds| > 0
    requires forall i :: 0 <= i < |adds| ==> adds[i].productId == pid
    requires CountProduct(items, pid) == 0
    ensures var r := AddAll(items, adds);
            |r| > 0 && CountProduct(r, pid) == 1 && r[|r| - 1].productId == pid
            && r[|r| - 1].quantity == QuantitySum(adds)
    decreases |adds|
  {
    var prefix := adds[..|adds| - 1];
    var item := adds[|adds| - 1];
    var before := AddAll(items, prefix);
    if |prefix| == 0 {
      assert before == items;
      assert FirstWithProduct(items, pid).None?;
    } else {
      RepeatedAdds(items, prefix, pid);
      OnlyLineIsFirst(before, pid);
    }
  }
}

=== FILE: cart_requests.dfy ===
/** The three requests the backend sends to Shopify's Storefront API about a
    cart, built with the query builder: read a cart by its token, create an
    empty cart, and add lines to a cart.
 */
module CartRequests {
  import opened Wrappers
  import opened Strings
  import opened ShopifyIds
  import opened GraphQLTypes
  import opened GraphQLApi
  import opened GraphQLActions

  /** A Rust `u32`. */
  type U32 = x: int | 0 <= x < 0x1_0000_0000

  /** The part of an `ItemPayload` the add-lines mutation reads: the variant
      to add and how many. */
  datatype ItemPayload = ItemPayload(productId: string, quantity: U32)

  // ----- one cart line -----

  /** The two entries of a `CartLineInput`. The source collects them into a
      `HashMap`, whose iteration order is not fixed; this is one of the two
      orders, and `SwappedLineEntry` covers the other. */
  function LineEntryFields(itemId: string, qty: U32): (r: seq<Field>)
    ensures Keys(r) == {"merchandiseId", "quantity"} && DistinctKeys(r)
    ensures Lookup(r, "merchandiseId") == Some(ID(itemId))
    ensures Lookup(r, "quantity") == Some(Int(qty))
  {
    var r := [Field("merchandiseId", ID(itemId)), Field("quantity", Int(qty))];
    assert r[0].key == "merchandiseId" && r[1].key == "quantity";
    r
  }

  /** `create_shopify_line_entry`: a value declared as `CartLineInput!` that
      renders as the object `{"merchandiseId": "<id>", "quantity": <n>}`. The
      quantity widens from `u32` to `i64` without loss. */
  function LineEntry(itemId: string, qty: U32): (r: ShopifyGraphQLType)
    ensures TypeString(r) == "CartLineInput" + "!"
    ensures ValueString(r) == "{" + (Entry("merchandiseId", Quoted(itemId)) + ", "
                                     + Entry("quantity", IntToString(qty))) + "}"
  {
    var fs := LineEntryFields(itemId, qty);
    ValueStringObject(fs);
    JoinTwo(EntryValueStrings(fs)[0], EntryValueStrings(fs)[1], ", ");
    assert EntryValueStrings(fs) == [EntryValueStrings(fs)[0], EntryValueStrings(fs)[1]];
    Custom("CartLineInput", Object(fs))
  }

  /** Whichever order the map iterates in, a line entry is the same map with
      the same declared type; only the order of the rendered entries differs. */
  lemma SwappedLineEntry(itemId: string, qty: U32)
    ensures var fs := LineEntryFields(itemId, qty);
            var gs := [fs[1], fs[0]];
            Keys(gs) == Keys(fs) && DistinctKeys(gs)
            && (forall k :: Lookup(gs, k) == Lookup(fs, k))
            && TypeString(Custom("CartLineInput", Object(gs))) == TypeString(LineEntry(itemId, qty))
            && ValueString(Custom("CartLineInput", Object(gs)))
               == "{" + (Entry("quantity", IntToString(qty)) + ", "
                         + Entry("merchandiseId", Quoted(itemId))) + "}"
  {
    var fs := LineEntryFields(itemId, qty);
    var gs := [fs[1], fs[0]];
    assert gs[0].key == "quantity" && gs[1].key == "merchandiseId";
    assert Keys(gs) == Keys(fs) by {
      assert fs[0].key in Keys(fs) && fs[1].key in Keys(fs);
    }
    ValueStringObject(gs);
    JoinTwo(EntryValueStrings(gs)[0], EntryValueStrings(gs)[1], ", ");
    assert EntryValueStrings(gs) == [EntryValueStrings(gs)[0], EntryValueStrings(gs)[1]];
  }

  // ----- add lines -----

  /** One line entry per item, in the order of the payload. */
  function LineEntries(items: seq<ItemPayload>): (r: seq<ShopifyGraphQLType>)
    ensures |r| == |items|
    ensures forall i :: 0 <= i < |items| ==> r[i] == LineEntry(items[i].productId, items[i].quantity)
  {
    seq(|items|, i requires 0 <= i < |items| => LineEntry(items[i].productId, items[i].quantity))
  }

  /** `add_items_mutation`: the `cartLinesAdd` mutation selecting the cart,
      with the cart's global id as `cartId` and the items as `lines`. */
  function AddItemsMutation(cartId: string, items: seq<ItemPayload>): (r: GraphQLQuery)
    ensures r.action == Mutation(Some("cartLinesAdd")) && r.query == CartAPIRepresentation
    ensures r.variables == [Field("cartId", ID(CartGid(cartId))), Field("lines", Array(LineEntries(items)))]
    ensures Label(r) == "cartLinesAdd"
  {
    var q := NewMutation(CartAPIRepresentation, Some("cartLinesAdd"));
    var q1 := AddVariable(q, "cartId", ID(CartGid(cartId)));
    assert Insert(q1.variables, "lines", Array(LineEntries(items)))
        == [q1.variables[0]] + [Field("lines", Array(LineEntries(items)))];
    AddVariable(q1, "lines", Array(LineEntries(items)))
  }

  /** What Shopify receives in the variables of an add-lines request: the
      token the browser kept comes back as the cart, and every item as a line
      of that variant and quantity, in order. */
  lemma AddItemsVariables(cartId: string, items: seq<ItemPayload>)
    ensures var vs := AddItemsMutation(cartId, items).variables;
            Keys(vs) == {"cartId", "lines"} && DistinctKeys(vs)
            && Lookup(vs, "cartId").Some? && StripCartGid(Lookup(vs, "cartId").value.idValue) == cartId
            && Lookup(vs, "lines") == Some(Array(LineEntries(items)))
    ensures forall i :: 0 <= i < |items| ==>
              var fs := LineEntries(items)[i].underlying.fields;
              Lookup(fs, "merchandiseId") == Some(ID(items[i].productId))
              && Lookup(fs, "quantity") == Some(Int(items[i].quantity))
  {
    var vs := AddItemsMutation(cartId, items).variables;
    assert vs[0].key == "cartId" && vs[1].key == "lines";
    StripCartGidOfGid(cartId);
  }

  /** The declarations and the argument list of an add-lines mutation. With
      items the lines are declared `[CartLineInput!]!`; with none the list
      type has no element type at all. */
  lemma AddItemsDeclarations(cartId: string, items: seq<ItemPayload>)
    ensures var vs := AddItemsMutation(cartId, items).variables;
            ArgList(vs) == "(" + (ArgRef("cartId") + ", " + ArgRef("lines")) + ")"
            && (|items| > 0 ==>
                  DeclList(vs) == " (" + (VarDecl("cartId", "ID!") + ", "
                                          + VarDecl("lines", "[" + ("CartLineInput" + "!") + "]!")) + ")")
            && (|items| == 0 ==>
                  DeclList(vs) == " (" + (VarDecl("cartId", "ID!") + ", " + VarDecl("lines", "[" + "" + "]!")) + ")")
  {
    var vs := AddItemsMutation(cartId, items).variables;
    assert ArgRefs(vs) == [ArgRefs(vs)[0], ArgRefs(vs)[1]];
    JoinTwo(ArgRefs(vs)[0], ArgRefs(vs)[1], ", ");
    assert VarDecls(vs) == [VarDecls(vs)[0], VarDecls(vs)[1]];
    JoinTwo(VarDecls(vs)[0], VarDecls(vs)[1], ", ");
  }

  /** The add-lines mutation passes its variables to `cartLinesAdd` and
      selects the whole cart, which it renders without arguments. */
  lemma AddItemsText(cartId: string, items: seq<ItemPayload>)
    ensures var q := AddItemsMutation(cartId, items);
            RenderedText(q)
            == "mutation" + DeclList(q.variables) + " {\n" + (" " + "cartLinesAdd") + ArgList(q.variables)
               + " {\n" + CartText([]) + "\n}\n}"
  {
    var q := AddItemsMutation(cartId, items);
    MutationMatchesReference(q);
  }

  /** The variables JSON of an add-lines request. */
  lemma AddItemsJson(cartId: string, items: seq<ItemPayload>)
    ensures FmtVariables(AddItemsMutation(cartId, items).variables)
            == "{" + (Entry("cartId", Quoted(CartGid(cartId))) + ", "
                      + Entry("lines", ValueString(Array(LineEntries(items))))) + "}"
  {
    var vs := AddItemsMutation(cartId, items).variables;
    assert JsonEntries(vs) == [JsonEntries(vs)[0], JsonEntries(vs)[1]];
    JoinTwo(JsonEntries(vs)[0], JsonEntries(vs)[1], ", ");
  }

  // ----- read a cart -----

  /** `get_cart_query`: a query for the cart whose global id is built from
      the token, passed as the variable `id`. */
  function GetCartQuery(id: string): (r: GraphQLQuery)
    ensures r.action == Query && r.query == CartAPIRepresentation
    ensures r.variables == [Field("id", ID(CartGid(id)))]
    ensures Label(r) == "cart"
  {
    AddVariable(NewQuery(CartAPIRepresentation), "id", ID(CartGid(id)))
  }

  /** The cart query declares `$id: ID!` and selects the cart with all its
      arguments. */
  lemma GetCartText(id: string)
    ensures var q := GetCartQuery(id);
            RenderedText(q) == "query" + (" (" + VarDecl("id", "ID!") + ")") + " {\n" + CartText(q.variables) + "\n}"
  {
    var q := GetCartQuery(id);
    assert "cart" !in Keys(q.variables) by {
      assert q.variables[0].key == "id";
    }
    QueryRendered(q);
    var f := q.variables[0];
    assert TypeString(f.value) == "ID!";
    assert VarDecls(q.variables)[0] == VarDecl("id", "ID!");
  }

  /** The cart selection of the cart query passes `$id` on as
      `cart(id: $id)`. */
  lemma GetCartHead(id: string)
    ensures StartsWith(CartText(GetCartQuery(id).variables), "cart(" + ArgRef("id") + ") {\n\tid\n\tcheckoutUrl\n")
  {
    assert ArgRefs(GetCartQuery(id).variables) == [ArgRef("id")];
  }

  /** The variables JSON of the cart query carries the global id. */
  lemma GetCartJson(id: string)
    ensures FmtVariables(GetCartQuery(id).variables) == "{" + Entry("id", Quoted(CartGid(id))) + "}"
  {
    assert JsonEntries(GetCartQuery(id).variables) == [Entry("id", Quoted(CartGid(id)))];
  }

  // ----- create a cart -----

  /** `create_cart_mutation`: the `cartCreate` mutation, without variables,
      selecting the new cart. */
  function CreateCartMutation(): (r: GraphQLQuery)
    ensures r.action == Mutation(Some("cartCreate")) && r.query == CartAPIRepresentation
    ensures |r.variables| == 0 && Label(r) == "cartCreate"
  {
    GraphQLQuery(Mutation(Some("cartCreate")), CartAPIRepresentation, [])
  }

  /** A mutation without variables has neither declarations nor an argument
      list, and its variables JSON is the empty object. */
  lemma CreateCartText()
    ensures RenderedText(CreateCartMutation())
            == "mutation" + " {\n" + (" " + "cartCreate") + " {\n" + CartText([]) + "\n}\n}"
    ensures FmtVariables(CreateCartMutation().variables) == "{}"
  {
    MutationWithoutVariables(CreateCartMutation(), " " + "cartCreate");
  }
}

=== FILE: featured.dfy ===
/** The featured-artists ranking: every contributor of every issue is
    tallied by handle (how often the handle appears and the longest name
    seen for it), the tallies are sorted by count, most first, and the first
    twelve are shown. Fetching the issues is not modelled: the ranking takes
    the fetched list, in which an issue that failed to load is `None`.
 */
module Featured {
  import opened Wrappers

  datatype Contributor = Contributor(name: string, handle: string)

  /** One entry of the two maps the ranking keeps per handle: the count map
      and the name map. Both are keyed by the same handles, inserted at the
      same time, so they are kept together. */
  datatype Tally = Tally(handle: string, count: nat, name: string)

  /** What the page shows for a featured artist. */
  datatype Featured = Featured(name: string, handle: string)

  /** The most artists the page features. */
  const MaxFeatured: nat := 12

  // ----- the input -----

  /** The contributors of the issues that loaded, in order. */
  function Appearances(issues: seq<Option<seq<Contributor>>>): (r: seq<Contributor>)
    decreases |issues|
  {
    if |issues| == 0 then []
    else Appearances(issues[..|issues| - 1])
         + (match issues[|issues| - 1] case None => [] case Some(cs) => cs)
  }

  function HandlesOf(xs: seq<Contributor>): set<string> {
    set k | 0 <= k < |xs| :: xs[k].handle
  }

  /** How many times `h` appears. */
  function Occurrences(xs: seq<Contributor>, h: string): (r: nat)
    ensures r <= |xs|
    decreases |xs|
  {
    if |xs| == 0 then 0
    else Occurrences(xs[..|xs| - 1], h) + (if xs[|xs| - 1].handle == h then 1 else 0)
  }

  /** JavaScript's `length` of a string: its UTF-16 code units, so a
      character beyond the Basic Multilingual Plane counts twice. */
  function Utf16Length(s: string): (r: nat)
    ensures |s| <= r <= 2 * |s|
    decreases |s|
  {
    if |s| == 0 then 0
    else Utf16Length(s[..|s| - 1]) + (if s[|s| - 1] as int >= 0x1_0000 then 2 else 1)
  }

  /** A name of Basic Multilingual Plane characters is as long as it looks;
      every other character adds one more unit. */
  lemma {:induction false} Utf16LengthBmp(s: string)
    ensures (forall i :: 0 <= i < |s| ==> s[i] as int < 0x1_0000) <==> Utf16Length(s) == |s|
    decreases |s|
  {
    if |s| > 0 {
      var init := s[..|s| - 1];
      Utf16LengthBmp(init);
      if forall i :: 0 <= i < |s| ==> s[i] as int < 0x1_0000 {
        assert forall i :: 0 <= i < |init| ==> init[i] == s[i];
      } else {
        var i :| 0 <= i < |s| && s[i] as int >= 0x1_0000;
        if i < |init| {
          assert init[i] == s[i];
        }
      }
    }
  }

  /** Two flowers are four code units, longer than three letters. */
  lemma Utf16LengthAstral()
    ensures Utf16Length("\U{1F338}\U{1F338}") == 4
    ensures Utf16Length("abc") == 3
  {
    assert "\U{1F338}\U{1F338}"[..1] == "\U{1F338}";
    assert "abc"[..2] == "ab" && "ab"[..1] == "a";
  }

  /** `name` is the name of the earliest appearance of `h` among those with
      the longest name, length as JavaScript measures it. */
  predicate EarliestLongest(xs: seq<Contributor>, h: string, name: string) {
    exists k :: 0 <= k < |xs| && xs[k] == Contributor(name, h)
      && (forall m :: 0 <= m < |xs| && xs[m].handle == h ==> Utf16Length(xs[m].name) <= Utf16Length(name))
      && (forall m :: 0 <= m < k && xs[m].handle == h ==> Utf16Length(xs[m].name) < Utf16Length(name))
  }

  // ----- tallying -----

  predicate DistinctHandles(ts: seq<Tally>) {
    forall i, j :: 0 <= i < j < |ts| ==> ts[i].handle != ts[j].handle
  }

  function TallyHandles(ts: seq<Tally>): set<string> {
    set i | 0 <= i < |ts| :: ts[i].handle
  }

  /** `ts` is what tallying `xs` must give: one entry per handle, with the
      handle's number of appearances and its earliest longest name. */
  predicate Summarises(ts: seq<Tally>, xs: seq<Contributor>) {
    DistinctHandles(ts)
    && TallyHandles(ts) == HandlesOf(xs)
    && forall i :: 0 <= i < |ts| ==>
         ts[i].count == Occurrences(xs, ts[i].handle) && EarliestLongest(xs, ts[i].handle, ts[i].name)
  }

  /** `map.has(h)` / `map.get(h)`: where `h` is kept. */
  function IndexOfHandle(ts: seq<Tally>, h: string): (r: Option<nat>)
    ensures r.Some? ==> r.value < |ts| && ts[r.value].handle == h
    ensures r.None? ==> forall i :: 0 <= i < |ts| ==> ts[i].handle != h
    decreases |ts|
  {
    if |ts| == 0 then None
    else if ts[|ts| - 1].handle == h then Some(|ts| - 1)
    else IndexOfHandle(ts[..|ts| - 1], h)
  }

  /** The name kept for a handle after it is seen as `seen`: the new name
      only when it differs and is strictly longer. */
  function LongerName(kept: string, seen: string): string {
    if kept != seen && Utf16Length(seen) > Utf16Length(kept) then seen else kept
  }

  /** The body of the `forEach`: a known handle counts one more and may take
      the new name; a new handle is added after the others with count 1. */
  function Record(ts: seq<Tally>, c: Contributor): (r: seq<Tally>)
    ensures TallyHandles(r) == TallyHandles(ts) + {c.handle}
    ensures |r| == if c.handle in TallyHandles(ts) then |ts| else |ts| + 1
    ensures forall j :: 0 <= j < |ts| && ts[j].handle != c.handle ==> r[j] == ts[j]
  {
    match IndexOfHandle(ts, c.handle)
    case Some(i) =>
      var t := Tally(c.handle, ts[i].count + 1, LongerName(ts[i].name, c.name));
      UpdateKeepsHandles(ts, i, t);
      ts[i := t]
    case None =>
      AppendAddsHandle(ts, Tally(c.handle, 1, c.name));
      ts + [Tally(c.handle, 1, c.name)]
  }

  /** The `forEach` over one issue's contributors. */
  function RecordAll(ts: seq<Tally>, cs: seq<Contributor>): (r: seq<Tally>)
    ensures TallyHandles(r) == TallyHandles(ts) + HandlesOf(cs)
    decreases |cs|
  {
    if |cs| == 0 then
      assert HandlesOf(cs) == {};
      ts
    else
      var init := cs[..|cs| - 1];
      assert cs == init + [cs[|cs| - 1]];
      HandlesSnoc(init, cs[|cs| - 1]);
      Record(RecordAll(ts, init), cs[|cs| - 1])
  }

  /** The loop over the issues, skipping those that did not load. */
  function TallyIssues(issues: seq<Option<seq<Contributor>>>): (r: seq<Tally>)
    ensures TallyHandles(r) == HandlesOf(Appearances(issues))
    decreases |issues|
  {
    if |issues| == 0 then
      assert TallyHandles([]) == {};
      []
    else
      var init := issues[..|issues| - 1];
      var before := TallyIssues(init);
      match issues[|issues| - 1]
      case None =>
        assert Appearances(issues) == Appearances(init) + [];
        assert Appearances(init) + [] == Appearances(init);
        before
      case Some(cs) =>
        HandlesAppend(Appearances(init), cs);
        RecordAll(before, cs)
  }

  lemma HandlesAppend(xs: seq<Contributor>, ys: seq<Contributor>)
    ensures HandlesOf(xs + ys) == HandlesOf(xs) + HandlesOf(ys)
  {
    var zs := xs + ys;
    forall h | h in HandlesOf(zs)
      ensures h in HandlesOf(xs) + HandlesOf(ys)
    {
      var k :| 0 <= k < |zs| && zs[k].handle == h;
      if k < |xs| {
        assert xs[k].handle == h;
      } else {
        assert ys[k - |xs|].handle == h;
      }
    }
    forall h | h in HandlesOf(xs) + HandlesOf(ys)
      ensures h in HandlesOf(zs)
    {
      if h in HandlesOf(xs) {
        var k :| 0 <= k < |xs| && xs[k].handle == h;
        assert zs[k].handle == h;
      } else {
        var k :| 0 <= k < |ys| && ys[k].handle == h;
        assert zs[|xs| + k].handle == h;
      }
    }
  }

  lemma OccurrencesSnoc(xs: seq<Contributor>, c: Contributor, h: string)
    ensures Occurrences(xs + [c], h) == Occurrences(xs, h) + (if c.handle == h then 1 else 0)
  {
    assert (xs + [c])[..|xs|] == xs;
  }

  lemma HandlesSnoc(xs: seq<Contributor>, c: Contributor)
    ensures HandlesOf(xs + [c]) == HandlesOf(xs) + {c.handle}
  {
    var ys := xs + [c];
    forall h | h in HandlesOf(ys)
      ensures h in HandlesOf(xs) + {c.handle}
    {
      var k :| 0 <= k < |ys| && ys[k].handle == h;
      if k < |xs| {
        assert xs[k].handle == h;
      }
    }
    forall h | h in HandlesOf(xs) + {c.handle}
      ensures h in HandlesOf(ys)
    {
      if h == c.handle {
        assert ys[|xs|].handle == h;
      } else {
        var k :| 0 <= k < |xs| && xs[k].handle == h;
        assert ys[k].handle == h;
      }
    }
  }

  /** An appearance of another handle, or of the same handle with a name no
      longer than the kept one, does not change the kept name. */
  lemma EarliestLongestKept(xs: seq<Contributor>, h: string, name: string, c: Contributor)
    requires EarliestLongest(xs, h, name)
    requires c.handle != h || Utf16Length(c.name) <= Utf16Length(name)
    ensures EarliestLongest(xs + [c], h, name)
  {
    var ys := xs + [c];
    var k :| 0 <= k < |xs| && xs[k] == Contributor(name, h)
      && (forall m :: 0 <= m < |xs| && xs[m].handle == h ==> Utf16Length(xs[m].name) <= Utf16Length(name))
      && (forall m :: 0 <= m < k && xs[m].handle == h ==> Utf16Length(xs[m].name) < Utf16Length(name));
    assert ys[k] == Contributor(name, h);
    forall m | 0 <= m < |ys| && ys[m].handle == h
      ensures Utf16Length(ys[m].name) <= Utf16Length(name)
    {
      if m < |xs| {
        assert ys[m] == xs[m];
      }
    }
    forall m | 0 <= m < k && ys[m].handle == h
      ensures Utf16Length(ys[m].name) < Utf16Length(name)
    {
      assert ys[m] == xs[m];
    }
  }

  /** A strictly longer name, or the first name of a new handle, becomes the
      kept name. */
  lemma EarliestLongestTaken(xs: seq<Contributor>, c: Contributor)
    requires forall m :: 0 <= m < |xs| && xs[m].handle == c.handle ==> Utf16Length(xs[m].name) < Utf16Length(c.name)
    ensures EarliestLongest(xs + [c], c.handle, c.name)
  {
    var ys := xs + [c];
    assert ys[|xs|] == Contributor(c.name, c.handle);
    forall m | 0 <= m < |ys| && ys[m].handle == c.handle
      ensures Utf16Length(ys[m].name) <= Utf16Length(c.name)
    {
      if m < |xs| {
        assert ys[m] == xs[m];
      }
    }
    forall m | 0 <= m < |xs| && ys[m].handle == c.handle
      ensures Utf16Length(ys[m].name) < Utf16Length(c.name)
    {
      assert ys[m] == xs[m];
    }
  }

  /** Every name seen for a handle is at most as long as the kept one. */
  lemma EarliestLongestBound(xs: seq<Contributor>, h: string, name: string)
    requires EarliestLongest(xs, h, name)
    ensures forall m :: 0 <= m < |xs| && xs[m].handle == h ==> Utf16Length(xs[m].name) <= Utf16Length(name)
  {
  }

  /** One appearance keeps the summary exact. */
  lemma RecordSummarises(ts: seq<Tally>, xs: seq<Contributor>, c: Contributor)
    requires Summarises(ts, xs)
    ensures Summarises(Record(ts, c), xs + [c])
  {
    match IndexOfHandle(ts, c.handle)
    case Some(i) => RecordKnown(ts, xs, c, i);
    case None => RecordNew(ts, xs, c);
  }

  /** A handle already tallied: its count goes up, the rest is untouched. */
  lemma RecordKnown(ts: seq<Tally>, xs: seq<Contributor>, c: Contributor, i: nat)
    requires Summarises(ts, xs)
    requires IndexOfHandle(ts, c.handle) == Some(i)
    ensures Summarises(Record(ts, c), xs + [c])
  {
    var ys := xs + [c];
    var r := Record(ts, c);
    HandlesSnoc(xs, c);
    assert c.handle in HandlesOf(xs) by {
      assert ts[i].handle in TallyHandles(ts);
    }
    UpdateKeepsHandles(ts, i, r[i]);
    forall j | 0 <= j < |r|
      ensures r[j].count == Occurrences(ys, r[j].handle) && EarliestLongest(ys, r[j].handle, r[j].name)
    {
      if j == i {
        RecordKnownAt(ts, xs, c, i);
      } else {
        RecordKnownOther(ts, xs, c, j);
      }
    }
  }

  /** The tallied handle itself: one more appearance, and the longer of the
      kept and the new name. */
  lemma RecordKnownAt(ts: seq<Tally>, xs: seq<Contributor>, c: Contributor, i: nat)
    requires Summarises(ts, xs)
    requires i < |ts| && ts[i].handle == c.handle
    ensures ts[i].count + 1 == Occurrences(xs + [c], c.handle)
    ensures EarliestLongest(xs + [c], c.handle, LongerName(ts[i].name, c.name))
  {
    OccurrencesSnoc(xs, c, c.handle);
    EarliestLongestBound(xs, c.handle, ts[i].name);
    if ts[i].name != c.name && Utf16Length(c.name) > Utf16Length(ts[i].name) {
      EarliestLongestTaken(xs, c);
    } else {
      EarliestLongestKept(xs, c.handle, ts[i].name, c);
    }
  }

  /** Any other tallied handle: the appearance changes neither its count nor
      its name. */
  lemma RecordKnownOther(ts: seq<Tally>, xs: seq<Contributor>, c: Contributor, j: nat)
    requires Summarises(ts, xs)
    requires j < |ts| && ts[j].handle != c.handle
    ensures ts[j].count == Occurrences(xs + [c], ts[j].handle)
    ensures EarliestLongest(xs + [c], ts[j].handle, ts[j].name)
  {
    OccurrencesSnoc(xs, c, ts[j].handle);
    EarliestLongestKept(xs, ts[j].handle, ts[j].name, c);
  }

  /** Replacing an entry by one with the same handle keeps the handles. */
  lemma UpdateKeepsHandles(ts: seq<Tally>, i: nat, t: Tally)
    requires i < |ts| && t.handle == ts[i].handle
    ensures TallyHandles(ts[i := t]) == TallyHandles(ts)
    ensures DistinctHandles(ts) ==> DistinctHandles(ts[i := t])
  {
    var r := ts[i := t];
    forall h | h in TallyHandles(ts) ensures h in TallyHandles(r) {
      var j :| 0 <= j < |ts| && ts[j].handle == h;
      assert r[j].handle == h;
    }
    forall h | h in TallyHandles(r) ensures h in TallyHandles(ts) {
      var j :| 0 <= j < |r| && r[j].handle == h;
      assert ts[j].handle == h;
    }
  }

  /** Appending an entry adds its handle. */
  lemma AppendAddsHandle(ts: seq<Tally>, t: Tally)
    ensures TallyHandles(ts + [t]) == TallyHandles(ts) + {t.handle}
    ensures DistinctHandles(ts) && t.handle !in TallyHandles(ts) ==> DistinctHandles(ts + [t])
  {
    var r := ts + [t];
    forall h | h in TallyHandles(r) ensures h in TallyHandles(ts) + {t.handle} {
      var j :| 0 <= j < |r| && r[j].handle == h;
      if j < |ts| {
        assert ts[j].handle == h;
      }
    }
    forall h | h in TallyHandles(ts) + {t.handle} ensures h in TallyHandles(r) {
      if h == t.handle {
        assert r[|ts|].handle == h;
      } else {
        var j :| 0 <= j < |ts| && ts[j].handle == h;
        assert r[j].handle == h;
      }
    }
    if DistinctHandles(ts) && t.handle !in TallyHandles(ts) {
      forall j | 0 <= j < |ts| ensures ts[j].handle != t.handle {
        assert ts[j].handle in TallyHandles(ts);
      }
    }
  }

  /** A new handle: added last with count 1 and its first name. */
  lemma RecordNew(ts: seq<Tally>, xs: seq<Contributor>, c: Contributor)
    requires Summarises(ts, xs)
    requires IndexOfHandle(ts, c.handle).None?
    ensures Summarises(Record(ts, c), xs + [c])
  {
    var ys := xs + [c];
    var r := ts + [Tally(c.handle, 1, c.name)];
    assert Record(ts, c) == r;
    HandlesSnoc(xs, c);
    assert c.handle !in TallyHandles(ts);
    AppendAddsHandle(ts, Tally(c.handle, 1, c.name));
    forall m | 0 <= m < |xs|
      ensures xs[m].handle != c.handle
    {
      assert xs[m].handle in HandlesOf(xs);
    }
    forall j | 0 <= j < |r|
      ensures r[j].count == Occurrences(ys, r[j].handle) && EarliestLongest(ys, r[j].handle, r[j].name)
    {
      OccurrencesSnoc(xs, c, r[j].handle);
      if j < |ts| {
        assert r[j] == ts[j];
        EarliestLongestKept(xs, ts[j].handle, ts[j].name, c);
      } else {
        OccurrencesAbsent(xs, c.handle);
        EarliestLongestTaken(xs, c);
      }
    }
  }

  /** A handle that does not appear has no occurrences. */
  lemma {:induction false} OccurrencesAbsent(xs: seq<Contributor>, h: string)
    requires h !in HandlesOf(xs)
    ensures Occurrences(xs, h) == 0
    decreases |xs|
  {
    if |xs| > 0 {
      var init := xs[..|xs| - 1];
      assert HandlesOf(init) <= HandlesOf(xs) by {
        forall g | g in HandlesOf(init) ensures g in HandlesOf(xs) {
          var k :| 0 <= k < |init| && init[k].handle == g;
          assert xs[k].handle == g;
        }
      }
      OccurrencesAbsent(init, h);
      assert xs[|xs| - 1].handle in HandlesOf(xs);
    }
  }

  lemma {:induction false} RecordAllSummarises(ts: seq<Tally>, xs: seq<Contributor>, cs: seq<Contributor>)
    requires Summarises(ts, xs)
    ensures Summarises(RecordAll(ts, cs), xs + cs)
    decreases |cs|
  {
    if |cs| > 0 {
      var init := cs[..|cs| - 1];
      RecordAllSummarises(ts, xs, init);
      RecordSummarises(RecordAll(ts, init), xs + init, cs[|cs| - 1]);
      assert xs + init + [cs[|cs| - 1]] == xs + cs;
    } else {
      assert xs + cs == xs;
    }
  }

  /** Tallying the issues that loaded summarises exactly their
      contributors: issues that failed to load are skipped. */
  lemma {:induction false} TallyIssuesSummarises(issues: seq<Option<seq<Contributor>>>)
    ensures Summarises(TallyIssues(issues), Appearances(issues))
    decreases |issues|
  {
    if |issues| == 0 {
      assert TallyHandles([]) == {};
      assert HandlesOf([]) == {};
    } else {
      var init := issues[..|issues| - 1];
      TallyIssuesSummarises(init);
      match issues[|issues| - 1]
      case None =>
        assert TallyIssues(issues) == TallyIssues(init);
        assert Appearances(issues) == Appearances(init) + [];
        assert Appearances(init) + [] == Appearances(init);
      case Some(cs) =>
        RecordAllSummarises(TallyIssues(init), Appearances(init), cs);
    }
  }

  /** An issue that failed to load changes nothing. */
  lemma MissingIssueSkipped(issues: seq<Option<seq<Contributor>>>)
    ensures TallyIssues(issues + [None]) == TallyIssues(issues)
    ensures Appearances(issues + [None]) == Appearances(issues)
  {
    assert (issues + [None])[..|issues|] == issues;
  }

  // ----- sorting -----

  predicate Descending(ts: seq<Tally>) {
    forall i, j :: 0 <= i < j < |ts| ==> ts[i].count >= ts[j].count
  }

  /** The entries with count `n`, in order. */
  function WithCount(ts: seq<Tally>, n: nat): seq<Tally>
    decreases |ts|
  {
    if |ts| == 0 then []
    else WithCount(ts[..|ts| - 1], n) + (if ts[|ts| - 1].count == n then [ts[|ts| - 1]] else [])
  }

  /** `t` placed after every entry of a descending sequence whose count is at
      least its own. */
  function InsertByCount(sorted: seq<Tally>, t: Tally): (r: seq<Tally>)
    decreases |sorted|
  {
    if |sorted| == 0 || sorted[|sorted| - 1].count >= t.count then sorted + [t]
    else InsertByCount(sorted[..|sorted| - 1], t) + [sorted[|sorted| - 1]]
  }

  /** `sort((a, b) => b[1] - a[1])`: by count, most first. JavaScript's sort
      is stable, so entries with equal counts keep their order. */
  function SortByCount(ts: seq<Tally>): (r: seq<Tally>)
    ensures multiset(r) == multiset(ts) && |r| == |ts|
    decreases |ts|
  {
    if |ts| == 0 then []
    else
      var init := ts[..|ts| - 1];
      assert ts == init + [ts[|ts| - 1]];
      InsertByCountPermutes(SortByCount(init), ts[|ts| - 1]);
      InsertByCount(SortByCount(init), ts[|ts| - 1])
  }

  lemma WithCountAppend(a: seq<Tally>, b: seq<Tally>, n: nat)
    ensures WithCount(a + b, n) == WithCount(a, n) + WithCount(b, n)
    decreases |b|
  {
    if |b| == 0 {
      assert a + b == a;
    } else {
      var b' := b[..|b| - 1];
      assert (a + b)[..|a + b| - 1] == a + b';
      WithCountAppend(a, b', n);
    }
  }

  lemma {:induction false} InsertByCountPermutes(sorted: seq<Tally>, t: Tally)
    ensures var r := InsertByCount(sorted, t);
            multiset(r) == multiset(sorted) + multiset{t} && |r| == |sorted| + 1
    decreases |sorted|
  {
    if |sorted| > 0 && sorted[|sorted| - 1].count < t.count {
      var init := sorted[..|sorted| - 1];
      assert sorted == init + [sorted[|sorted| - 1]];
      InsertByCountPermutes(init, t);
    }
  }

  lemma {:induction false} InsertByCountSorted(sorted: seq<Tally>, t: Tally)
    requires Descending(sorted)
    ensures Descending(InsertByCount(sorted, t))
    decreases |sorted|
  {
    if |sorted| > 0 && sorted[|sorted| - 1].count < t.count {
      var init := sorted[..|sorted| - 1];
      var last := sorted[|sorted| - 1];
      InsertByCountSorted(init, t);
      InsertByCountPermutes(init, t);
      var r' := InsertByCount(init, t);
      forall i | 0 <= i < |r'|
        ensures r'[i].count >= last.count
      {
        assert r'[i] in multiset(init) + multiset{t};
        if r'[i] != t {
          assert r'[i] in init;
          var k :| 0 <= k < |init| && init[k] == r'[i];
          assert sorted[k] == init[k];
        }
      }
    }
  }

  lemma WithCountSingle(t: Tally, n: nat)
    ensures WithCount([t], n) == if t.count == n then [t] else []
  {
    assert [t][..0] == [];
  }

  /** Appending two pieces in either order agrees when one of them is empty. */
  lemma AppendEitherOrder(a: seq<Tally>, x: seq<Tally>, y: seq<Tally>)
    requires x == [] || y == []
    ensures a + x + y == a + y + x
  {
  }

  lemma {:induction false} InsertByCountStable(sorted: seq<Tally>, t: Tally, n: nat)
    ensures WithCount(InsertByCount(sorted, t), n) == WithCount(sorted, n) + WithCount([t], n)
    decreases |sorted|
  {
    if |sorted| == 0 || sorted[|sorted| - 1].count >= t.count {
      WithCountAppend(sorted, [t], n);
    } else {
      var init := sorted[..|sorted| - 1];
      var last := sorted[|sorted| - 1];
      var rest := InsertByCount(init, t);
      assert InsertByCount(sorted, t) == rest + [last];
      assert sorted == init + [last];
      InsertByCountStable(init, t, n);
      WithCountAppend(rest, [last], n);
      WithCountAppend(init, [last], n);
      WithCountSingle(t, n);
      WithCountSingle(last, n);
      AppendEitherOrder(WithCount(init, n), WithCount([t], n), WithCount([last], n));
    }
  }

  lemma {:induction false} SortByCountProps(ts: seq<Tally>)
    ensures var r := SortByCount(ts);
            Descending(r) && multiset(r) == multiset(ts) && |r| == |ts|
            && (forall n: nat :: WithCount(r, n) == WithCount(ts, n))
  {
    SortByCountSorted(ts);
    forall n: nat ensures WithCount(SortByCount(ts), n) == WithCount(ts, n) {
      SortByCountStable(ts, n);
    }
  }

  lemma {:induction false} SortByCountSorted(ts: seq<Tally>)
    ensures Descending(SortByCount(ts))
    decreases |ts|
  {
    if |ts| > 0 {
      var init := ts[..|ts| - 1];
      SortByCountSorted(init);
      InsertByCountSorted(SortByCount(init), ts[|ts| - 1]);
    }
  }

  lemma {:induction false} SortByCountStable(ts: seq<Tally>, n: nat)
    ensures WithCount(SortByCount(ts), n) == WithCount(ts, n)
    decreases |ts|
  {
    if |ts| > 0 {
      var init := ts[..|ts| - 1];
      var last := ts[|ts| - 1];
      SortByCountStable(init, n);
      InsertByCountStable(SortByCount(init), last, n);
      assert WithCount(ts, n) == WithCount(init, n) + (if last.count == n then [last] else []);
      WithCountSingle(last, n);
    }
  }

  lemma {:induction false} InsertByCountHandles(sorted: seq<Tally>, t: Tally)
    ensures TallyHandles(InsertByCount(sorted, t)) == TallyHandles(sorted) + {t.handle}
    ensures DistinctHandles(sorted) && t.handle !in TallyHandles(sorted) ==> DistinctHandles(InsertByCount(sorted, t))
    decreases |sorted|
  {
    if |sorted| == 0 || sorted[|sorted| - 1].count >= t.count {
      AppendAddsHandle(sorted, t);
    } else {
      var init := sorted[..|sorted| - 1];
      var last := sorted[|sorted| - 1];
      assert sorted == init + [last];
      AppendAddsHandle(init, last);
      InsertByCountHandles(init, t);
      AppendAddsHandle(InsertByCount(init, t), last);
      if DistinctHandles(sorted) && t.handle !in TallyHandles(sorted) {
        forall j | 0 <= j < |init| ensures init[j].handle != last.handle {
          assert sorted[j] == init[j];
        }
        assert DistinctHandles(init) by {
          forall i, j | 0 <= i < j < |init| ensures init[i].handle != init[j].handle {
            assert sorted[i] == init[i] && sorted[j] == init[j];
          }
        }
      }
    }
  }

  lemma {:induction false} SortByCountHandles(ts: seq<Tally>)
    ensures TallyHandles(SortByCount(ts)) == TallyHandles(ts)
    ensures DistinctHandles(ts) ==> DistinctHandles(SortByCount(ts))
    decreases |ts|
  {
    if |ts| > 0 {
      var init := ts[..|ts| - 1];
      var last := ts[|ts| - 1];
      assert ts == init + [last];
      assert SortByCount(ts) == InsertByCount(SortByCount(init), last);
      SortByCountHandles(init);
      InsertByCountHandles(SortByCount(init), last);
      AppendAddsHandle(init, last);
      if DistinctHandles(ts) {
        assert DistinctHandles(init) by {
          forall i, j | 0 <= i < j < |init| ensures init[i].handle != init[j].handle {
            assert ts[i] == init[i] && ts[j] == init[j];
          }
        }
        forall j | 0 <= j < |init| ensures init[j].handle != last.handle {
          assert ts[j] == init[j];
        }
      }
    } else {
      assert TallyHandles([]) == {};
    }
  }

  /** Distinct handles are as many as the entries. */
  lemma {:induction false} DistinctCount(ts: seq<Tally>)
    requires DistinctHandles(ts)
    ensures |TallyHandles(ts)| == |ts|
    decreases |ts|
  {
    if |ts| == 0 {
      assert TallyHandles(ts) == {};
    } else {
      var init := ts[..|ts| - 1];
      var last := ts[|ts| - 1];
      assert ts == init + [last];
      assert DistinctHandles(init) by {
        forall i, j | 0 <= i < j < |init| ensures init[i].handle != init[j].handle {
          assert ts[i] == init[i] && ts[j] == init[j];
        }
      }
      DistinctCount(init);
      AppendAddsHandle(init, last);
      forall j | 0 <= j < |init| ensures init[j].handle != last.handle {
        assert ts[j] == init[j];
      }
    }
  }

  /** The sorted tallies of the issues: a descending list with one entry
      per handle that appears, each with its count and kept name. */
  lemma SortedTallies(issues: seq<Option<seq<Contributor>>>)
    ensures var xs := Appearances(issues);
            var sorted := SortByCount(TallyIssues(issues));
            Descending(sorted) && DistinctHandles(sorted)
            && TallyHandles(sorted) == HandlesOf(xs) && |sorted| == |HandlesOf(xs)|
            && forall i :: 0 <= i < |sorted| ==>
                 sorted[i].count == Occurrences(xs, sorted[i].handle)
                 && EarliestLongest(xs, sorted[i].handle, sorted[i].name)
  {
    var xs := Appearances(issues);
    var ts := TallyIssues(issues);
    var sorted := SortByCount(ts);
    TallyIssuesSummarises(issues);
    SortByCountProps(ts);
    SortByCountHandles(ts);
    DistinctCount(sorted);
    forall i | 0 <= i < |sorted|
      ensures sorted[i].count == Occurrences(xs, sorted[i].handle)
              && EarliestLongest(xs, sorted[i].handle, sorted[i].name)
    {
      assert sorted[i] in multiset(ts);
      var k :| 0 <= k < |ts| && ts[k] == sorted[i];
    }
  }

  // ----- the ranking -----

  /** The first `min(12, n)` sorted entries, each shown with its kept name. */
  function Featuring(sorted: seq<Tally>): (r: seq<Featured>)
    ensures |r| == if |sorted| < MaxFeatured then |sorted| else MaxFeatured
    ensures forall i :: 0 <= i < |r| ==> r[i] == Featured(sorted[i].name, sorted[i].handle)
  {
    var n := if |sorted| < MaxFeatured then |sorted| else MaxFeatured;
    seq(n, i requires 0 <= i < n => Featured(sorted[i].name, sorted[i].handle))
  }

  /** `get_top_contributors`, given the fetched issues. */
  function TopContributors(issues: seq<Option<seq<Contributor>>>): (r: seq<Featured>)
    ensures |r| <= MaxFeatured
    ensures forall i :: 0 <= i < |r| ==> r[i].handle in HandlesOf(Appearances(issues))
  {
    var ts := TallyIssues(issues);
    var sorted := SortByCount(ts);
    HandlesKept(ts, sorted);
    Featuring(sorted)
  }

  /** A rearrangement keeps every handle. */
  lemma HandlesKept(ts: seq<Tally>, sorted: seq<Tally>)
    requires multiset(sorted) == multiset(ts)
    ensures forall i :: 0 <= i < |sorted| ==> sorted[i].handle in TallyHandles(ts)
  {
    forall i | 0 <= i < |sorted|
      ensures sorted[i].handle in TallyHandles(ts)
    {
      assert sorted[i] in multiset(ts);
      var k :| 0 <= k < |ts| && ts[k] == sorted[i];
    }
  }

  /** The ranking shows `min(12, n)` artists for `n` distinct handles, each
      once, most frequent first; each under a name it actually appeared
      with, the earliest of its longest. */
  lemma TopContributorsShape(issues: seq<Option<seq<Contributor>>>)
    ensures var xs := Appearances(issues);
            var r := TopContributors(issues);
            |r| == (if |HandlesOf(xs)| < MaxFeatured then |HandlesOf(xs)| else MaxFeatured)
            && (forall i, j :: 0 <= i < j < |r| ==> r[i].handle != r[j].handle)
            && (forall i, j :: 0 <= i < j < |r| ==> Occurrences(xs, r[i].handle) >= Occurrences(xs, r[j].handle))
            && (forall i :: 0 <= i < |r| ==> EarliestLongest(xs, r[i].handle, r[i].name))
  {
    SortedTallies(issues);
  }

  /** Every returned name and handle appeared together in some loaded
      issue. */
  lemma TopContributorsFromInput(issues: seq<Option<seq<Contributor>>>)
    ensures var xs := Appearances(issues);
            var r := TopContributors(issues);
            forall i :: 0 <= i < |r| ==> exists k :: 0 <= k < |xs| && xs[k] == Contributor(r[i].name, r[i].handle)
  {
    TopContributorsShape(issues);
  }

  /** One issue in which a handle appears twice shows that handle once,
      under the name longer in JavaScript's measure. */
  lemma LongerNameShown(a: Contributor, b: Contributor)
    requires a.handle == b.handle
    requires Utf16Length(a.name) > Utf16Length(b.name)
    ensures TopContributors([Some([a, b])]) == [Featured(a.name, a.handle)]
  {
    var issues := [Some([a, b])];
    var first := Tally(a.handle, 1, a.name);
    var both := Tally(a.handle, 2, a.name);
    assert issues[..0] == [] && [a, b][..1] == [a] && [a][..0] == [];
    assert RecordAll([], [a]) == [first] by {
      assert IndexOfHandle([], a.handle) == None;
    }
    assert RecordAll([], [a, b]) == [both] by {
      assert IndexOfHandle([first], b.handle) == Some(0);
      assert LongerName(a.name, b.name) == a.name;
    }
    assert TallyIssues(issues) == [both];
    assert SortByCount([both]) == [both] by {
      assert [both][..0] == [];
    }
  }

  /** Length is JavaScript's: a name of two flowers outranks a three-letter
      name of the same handle, since it is four code units long. */
  lemma LongestByCodeUnits()
    ensures TopContributors([Some([Contributor("\U{1F338}\U{1F338}", "@a"), Contributor("abc", "@a")])])
            == [Featured("\U{1F338}\U{1F338}", "@a")]
  {
    Utf16LengthAstral();
    LongerNameShown(Contributor("\U{1F338}\U{1F338}", "@a"), Contributor("abc", "@a"));
  }

  /** An artist who appears more often than some artist shown is shown
      too: the ranking is a top twelve. */
  lemma TopContributorsAreTop(issues: seq<Option<seq<Contributor>>>)
    ensures var xs := Appearances(issues);
            var r := TopContributors(issues);
            forall h, i :: h in HandlesOf(xs) && 0 <= i < |r|
                           && Occurrences(xs, h) > Occurrences(xs, r[i].handle)
                           ==> exists j :: 0 <= j < |r| && r[j].handle == h
  {
    var xs := Appearances(issues);
    var sorted := SortByCount(TallyIssues(issues));
    var r := TopContributors(issues);
    SortedTallies(issues);
    forall h, i | h in HandlesOf(xs) && 0 <= i < |r| && Occurrences(xs, h) > Occurrences(xs, r[i].handle)
      ensures exists j :: 0 <= j < |r| && r[j].handle == h
    {
      assert h in TallyHandles(sorted);
      var p :| 0 <= p < |sorted| && sorted[p].handle == h;
      assert r[i].handle == sorted[i].handle;
      assert p < |r|;
      assert r[p].handle == h;
    }
  }
}

=== FILE: graphql_actions.dfy ===
/** `GraphQLQuery`: a query or mutation over one selection together with its
    variables, rendered as GraphQL text, as the JSON object of variable
    values, and as the request payload that carries both.
 */
module GraphQLActions {
  import opened Wrappers
  import opened Strings
  import opened GraphQLTypes
  import opened GraphQLApi

  datatype GraphQLAction = Query | Mutation(name: Option<string>)

  datatype GraphQLQuery = GraphQLQuery(action: GraphQLAction, query: Selection, variables: seq<Field>)

  /** `GraphQLQuery::query`: no variables yet, so the variables JSON is
      empty, and the query is labelled by its selection. */
  function NewQuery(sel: Selection): (r: GraphQLQuery)
    ensures r.action == Query && r.query == sel
    ensures Keys(r.variables) == {} && FmtVariables(r.variables) == "{}"
    ensures Label(r) == sel.Label()
  {
    GraphQLQuery(Query, sel, [])
  }

  /** `GraphQLQuery::mutation`: no variables yet, and labelled by its name
      or, without one, `mutation`. */
  function NewMutation(sel: Selection, name: Option<string>): (r: GraphQLQuery)
    ensures r.action.Mutation? && r.query == sel
    ensures Keys(r.variables) == {} && FmtVariables(r.variables) == "{}"
    ensures Label(r) == name.GetOr("mutation")
  {
    GraphQLQuery(Mutation(name), sel, [])
  }

  /** `HashMap::insert`: an existing key gets the new value in place, a new
      key is added after the others. */
  function Insert(vars: seq<Field>, key: string, value: ShopifyGraphQLType): (r: seq<Field>)
    ensures Lookup(r, key) == Some(value)
    ensures forall k :: k != key ==> Lookup(r, k) == Lookup(vars, k)
    ensures Keys(r) == Keys(vars) + {key}
    decreases |vars|
  {
    if |vars| == 0 then
      assert Keys([Field(key, value)]) == {key} by {
        assert [Field(key, value)][0].key == key;
      }
      [Field(key, value)]
    else if vars[0].key == key then
      var r := [Field(key, value)] + vars[1..];
      assert Keys(r) == Keys(vars) by {
        KeysCons(Field(key, value), vars[1..]);
        KeysCons(vars[0], vars[1..]);
        assert vars == [vars[0]] + vars[1..];
      }
      r
    else
      var rest := Insert(vars[1..], key, value);
      assert Keys([vars[0]] + rest) == Keys(vars) + {key} by {
        KeysCons(vars[0], vars[1..]);
        KeysCons(vars[0], rest);
        assert vars == [vars[0]] + vars[1..];
      }
      [vars[0]] + rest
  }

  /** Inserting keeps the keys distinct. */
  lemma {:induction false} InsertKeepsDistinct(vars: seq<Field>, key: string, value: ShopifyGraphQLType)
    requires DistinctKeys(vars)
    ensures DistinctKeys(Insert(vars, key, value))
    decreases |vars|
  {
    if |vars| > 0 {
      var r := Insert(vars, key, value);
      if vars[0].key != key {
        var rest := Insert(vars[1..], key, value);
        InsertKeepsDistinct(vars[1..], key, value);
        DistinctHead(vars);
        assert r == [vars[0]] + rest;
        DistinctCons(vars[0], rest);
      } else {
        assert forall i :: 0 <= i < |r| ==> r[i].key == vars[i].key;
      }
    }
  }

  /** The map grows by one entry exactly when the key is new. */
  lemma {:induction false} InsertLength(vars: seq<Field>, key: string, value: ShopifyGraphQLType)
    ensures |Insert(vars, key, value)| == if key in Keys(vars) then |vars| else |vars| + 1
    decreases |vars|
  {
    if |vars| > 0 {
      KeysCons(vars[0], vars[1..]);
      assert vars == [vars[0]] + vars[1..];
      if vars[0].key != key {
        InsertLength(vars[1..], key, value);
      }
    }
  }

  lemma DistinctHead(vars: seq<Field>)
    requires |vars| > 0 && DistinctKeys(vars)
    ensures DistinctKeys(vars[1..]) && vars[0].key !in Keys(vars[1..])
  {
    forall i | 0 <= i < |vars[1..]|
      ensures vars[1..][i].key != vars[0].key
    {
      assert vars[1..][i] == vars[i + 1];
    }
  }

  lemma DistinctCons(f: Field, fs: seq<Field>)
    requires DistinctKeys(fs) && f.key !in Keys(fs)
    ensures DistinctKeys([f] + fs)
  {
    var r := [f] + fs;
    forall i, j | 0 <= i < j < |r|
      ensures r[i].key != r[j].key
    {
      assert r[j] == fs[j - 1];
      if i > 0 {
        assert r[i] == fs[i - 1];
      }
    }
  }

  lemma KeysCons(f: Field, fs: seq<Field>)
    ensures Keys([f] + fs) == {f.key} + Keys(fs)
  {
    var s := [f] + fs;
    forall x | x in Keys(s)
      ensures x in {f.key} + Keys(fs)
    {
      var i :| 0 <= i < |s| && s[i].key == x;
      if i > 0 {
        assert fs[i - 1].key == x;
      }
    }
    forall x | x in Keys(fs)
      ensures x in Keys(s)
    {
      var i :| 0 <= i < |fs| && fs[i].key == x;
      assert s[i + 1].key == x;
    }
    assert s[0].key == f.key;
  }

  /** `add_variable`. */
  function AddVariable(q: GraphQLQuery, key: string, value: ShopifyGraphQLType): (r: GraphQLQuery)
    ensures r.action == q.action && r.query == q.query
    ensures Lookup(r.variables, key) == Some(value)
    ensures forall k :: k != key ==> Lookup(r.variables, k) == Lookup(q.variables, k)
    ensures Keys(r.variables) == Keys(q.variables) + {key}
  {
    q.(variables := Insert(q.variables, key, value))
  }

  // ----- the variables JSON -----

  /** How a variable's value appears in the variables JSON: its value form,
      except that an object loses its enclosing braces. */
  function JsonValue(v: ShopifyGraphQLType): (r: string)
    ensures !v.Object? ==> r == ValueString(v)
    ensures v.Object? ==> ValueString(v) == "{" + r + "}"
  {
    if v.Object? then
      ValueStringObject(v.fields);
      Join(EntryValueStrings(v.fields), ", ")
    else ValueString(v)
  }

  /** `"key": value` for every variable, in iteration order. */
  function JsonEntries(vars: seq<Field>): (r: seq<string>)
    ensures |r| == |vars|
    ensures forall i :: 0 <= i < |vars| ==> r[i] == Entry(vars[i].key, JsonValue(vars[i].value))
  {
    seq(|vars|, i requires 0 <= i < |vars| => Entry(vars[i].key, JsonValue(vars[i].value)))
  }

  /** What one variable appends to the text in `get_fmt_variables`: its
      JSON entry and a separator. */
  function FmtEntry(s: string, f: Field): (r: string)
    ensures r == s + (Entry(f.key, JsonValue(f.value)) + ", ")
  {
    var k := f.key;
    var head := s + "\"" + k;
    match f.value
    case ID(v) =>
      QuotedEntry(head, v);
      EntryAppended(s, k, JsonValue(f.value));
      s + "\"" + k + "\": \"" + v + "\", "
    case String(v) =>
      QuotedEntry(head, v);
      EntryAppended(s, k, JsonValue(f.value));
      s + "\"" + k + "\": \"" + v + "\", "
    case Boolean(b) =>
      EntryAppended(s, k, JsonValue(f.value));
      s + "\"" + k + "\": " + (if b then "true" else "false") + ", "
    case Int(n) =>
      EntryAppended(s, k, JsonValue(f.value));
      s + "\"" + k + "\": " + IntToString(n) + ", "
    case JSON(v) =>
      EntryAppended(s, k, JsonValue(f.value));
      s + "\"" + k + "\": " + v + ", "
    case Array(vs) =>
      ArrayEntry(head, vs);
      EntryAppended(s, k, JsonValue(f.value));
      PopSeparator(s + "\"" + k + "\": [" + Terminated(ElemValueStrings(vs), ", ")) + "], "
    case Object(fs) =>
      EntryAppended(s, k, JsonValue(f.value));
      s + "\"" + k + "\": " + Join(EntryValueStrings(fs), ", ") + ", "
    case Custom(_, u) =>
      EntryAppended(s, k, JsonValue(f.value));
      s + "\"" + k + "\": " + ValueString(u) + ", "
  }

  /** The loop of `get_fmt_variables`: the text only grows, and every
      variable leaves a separator behind. */
  function FmtLoop(s: string, vars: seq<Field>): (r: string)
    ensures StartsWith(r, s)
    ensures |vars| > 0 ==> EndsWith(r, ", ")
    decreases |vars|
  {
    if |vars| == 0 then s
    else
      var s' := FmtEntry(s, vars[0]);
      var r := FmtLoop(s', vars[1..]);
      StartsWithConcat(s, Entry(vars[0].key, JsonValue(vars[0].value)) + ", ");
      StartsWithTrans(r, s', s);
      if |vars| == 1 then
        EndsWithConcat(s, Entry(vars[0].key, JsonValue(vars[0].value)) + ", ");
        EndsWithConcat(Entry(vars[0].key, JsonValue(vars[0].value)), ", ");
        EndsWithTrans(s', Entry(vars[0].key, JsonValue(vars[0].value)) + ", ", ", ");
        r
      else r
  }

  /** `s"key": v, ` is `s` followed by the entry and its separator. */
  lemma EntryAppended(s: string, k: string, v: string)
    ensures s + "\"" + k + "\": " + v + ", " == s + (Entry(k, v) + ", ")
  {
    AppendAssoc(s, "\"" + k + "\": " + v, ", ");
    AppendAssoc(s, "\"" + k + "\": ", v);
    AppendAssoc(s, "\"" + k, "\": ");
    AppendAssoc(s, "\"", k);
  }

  /** A quoted value written with the quotes inside the key's literals. */
  lemma QuotedEntry(head: string, v: string)
    ensures head + "\": \"" + v + "\", " == head + "\": " + ("\"" + v + "\"") + ", "
  {
    assert "\": \"" == "\": " + "\"";
    assert "\", " == "\"" + ", ";
    AppendAssoc(head, "\": ", "\"");
    AppendAssoc(head + "\": " + "\"", v, "\"");
    AppendAssoc(head + "\": ", "\"" + v, "\"");
    AppendAssoc(head + "\": ", "\"", v);
    AppendAssoc(head + "\": " + "\"" + v, "\"", ", ");
  }

  /** A list's push-then-pop, seen as its value form. */
  lemma ArrayEntry(head: string, vs: seq<ShopifyGraphQLType>)
    ensures PopSeparator(head + "\": [" + Terminated(ElemValueStrings(vs), ", ")) + "], "
            == head + "\": " + ValueString(Array(vs)) + ", "
  {
    var prefix := head + "\": [";
    assert !EndsWith(prefix, ", ") by {
      assert prefix[|prefix| - 1] == '[';
    }
    PopAfterTerminated(prefix, ElemValueStrings(vs));
    ValueStringArray(vs);
    var j := Join(ElemValueStrings(vs), ", ");
    assert "\": [" == "\": " + "[";
    assert "], " == "]" + ", ";
    AppendAssoc(head, "\": ", "[");
    AppendAssoc(head + "\": " + "[", j, "]");
    AppendAssoc(head + "\": " + "[" + j, "]", ", ");
    AppendAssoc(head + "\": ", "[" + j, "]");
    AppendAssoc(head + "\": ", "[", j);
  }

  lemma {:induction false} FmtLoopTerminated(s: string, vars: seq<Field>)
    ensures FmtLoop(s, vars) == s + Terminated(JsonEntries(vars), ", ")
    decreases |vars|
  {
    if |vars| > 0 {
      var e := JsonEntries(vars)[0];
      var s' := FmtEntry(s, vars[0]);
      var rest := Terminated(JsonEntries(vars[1..]), ", ");
      FmtLoopTerminated(s', vars[1..]);
      assert JsonEntries(vars)[1..] == JsonEntries(vars[1..]);
      assert Terminated(JsonEntries(vars), ", ") == e + ", " + rest;
      AppendAssoc(s, e + ", ", rest);
    } else {
      assert s + "" == s;
    }
  }

  /** A non-empty join is at least as long as its first part. */
  lemma JoinCoversFirst(parts: seq<string>, sep: string)
    requires |parts| > 0
    ensures |Join(parts, sep)| >= |parts[0]|
  {
  }

  /** `get_fmt_variables`: the variables as a JSON object. */
  function FmtVariables(vars: seq<Field>): (r: string)
    ensures r == "{" + Join(JsonEntries(vars), ", ") + "}"
    ensures r == "{}" <==> |vars| == 0
  {
    if |vars| == 0 then "{}"
    else
      FmtLoopTerminated("{", vars);
      PopAfterTerminated("{", JsonEntries(vars));
      JoinCoversFirst(JsonEntries(vars), ", ");
      PopSeparator(FmtLoop("{", vars)) + "}"
  }

  /** Only the final separator is popped: the text has no trailing `", "`
      unless the last value's own text ends in one (a raw `JSON` value can). */
  lemma NoTrailingSeparator(vars: seq<Field>)
    requires |vars| > 0
    requires !EndsWith(JsonEntries(vars)[|vars| - 1], ", ")
    ensures var r := FmtVariables(vars);
            StartsWith(r, "{") && EndsWith(r, "}") && !EndsWith(r[..|r| - 1], ", ")
  {
    var r := FmtVariables(vars);
    var j := Join(JsonEntries(vars), ", ");
    var last := JsonEntries(vars)[|vars| - 1];
    JoinEndsWithLast(JsonEntries(vars), ", ");
    EndsWithSuffix("{", j, last);
    SameLastTwo("{" + j, last);
    DropCloser("{" + j, "}");
    StartsWithConcat("{" + j, "}");
    StartsWithLeft(r, "{", j);
    EndsWithConcat("{" + j, "}");
  }

  /** Two texts, one ending with the other, end in the same two characters. */
  lemma SameLastTwo(a: string, b: string)
    requires EndsWith(a, b) && |b| >= 2
    ensures EndsWith(a, ", ") <==> EndsWith(b, ", ")
  {
    assert a[|a| - 2..] == b[|b| - 2..];
  }

  lemma {:induction false} JoinEndsWithLast(parts: seq<string>, sep: string)
    requires |parts| > 0
    ensures EndsWith(Join(parts, sep), parts[|parts| - 1])
    decreases |parts|
  {
    if |parts| == 1 {
      assert Join(parts, sep) == parts[0];
    } else {
      JoinEndsWithLast(parts[1..], sep);
      EndsWithSuffix(parts[0] + sep, Join(parts[1..], sep), parts[|parts| - 1]);
    }
  }

  /** An object-valued variable appears in the variables JSON WITHOUT the
      braces its value form has. */
  lemma ObjectVariableUnbraced(key: string, fs: seq<Field>)
    ensures var v := ValueString(Object(fs));
            FmtVariables([Field(key, Object(fs))]) == "{" + Entry(key, v[1..|v| - 1]) + "}"
  {
    ValueStringObject(fs);
    var v := ValueString(Object(fs));
    assert v[1..|v| - 1] == Join(EntryValueStrings(fs), ", ");
    assert Join(JsonEntries([Field(key, Object(fs))]), ", ") == JsonEntries([Field(key, Object(fs))])[0];
  }

  // ----- query and mutation text -----

  /** `$k: Type` */
  function VarDecl(key: string, typ: string): string {
    "$" + key + ": " + typ
  }

  /** `$k: Type` for every variable. */
  function VarDecls(vars: seq<Field>): (r: seq<string>)
    ensures |r| == |vars|
    ensures forall i :: 0 <= i < |vars| ==> r[i] == VarDecl(vars[i].key, TypeString(vars[i].value))
  {
    seq(|vars|, i requires 0 <= i < |vars| => VarDecl(vars[i].key, TypeString(vars[i].value)))
  }

  /** The variable declaration list: ` ($k: T, ...)`, or nothing at all. */
  function DeclList(vars: seq<Field>): string {
    if |vars| == 0 then "" else " (" + Join(VarDecls(vars), ", ") + ")"
  }

  /** The argument list of a named mutation: `(k: $k, ...)`, or nothing. */
  function ArgList(vars: seq<Field>): string {
    if |vars| == 0 then "" else "(" + Join(ArgRefs(vars), ", ") + ")"
  }

  /** `keyword` followed by the declaration list, as both renderers build it. */
  function Declared(keyword: string, vars: seq<Field>): (r: string)
    requires !EndsWith(keyword, ", ")
    ensures r == keyword + DeclList(vars)
  {
    if |vars| > 0 then
      PopJoinBracketed(keyword, " (", VarDecls(vars), ")");
      PopSeparator(keyword + " (" + Terminated(VarDecls(vars), ", ")) + ")"
    else keyword
  }

  /** The head of a query: keyword, declarations and the opening brace. */
  function QueryHead(vars: seq<Field>): (r: string)
    ensures r == "query" + DeclList(vars) + " {\n"
  {
    assert !EndsWith("query", ", ");
    Declared("query", vars) + " {\n"
  }

  /** A query text starts with its head and ends by closing the selection. */
  lemma QueryTextShape(vars: seq<Field>, body: string)
    ensures var t := QueryHead(vars) + body + "\n}";
            StartsWith(t, "query" + DeclList(vars) + " {\n") && StartsWith(t, "query") && EndsWith(t, "\n}")
  {
    QueryTextPieces(DeclList(vars), body);
  }

  lemma QueryTextPieces(decls: string, body: string)
    ensures var t := "query" + decls + " {\n" + body + "\n}";
            StartsWith(t, "query" + decls + " {\n") && StartsWith(t, "query") && EndsWith(t, "\n}")
  {
    var h := "query" + decls + " {\n";
    var t := h + body + "\n}";
    assert t == h + (body + "\n}");
    StartsWithConcat(h, body + "\n}");
    StartsWithLeft(t, "query" + decls, " {\n");
    StartsWithLeft(t, "query", decls);
    EndsWithConcat(h + body, "\n}");
  }

  /** `query_to_graphql(args)`. When the selection's label is also a
      variable, the selection receives that variable's value turned into an
      object, looked up in `args` and unwrapped: a missing entry is a panic. */
  function QueryToGraphQL(q: GraphQLQuery, args: seq<Field>): (r: Result<Option<string>>)
    ensures q.action != Query ==> r == Ok(None)
    ensures r.Fail? <==> q.action == Query && q.query.Label() in Keys(q.variables)
                         && q.query.Label() !in Keys(args)
    ensures r.Ok? && q.action == Query ==>
              r.value.Some? && StartsWith(r.value.value, "query" + DeclList(q.variables) + " {\n")
              && StartsWith(r.value.value, "query") && EndsWith(r.value.value, "\n}")
  {
    if q.action != Query then Ok(None)
    else
      var lbl := q.query.Label();
      if lbl in Keys(q.variables) && Lookup(args, lbl).None? then
        Fail("called `Option::unwrap()` on a `None` value")
      else
        var sub := if lbl in Keys(q.variables) then ToObject(Lookup(args, lbl).value, lbl) else args;
        var body := q.query.ToGraphQL(sub);
        QueryTextShape(q.variables, body);
        Ok(Some(QueryHead(q.variables) + body + "\n}"))
  }

  /** The selection of a query receives `to_object` of the variable named by
      its label when there is one, and all the arguments otherwise. */
  lemma QuerySubArguments(q: GraphQLQuery, args: seq<Field>)
    requires q.action == Query
    ensures var lbl := q.query.Label();
            lbl in Keys(q.variables) && lbl in Keys(args) ==>
              QueryToGraphQL(q, args)
              == Ok(Some(QueryHead(q.variables) + q.query.ToGraphQL(ToObject(Lookup(args, lbl).value, lbl)) + "\n}"))
    ensures q.query.Label() !in Keys(q.variables) ==>
              QueryToGraphQL(q, args) == Ok(Some(QueryHead(q.variables) + q.query.ToGraphQL(args) + "\n}"))
  {
  }

  /** A query whose label names no variable renders as its head, the
      selection given every variable, and the closing brace. */
  lemma QueryRendered(q: GraphQLQuery)
    requires q.action == Query && q.query.Label() !in Keys(q.variables)
    ensures RenderedText(q) == QueryHead(q.variables) + q.query.ToGraphQL(q.variables) + "\n}"
  {
    QuerySubArguments(q, q.variables);
  }

  /** The mutation text after the opening `{`: the selection's arguments and
      the selection text `body`, closed twice. */
  function MutationTail(s: string, vars: seq<Field>, body: string): string {
    (if |vars| > 0 then PopSeparator(s + "(" + Terminated(ArgRefs(vars), ", ")) + ")" else s)
    + " {\n" + body + "\n}\n}"
  }

  lemma MutationTailForm(s: string, vars: seq<Field>, body: string)
    ensures MutationTail(s, vars, body) == s + ArgList(vars) + " {\n" + body + "\n}\n}"
  {
    if |vars| > 0 {
      PopJoinBracketed(s, "(", ArgRefs(vars), ")");
    }
  }

  /** `mutation_to_graphql`. A `Query` gets as far as writing the space
      before the name and then returns `None`. */
  function MutationToGraphQL(q: GraphQLQuery): (r: Option<string>)
    ensures r.None? <==> q.action == Query
  {
    assert !EndsWith("mutation", ", ");
    var s := Declared("mutation", q.variables) + " {\n";
    if q.action != Mutation(None) then
      match q.action
      case Mutation(Some(name)) => Some(MutationTail(s + " " + name, q.variables, q.query.ToGraphQL([])))
      case _ => None
    else Some(MutationTail(s, q.variables, q.query.ToGraphQL([])))
  }

  /** The mutation text as one reads it off the GraphQL grammar: declarations,
      the optional name with its argument list, the selection text `body`. */
  function MutationReference(name: Option<string>, vars: seq<Field>, body: string): string {
    var named := match name case Some(n) => " " + n case None => "";
    "mutation" + DeclList(vars) + " {\n" + named + ArgList(vars) + " {\n" + body + "\n}\n}"
  }

  lemma MutationMatchesReference(q: GraphQLQuery)
    requires q.action.Mutation?
    ensures MutationToGraphQL(q) == Some(MutationReference(q.action.name, q.variables, q.query.ToGraphQL([])))
  {
    assert !EndsWith("mutation", ", ");
    var s := Declared("mutation", q.variables) + " {\n";
    var body := q.query.ToGraphQL([]);
    match q.action.name
    case Some(n) =>
      AppendAssoc(s, " ", n);
      MutationTailForm(s + " " + n, q.variables, body);
    case None =>
      assert s == s + "";
      MutationTailForm(s, q.variables, body);
  }

  /** A mutation without variables has neither a declaration list nor an
      argument list. */
  lemma MutationWithoutVariables(q: GraphQLQuery, named: string)
    requires q.action.Mutation? && |q.variables| == 0
    requires named == match q.action.name case Some(n) => " " + n case None => ""
    ensures MutationToGraphQL(q) == Some("mutation" + " {\n" + named + " {\n" + q.query.ToGraphQL([]) + "\n}\n}")
  {
    MutationMatchesReference(q);
    var head := "mutation" + " {\n" + named;
    assert "mutation" + DeclList(q.variables) == "mutation";
    assert head + ArgList(q.variables) == head;
  }

  /** A mutation ends by closing the selection and the mutation, and names
      itself only when it has a name. */
  lemma MutationShape(q: GraphQLQuery)
    requires q.action.Mutation?
    ensures var t := MutationToGraphQL(q).value;
            EndsWith(t, "\n}\n}") && StartsWith(t, "mutation")
            && StartsWith(t, "mutation" + DeclList(q.variables) + " {\n"
                             + (match q.action.name case Some(n) => " " + n case None => "")
                             + ArgList(q.variables) + " {\n")
  {
    MutationMatchesReference(q);
    var named := match q.action.name case Some(n) => " " + n case None => "";
    var head := "mutation" + DeclList(q.variables) + " {\n" + named + ArgList(q.variables) + " {\n";
    var body := q.query.ToGraphQL([]);
    var t := MutationReference(q.action.name, q.variables, body);
    StartsWithConcat(head + body, "\n}\n}");
    StartsWithLeft(t, head, body);
    EndsWithConcat(head + body, "\n}\n}");
    StartsWithLeft(t, "mutation" + DeclList(q.variables) + " {\n" + named + ArgList(q.variables), " {\n");
    StartsWithLeft(t, "mutation" + DeclList(q.variables) + " {\n" + named, ArgList(q.variables));
    StartsWithLeft(t, "mutation" + DeclList(q.variables) + " {\n", named);
    StartsWithLeft(t, "mutation" + DeclList(q.variables), " {\n");
    StartsWithLeft(t, "mutation", DeclList(q.variables));
  }

  /** `label()` of a query: the selection's label, the mutation's name, or
      `mutation`. */
  function Label(q: GraphQLQuery): (r: string)
    ensures q.action == Query ==> r == q.query.Label()
    ensures q.action == Mutation(None) ==> r == "mutation"
    ensures q.action.Mutation? && q.action.name.Some? ==> r == q.action.name.value
  {
    match q.action
    case Query => q.query.Label()
    case Mutation(Some(name)) => name
    case Mutation(None) => "mutation"
  }

  /** `to_graphql(args)` of a query: a mutation ignores `args`; the empty
      fallback for a `None` is never taken. */
  function ToGraphQL(q: GraphQLQuery, args: seq<Field>): (r: Result<string>)
    ensures r.Fail? <==> QueryToGraphQL(q, args).Fail?
    ensures q.action == Query && r.Ok? ==> Ok(Some(r.value)) == QueryToGraphQL(q, args)
    ensures q.action.Mutation? ==> r == Ok(MutationToGraphQL(q).value)
    ensures r.Ok? ==> r.value != ""
  {
    match q.action
    case Query =>
      (match QueryToGraphQL(q, args)
       case Fail(e) => Fail(e)
       case Ok(t) => Ok(t.GetOr("")))
    case Mutation(_) =>
      MutationShape(q);
      Ok(MutationToGraphQL(q).GetOr(""))
  }

  /** The text the payload carries: rendered with the query's own variables
      as arguments, which cannot panic. */
  function RenderedText(q: GraphQLQuery): (r: string)
    ensures ToGraphQL(q, q.variables) == Ok(r)
  {
    match ToGraphQL(q, q.variables)
    case Ok(t) => t
    case Fail(_) => assert false; ""
  }

  /** The first word of a rendered query: `query` or `mutation`. */
  function Keyword(q: GraphQLQuery): string {
    if q.action.Mutation? then "mutation" else "query"
  }

  lemma RenderedKeyword(q: GraphQLQuery)
    ensures StartsWith(RenderedText(q), Keyword(q))
  {
    if q.action.Mutation? {
      MutationShape(q);
    }
  }

  /** What a payload opens with, up to the query text. */
  const QueryOpen: string := "{\"query\":\""

  /** What separates the query text from the variables JSON. */
  const VariablesOpen: string := "\", \"variables\": "

  /** `to_payload`: the rendered text, unescaped, next to the variables
      JSON. */
  function ToPayload(q: GraphQLQuery): (r: string)
    ensures StartsWith(r, QueryOpen + Keyword(q))
    ensures EndsWith(r, "\"variables\": " + FmtVariables(q.variables) + "}")
    ensures var t := RenderedText(q);
            |r| == |QueryOpen| + |t| + |VariablesOpen| + |FmtVariables(q.variables)| + 1
            && r[..|QueryOpen|] == QueryOpen
            && r[|QueryOpen|..|QueryOpen| + |t|] == t
            && r[|QueryOpen| + |t|..] == VariablesOpen + FmtVariables(q.variables) + "}"
  {
    var t := RenderedText(q);
    RenderedKeyword(q);
    PayloadShape(t, FmtVariables(q.variables), Keyword(q));
    QueryOpen + t + VariablesOpen + FmtVariables(q.variables) + "}"
  }

  lemma PayloadShape(t: string, vars: string, keyword: string)
    requires StartsWith(t, keyword)
    ensures var r := QueryOpen + t + VariablesOpen + vars + "}";
            StartsWith(r, QueryOpen + keyword) && EndsWith(r, "\"variables\": " + vars + "}")
            && r[..|QueryOpen|] == QueryOpen
            && r[|QueryOpen|..|QueryOpen| + |t|] == t
            && r[|QueryOpen| + |t|..] == VariablesOpen + vars + "}"
  {
    var r := QueryOpen + t + VariablesOpen + vars + "}";
    var p := QueryOpen;
    assert r == p + t + (VariablesOpen + vars + "}") by {
      AppendAssoc(p + t, VariablesOpen, vars);
      AppendAssoc(p + t, VariablesOpen + vars, "}");
    }
    assert r[..|p + keyword|] == p + keyword by {
      assert r[..|p|] == p;
      assert r[|p|..|p| + |keyword|] == t[..|keyword|];
    }
    var tail := "\"variables\": " + vars + "}";
    assert VariablesOpen + vars + "}" == "\", " + tail by {
      assert VariablesOpen == "\", " + "\"variables\": ";
      AppendAssoc("\", ", "\"variables\": ", vars);
      AppendAssoc("\", ", "\"variables\": " + vars, "}");
    }
    assert r[|r| - |tail|..] == tail;
  }

  /** The payload keeps its two parts apart: two queries with the same
      payload render the same text exactly when their variables JSON
      agree. */
  lemma PayloadParts(a: GraphQLQuery, b: GraphQLQuery)
    requires ToPayload(a) == ToPayload(b)
    ensures RenderedText(a) == RenderedText(b) <==> FmtVariables(a.variables) == FmtVariables(b.variables)
  {
    Unframed(QueryOpen, RenderedText(a), RenderedText(b), VariablesOpen,
             FmtVariables(a.variables), FmtVariables(b.variables));
  }

  /** Two texts built around the same frame agree in their first hole
      exactly when they agree in their second. */
  lemma Unframed(p: string, x: string, y: string, mid: string, u: string, v: string)
    requires p + x + mid + u + "}" == p + y + mid + v + "}"
    ensures x == y <==> u == v
  {
    var r := p + x + mid + u + "}";
    var n := |p|;
    assert r[n..n + |x|] == x;
    assert (p + y + mid + v + "}")[n..n + |y|] == y;
    assert r[n + |x| + |mid|..|r| - 1] == u;
    assert (p + y + mid + v + "}")[n + |y| + |mid|..|r| - 1] == v;
  }
}

=== FILE: graphql_api.dfy ===
/** The cart selection of the Storefront API (`CartAPIRepresentation`), the
    user-error selection, and `Selection`: one value per response type the
    backend can ask for, with the `label`/`to_graphql` pair every one of them
    implements.
 */
module GraphQLApi {
  import opened Wrappers
  import opened Strings
  import opened GraphQLTypes

  // ----- Rust's str::lines -----

  /** A line without its carriage return, if it ends in one. */
  function DropCarriageReturn(l: string): (r: string)
    ensures |r| <= |l|
    ensures r == l[..|r|]
  {
    if |l| > 0 && l[|l| - 1] == '\r' then l[..|l| - 1] else l
  }

  /** `str::lines`: split at every `\n`, drop one `\r` before it, and yield
      no empty line after a final `\n`. */
  function Lines(s: string): (r: seq<string>)
    ensures |r| == 0 <==> |s| == 0
    ensures |r| <= |s|
    decreases |s|
  {
    if |s| == 0 then []
    else match Find(s, "\n")
      case None => [s]
      case Some(i) => [DropCarriageReturn(s[..i])] + Lines(s[i + 1..])
  }

  /** Neither a line feed nor a carriage return occurs in `l`. */
  predicate NoBreaks(l: string) {
    '\n' !in l && '\r' !in l
  }

  predicate NoCarriageReturn(s: string) {
    '\r' !in s
  }

  /** Each line prefixed by `tabs` tab characters and followed by `\n`. */
  function Tabbed(ls: seq<string>, tabs: nat): (r: string)
    ensures |ls| == 0 <==> r == ""
    ensures |ls| > 0 ==> EndsWith(r, "\n")
    decreases |ls|
  {
    if |ls| == 0 then ""
    else
      var r := Repeat('\t', tabs) + ls[0] + "\n" + Tabbed(ls[1..], tabs);
      assert r[|r| - 1] == '\n' by {
        if |ls| == 1 {
          assert r == Repeat('\t', tabs) + ls[0] + "\n";
        }
      }
      r
  }

  /** `add_tabs_to_lines`. */
  function AddTabsToLines(s: string, tabs: nat): (r: string)
    ensures r == "" <==> Lines(s) == []
    ensures r != "" ==> EndsWith(r, "\n")
  {
    Tabbed(Lines(s), tabs)
  }

  /** The lines of `s`, each indented by `tabs` tabs. */
  function Indented(ls: seq<string>, tabs: nat): (r: seq<string>)
    ensures |r| == |ls|
    ensures forall i :: 0 <= i < |ls| ==> r[i] == Repeat('\t', tabs) + ls[i]
  {
    seq(|ls|, i requires 0 <= i < |ls| => Repeat('\t', tabs) + ls[i])
  }

  /** A line-feed-free piece followed by `\n` is one line. */
  lemma LinesCons(a: string, rest: string)
    requires forall k :: 0 <= k < |a| ==> a[k] != '\n'
    ensures Lines(a + "\n" + rest) == [DropCarriageReturn(a)] + Lines(rest)
  {
    var s := a + "\n" + rest;
    assert OccursAt(s, "\n", |a|);
    forall j: nat | j < |a|
      ensures !OccursAt(s, "\n", j)
    {
      assert s[j..j + 1] == [a[j]];
    }
    assert Find(s, "\n") == Some(|a|);
    assert s[..|a|] == a;
    assert s[|a| + 1..] == rest;
  }

  /** The lines `str::lines` yields contain no line feed, and no carriage
      return when the text has none. */
  lemma {:induction false} LinesHaveNoBreaks(s: string)
    requires NoCarriageReturn(s)
    ensures forall i :: 0 <= i < |Lines(s)| ==> NoBreaks(Lines(s)[i])
    decreases |s|
  {
    if |s| > 0 {
      match Find(s, "\n")
      case None =>
        forall k | 0 <= k < |s|
          ensures s[k] != '\n'
        {
          assert !OccursAt(s, "\n", k);
          assert s[k..k + 1] == [s[k]];
        }
      case Some(i) =>
        var head := s[..i];
        forall k | 0 <= k < |head|
          ensures head[k] != '\n'
        {
          assert !OccursAt(s, "\n", k);
          assert s[k..k + 1] == [s[k]];
        }
        assert NoCarriageReturn(s[i + 1..]) by {
          assert s == s[..i + 1] + s[i + 1..];
        }
        LinesHaveNoBreaks(s[i + 1..]);
        var d := DropCarriageReturn(head);
        assert NoBreaks(d) by {
          assert head == d + head[|d|..];
          assert s == head + s[i..];
        }
    }
  }

  lemma {:induction false} LinesOfTabbed(ls: seq<string>, tabs: nat)
    requires forall i :: 0 <= i < |ls| ==> NoBreaks(ls[i])
    ensures Lines(Tabbed(ls, tabs)) == Indented(ls, tabs)
    decreases |ls|
  {
    if |ls| > 0 {
      var a := Repeat('\t', tabs) + ls[0];
      assert NoBreaks(a);
      assert Tabbed(ls, tabs) == a + "\n" + Tabbed(ls[1..], tabs);
      LinesCons(a, Tabbed(ls[1..], tabs));
      assert DropCarriageReturn(a) == a;
      LinesOfTabbed(ls[1..], tabs);
      assert Indented(ls, tabs) == [a] + Indented(ls[1..], tabs);
    }
  }

  /** `add_tabs_to_lines` emits one line per input line: the same text behind
      `tabs` tab characters, in the same order. */
  lemma AddTabsKeepsLines(s: string, tabs: nat)
    requires NoCarriageReturn(s)
    ensures Lines(AddTabsToLines(s, tabs)) == Indented(Lines(s), tabs)
  {
    LinesHaveNoBreaks(s);
    LinesOfTabbed(Lines(s), tabs);
  }

  // ----- the cart selection -----

  /** `k: $k`: an argument bound to the variable of the same name. */
  function ArgRef(key: string): string {
    key + ": $" + key
  }

  /** `k: $k` for every argument: the cart passes each variable through. */
  function ArgRefs(args: seq<Field>): (r: seq<string>)
    ensures |r| == |args|
    ensures forall i :: 0 <= i < |args| ==> r[i] == ArgRef(args[i].key)
  {
    seq(|args|, i requires 0 <= i < |args| => ArgRef(args[i].key))
  }

  /** The start of `CartAPIRepresentation::to_graphql`. With arguments the
      two characters of the last separator are popped unconditionally. */
  function CartHead(args: seq<Field>): (r: string)
    ensures |args| == 0 ==> r == "cart {\n\tid\n\tcheckoutUrl\n"
    ensures |args| > 0 ==> r == "cart(" + Join(ArgRefs(args), ", ") + ") {\n\tid\n\tcheckoutUrl\n"
  {
    if |args| > 0 then
      var t := "cart(" + Terminated(ArgRefs(args), ", ");
      TerminatedIsJoinPlusSep(ArgRefs(args), ", ");
      assert t == "cart(" + Join(ArgRefs(args), ", ") + ", ";
      t[..|t| - 2] + ") {\n\tid\n\tcheckoutUrl\n"
    else
      "cart {\n\tid\n\tcheckoutUrl\n"
  }

  /** The cost selection, without arguments, one tab deeper. */
  const CartCostBlock: string := AddTabsToLines(CostText([]), 1)

  /** The line-item connection the cart selects, at most 250 lines. */
  const CartLinesSelection: string := "lines(first: 250) {\nnodes " + LineItemText + "\n}\n}"

  const CartTail: string := "\ntotalQuantity\n" + CartLinesSelection

  /** `CartAPIRepresentation::to_graphql`. */
  function CartText(args: seq<Field>): (r: string)
    ensures |r| == |CartHead(args)| + |CartCostBlock| + |CartTail|
    ensures StartsWith(r, CartHead(args))
    ensures EndsWith(r, CartLinesSelection)
    ensures r[|CartHead(args)|..|r| - |CartTail|] == CartCostBlock
  {
    ThreePieces(CartHead(args), CartCostBlock, CartTail);
    EndsWithConcat("\ntotalQuantity\n", CartLinesSelection);
    EndsWithTrans(CartHead(args) + CartCostBlock + CartTail, CartTail, CartLinesSelection);
    CartHead(args) + CartCostBlock + CartTail
  }

  lemma ThreePieces(a: string, b: string, c: string)
    ensures |a + b + c| == |a| + |b| + |c|
    ensures StartsWith(a + b + c, a)
    ensures EndsWith(a + b + c, c)
    ensures (a + b + c)[|a|..|a + b + c| - |c|] == b
  {
    var r := a + b + c;
    assert r[..|a|] == a;
    assert r[|r| - |c|..] == c;
    assert r[|a|..|r| - |c|] == b;
  }

  /** The cost block inside the cart text: every line of the cost selection,
      behind one tab. */
  lemma CartCostBlockLines()
    ensures Lines(CartCostBlock) == Indented(Lines(CostText([])), 1)
  {
    CostFieldsNoCarriageReturn();
    NoCarriageReturnAppend("cost {\n", CostFields);
    assert CostText([]) == "cost {\n" + CostFields;
    AddTabsKeepsLines(CostText([]), 1);
  }

  lemma CostFieldsNoCarriageReturn()
    ensures NoCarriageReturn(CostFields)
  {
    MoneyFieldNoCarriageReturn("checkoutChargeAmount");
    MoneyFieldNoCarriageReturn("subtotalAmount");
    MoneyFieldNoCarriageReturn("totalAmount");
    MoneyFieldNoCarriageReturn("totalDutyAmount");
    MoneyFieldNoCarriageReturn("totalTaxAmount");
    var a := MoneyField("checkoutChargeAmount") + MoneyField("subtotalAmount");
    NoCarriageReturnAppend(MoneyField("checkoutChargeAmount"), MoneyField("subtotalAmount"));
    NoCarriageReturnAppend(a, "subtotalAmountEstimated\n");
    var b := a + "subtotalAmountEstimated\n";
    NoCarriageReturnAppend(b, MoneyField("totalAmount"));
    NoCarriageReturnAppend(b + MoneyField("totalAmount"), "totalAmountEstimated\n");
    var c := b + MoneyField("totalAmount") + "totalAmountEstimated\n";
    NoCarriageReturnAppend(c, MoneyField("totalDutyAmount"));
    NoCarriageReturnAppend(c + MoneyField("totalDutyAmount"), "totalDutyAmountEstimated\n");
    var d := c + MoneyField("totalDutyAmount") + "totalDutyAmountEstimated\n";
    NoCarriageReturnAppend(d, MoneyField("totalTaxAmount"));
    NoCarriageReturnAppend(d + MoneyField("totalTaxAmount"), "totalTaxAmountEstimated\n}");
  }

  lemma MoneyFieldNoCarriageReturn(name: string)
    requires NoCarriageReturn(name)
    ensures NoCarriageReturn(MoneyField(name))
  {
    assert NoCarriageReturn(MoneyV2Text);
    NoCarriageReturnAppend(name, " ");
    NoCarriageReturnAppend(name + " ", MoneyV2Text);
    NoCarriageReturnAppend(name + " " + MoneyV2Text, "\n");
  }

  lemma NoCarriageReturnAppend(a: string, b: string)
    requires NoCarriageReturn(a) && NoCarriageReturn(b)
    ensures NoCarriageReturn(a + b)
  {
  }

  // ----- selections -----

  /** The user-error selection: the field at fault and the message. */
  const UserErrorText: string := "{ field" + "\n" + "message }"

  /** The user-error selection asks for two fields, one per line, whatever
      the arguments. */
  lemma UserErrorFields(args: seq<Field>)
    ensures Lines(UserError.ToGraphQL(args)) == ["{ field", "message }"]
  {
    LinesCons("{ field", "message }");
    assert DropCarriageReturn("{ field") == "{ field";
    SingleLine("message }");
  }

  /** Text without a line feed is one line. */
  lemma SingleLine(s: string)
    requires |s| > 0 && '\n' !in s
    ensures Lines(s) == [s]
  {
    assert !Contains(s, "\n") by {
      forall j: nat | j <= |s|
        ensures !OccursAt(s, "\n", j)
      {
        if j < |s| {
          assert s[j..j + 1] == [s[j]];
        }
      }
    }
    assert Find(s, "\n") == None;
  }

  /** The response types a query or mutation can select. */
  datatype Selection =
    | MoneyV2
    | CostRepresentation
    | CartLineCost
    | Merchandise
    | LineItem
    | CartAPIRepresentation
    | UserError
  {
    /** `label()`: the field name the selection is asked for under. */
    function Label(): (r: string)
      ensures r == "cost" <==> this.MoneyV2? || this.CostRepresentation? || this.CartLineCost?
      ensures r == "cart" <==> this.CartAPIRepresentation?
      ensures r == "merchandise" <==> this.Merchandise?
      ensures r == "lines" <==> this.LineItem?
      ensures r == "userError" <==> this.UserError?
    {
      match this
      case MoneyV2 => "cost"
      case CostRepresentation => "cost"
      case CartLineCost => "cost"
      case Merchandise => "merchandise"
      case LineItem => "lines"
      case CartAPIRepresentation => "cart"
      case UserError => "userError"
    }

    /** `to_graphql(args)`: every selection set is closed by a brace. */
    function ToGraphQL(args: seq<Field>): (r: string)
      ensures EndsWith(r, "}")
      ensures this.CostRepresentation? ==> StartsWith(r, if |args| == 0 then "cost {\n" else "cost(")
      ensures this.CartAPIRepresentation? ==> StartsWith(r, CartHead(args))
      ensures this.MoneyV2? ==> r == MoneyV2Text
      ensures this.CostRepresentation? ==> r == CostText(args)
      ensures this.CartLineCost? ==> r == CartLineCostText
      ensures this.Merchandise? ==> r == MerchandiseText
      ensures this.LineItem? ==> r == LineItemText
      ensures this.CartAPIRepresentation? ==> r == CartText(args)
      ensures this.UserError? ==> r == UserErrorText
    {
      FixedTextsClosed();
      ArgumentTextsClosed(args);
      match this
      case MoneyV2 => MoneyV2Text
      case CostRepresentation => CostText(args)
      case CartLineCost => CartLineCostText
      case Merchandise => MerchandiseText
      case LineItem => LineItemText
      case CartAPIRepresentation => CartText(args)
      case UserError => UserErrorText
    }
  }

  /** The cost and cart texts are closed by a brace, and the cost text with
      arguments opens its argument list. */
  lemma ArgumentTextsClosed(args: seq<Field>)
    ensures EndsWith(CostText(args), "}") && EndsWith(CartText(args), "}")
    ensures |args| > 0 ==> StartsWith(CostText(args), "cost(")
  {
    if |args| > 0 {
      StartsWithTrans(CostText(args), "cost(" + Join(ArgTypeDecls(args), ", ") + ", ) {\n", "cost(");
    }
    EndsWithTrans(CostText(args), "totalTaxAmountEstimated\n}", "}");
    FixedTextsClosed();
    EndsWithTrans(CartText(args), CartLinesSelection, "}");
  }

  /** Every fixed selection text ends with a closing brace. */
  lemma FixedTextsClosed()
    ensures EndsWith(MoneyV2Text, "}") && EndsWith(CartLineCostText, "}")
    ensures EndsWith(MerchandiseText, "}") && EndsWith(LineItemText, "}")
    ensures EndsWith(CartLinesSelection, "}") && EndsWith(UserErrorText, "}")
  {
    EndsWithConcat("{\n\tamount\n\tcurrencyCode\n", "}");
    EndsWithConcat("{\n\tamountPerQuantity " + MoneyV2Text + "\n\tsubtotalAmount " + MoneyV2Text
                   + "\n\ttotalAmount " + MoneyV2Text, "\n}");
    EndsWithTrans(CartLineCostText, "\n}", "}");
    EndsWithConcat("{\n... on ProductVariant {\nid\ntitle\n}\n", "}");
    EndsWithConcat("{\nid\nquantity\nmerchandise " + MerchandiseText + "\ncost " + CartLineCostText, "}");
    EndsWithConcat("lines(first: 250) {\nnodes " + LineItemText, "\n}\n}");
    EndsWithTrans(CartLinesSelection, "\n}\n}", "}");
    EndsWithConcat("{ field" + "\n", "message }");
    EndsWithConcat("message ", "}");
    EndsWithTrans(UserErrorText, "message }", "}");
  }

  /** Only the cost and cart selections look at their arguments. */
  lemma ArgumentsIgnored(sel: Selection, a: seq<Field>, b: seq<Field>)
    requires !sel.CostRepresentation? && !sel.CartAPIRepresentation?
    ensures sel.ToGraphQL(a) == sel.ToGraphQL(b)
  {
  }

  /** The cart selection lists every argument as `k: $k` with no trailing
      separator, and without arguments has no argument list at all. */
  lemma CartArgumentList(args: seq<Field>)
    ensures var r := CartAPIRepresentation.ToGraphQL(args);
            (|args| == 0 ==> StartsWith(r, "cart {\n\tid\n\tcheckoutUrl\n"))
            && (|args| > 0 ==> StartsWith(r, "cart(" + Join(ArgRefs(args), ", ") + ") {\n\tid\n\tcheckoutUrl\n"))
  {
  }
}

=== FILE: graphql_types.dfy ===
/** `ShopifyGraphQLType`, the values the backend sends to Shopify's
    Storefront API, with their two renderings: the value form (a GraphQL
    literal, `to_value_string`) and the type form (the type of a variable
    declaration, `to_string`). A Rust `HashMap` is a sequence of fields in
    the order the map is iterated; every statement about rendered text is
    about that order.

    Also the fixed selection sets of the response types declared beside it
    (`MoneyV2`, `CostRepresentation`, `CartLineCost`, `Merchandise`,
    `LineItem`).
 */
module GraphQLTypes {
  import opened Wrappers
  import opened Strings

  /** A Rust `i64`. */
  type I64 = x: int | -0x8000_0000_0000_0000 <= x < 0x8000_0000_0000_0000

  datatype ShopifyGraphQLType =
    | ID(idValue: string)
    | String(stringValue: string)
    | Boolean(boolValue: bool)
    | Int(intValue: I64)
    | JSON(jsonText: string)
    | Array(elems: seq<ShopifyGraphQLType>)
    | Object(fields: seq<Field>)
    | Custom(typeName: string, underlying: ShopifyGraphQLType)

  /** One entry of a `HashMap<String, ShopifyGraphQLType>`. */
  datatype Field = Field(key: string, value: ShopifyGraphQLType)

  // ----- the map model -----

  function Keys(fs: seq<Field>): set<string> {
    set i | 0 <= i < |fs| :: fs[i].key
  }

  predicate DistinctKeys(fs: seq<Field>) {
    forall i, j :: 0 <= i < j < |fs| ==> fs[i].key != fs[j].key
  }

  /** `map.get(k)`: the value stored under `k`. */
  function Lookup(fs: seq<Field>, k: string): (r: Option<ShopifyGraphQLType>)
    ensures r.Some? <==> k in Keys(fs)
    ensures r.Some? ==> Field(k, r.value) in fs
  {
    if |fs| == 0 then None
    else if fs[0].key == k then Some(fs[0].value)
    else
      var r := Lookup(fs[1..], k);
      assert Keys(fs) == {fs[0].key} + Keys(fs[1..]) by {
        forall x | x in Keys(fs)
          ensures x in {fs[0].key} + Keys(fs[1..])
        {
          var i :| 0 <= i < |fs| && fs[i].key == x;
          if i > 0 {
            assert fs[1..][i - 1].key == x;
          }
        }
      }
      r
  }

  // ----- value form -----

  /** `to_value_string`. Strings and ids are put between double quotes
      without any escaping; lists and objects push `item, ` for every
      element and pop the last separator. */
  function ValueString(t: ShopifyGraphQLType): (r: string)
    ensures t.ID? || t.String? ==> |r| >= 2 && r[0] == '"' && r[|r| - 1] == '"'
    ensures t.Array? ==> |r| >= 2 && r[0] == '[' && r[|r| - 1] == ']'
    ensures t.Object? ==> |r| >= 2 && r[0] == '{' && r[|r| - 1] == '}'
    ensures t.Boolean? ==> r == "true" || r == "false"
    decreases t
  {
    match t
    case ID(v) => Quoted(v)
    case String(v) => Quoted(v)
    case Boolean(b) => if b then "true" else "false"
    case Int(n) => IntToString(n)
    case JSON(v) => v
    case Array(vs) =>
      var parts := seq(|vs|, i requires 0 <= i < |vs| => ValueString(vs[i]));
      PopAfterTerminated("[", parts);
      PopSeparator("[" + Terminated(parts, ", ")) + "]"
    case Object(fs) =>
      var parts := seq(|fs|, i requires 0 <= i < |fs| => Entry(fs[i].key, ValueString(fs[i].value)));
      PopAfterTerminated("{", parts);
      PopSeparator("{" + Terminated(parts, ", ")) + "}"
    case Custom(_, u) => ValueString(u)
  }

  /** A string between double quotes, with no escaping. */
  function Quoted(v: string): string {
    "\"" + v + "\""
  }

  /** `"key": value`, an entry of an object. */
  function Entry(key: string, value: string): string {
    "\"" + key + "\": " + value
  }

  /** The value forms of the elements of a list, in order. */
  function ElemValueStrings(vs: seq<ShopifyGraphQLType>): (r: seq<string>)
    ensures |r| == |vs|
    ensures forall i :: 0 <= i < |vs| ==> r[i] == ValueString(vs[i])
  {
    seq(|vs|, i requires 0 <= i < |vs| => ValueString(vs[i]))
  }

  /** `"key": value` for each field of an object, in iteration order. */
  function EntryValueStrings(fs: seq<Field>): (r: seq<string>)
    ensures |r| == |fs|
    ensures forall i :: 0 <= i < |fs| ==> r[i] == Entry(fs[i].key, ValueString(fs[i].value))
  {
    seq(|fs|, i requires 0 <= i < |fs| => Entry(fs[i].key, ValueString(fs[i].value)))
  }

  /** A list renders as its elements' value forms joined by `", "` in
      brackets; the empty list as `[]`. */
  lemma ValueStringArray(vs: seq<ShopifyGraphQLType>)
    ensures ValueString(Array(vs)) == "[" + Join(ElemValueStrings(vs), ", ") + "]"
    ensures |vs| == 0 ==> ValueString(Array(vs)) == "[]"
  {
    assert seq(|vs|, i requires 0 <= i < |vs| => ValueString(vs[i])) == ElemValueStrings(vs);
    PopAfterTerminated("[", ElemValueStrings(vs));
  }

  /** An object renders as `"key": value` entries joined by `", "` in
      braces; the empty object as `{}`. */
  lemma ValueStringObject(fs: seq<Field>)
    ensures ValueString(Object(fs)) == "{" + Join(EntryValueStrings(fs), ", ") + "}"
    ensures |fs| == 0 ==> ValueString(Object(fs)) == "{}"
  {
    assert seq(|fs|, i requires 0 <= i < |fs| => Entry(fs[i].key, ValueString(fs[i].value)))
        == EntryValueStrings(fs);
    PopAfterTerminated("{", EntryValueStrings(fs));
  }

  /** Ids and strings are quoted verbatim: the text between the quotes is the
      payload itself, quote characters included. */
  lemma QuotedVerbatim(v: string)
    ensures ValueString(ID(v)) == ValueString(String(v))
    ensures var s := ValueString(ID(v));
            |s| == |v| + 2 && s[0] == '"' && s[|s| - 1] == '"' && s[1..|s| - 1] == v
  {
  }

  /** A non-negative `Int` renders as a run of digits that reads back as the
      same number; a negative one adds a leading `-`. */
  lemma IntValueRoundTrip(n: I64)
    ensures n >= 0 ==> AllDigits(ValueString(Int(n))) && DigitsValue(ValueString(Int(n))) == n
    ensures n < 0 ==> ValueString(Int(n))[0] == '-'
                      && DigitsValue(ValueString(Int(n))[1..]) == -(n as int)
  {
    if n >= 0 {
      NatToStringRoundTrip(n);
    } else {
      NatToStringRoundTrip(-(n as int));
      assert ValueString(Int(n))[1..] == NatToString(-(n as int));
    }
  }

  // ----- type form -----

  /** `to_string`: the GraphQL type of a variable holding the value. */
  function TypeString(t: ShopifyGraphQLType): (r: string)
    ensures !t.Object? ==> |r| > 0 && r[|r| - 1] == '!'
    ensures t.Object? ==> |r| >= 2 && r[0] == '{' && r[|r| - 1] == '}'
    decreases t
  {
    match t
    case ID(_) => "ID!"
    case String(_) => "String!"
    case Boolean(_) => "Boolean!"
    case Int(_) => "Int!"
    case JSON(_) => "JSON!"
    case Array(vs) => "[" + (if |vs| > 0 then TypeString(vs[0]) else "") + "]!"
    case Object(fs) =>
      var parts := seq(|fs|, i requires 0 <= i < |fs| => fs[i].key + ": " + TypeString(fs[i].value));
      PopAfterTerminated("{", parts);
      PopSeparator("{" + Terminated(parts, ", ")) + "}"
    case Custom(name, _) => name + "!"
  }

  /** Every type form but an object's is non-null: it ends in `!`. */
  lemma TypeStringNonNull(t: ShopifyGraphQLType)
    requires !t.Object?
    ensures EndsWith(TypeString(t), "!")
  {
  }

  /** A list's type is read off its FIRST element only; an empty list has the
      type `[]!`. */
  lemma ArrayTypeFromFirst(vs: seq<ShopifyGraphQLType>, ws: seq<ShopifyGraphQLType>)
    requires |vs| > 0 && |ws| > 0 && vs[0] == ws[0]
    ensures TypeString(Array(vs)) == TypeString(Array(ws)) == "[" + TypeString(vs[0]) + "]!"
    ensures TypeString(Array([])) == "[]!"
  {
  }

  /** A `Custom` value renders as the value it wraps but declares the custom
      type's name. */
  lemma CustomForms(name: string, u: ShopifyGraphQLType)
    ensures ValueString(Custom(name, u)) == ValueString(u)
    ensures TypeString(Custom(name, u)) == name + "!"
  {
  }

  /** `to_object`: an object is its own field map; any other value becomes
      the one-entry map `{key: value}`. */
  function ToObject(t: ShopifyGraphQLType, key: string): (r: seq<Field>)
    ensures t.Object? ==> r == t.fields
    ensures !t.Object? ==> Keys(r) == {key} && Lookup(r, key) == Some(t) && |r| == 1
  {
    match t
    case Object(fs) => fs
    case _ =>
      assert Keys([Field(key, t)]) == {key} by {
        assert [Field(key, t)][0].key == key;
      }
      [Field(key, t)]
  }

  // ----- fixed selection sets of the response types -----

  /** `MoneyV2::to_graphql`, whatever the arguments. */
  const MoneyV2Text: string := "{\n\tamount\n\tcurrencyCode\n}"

  /** One money field of the cost selection: its name, the `MoneyV2` amount
      selection and the end of the line. */
  function MoneyField(name: string): string {
    name + " " + MoneyV2Text + "\n"
  }

  /** The fields `CostRepresentation::to_graphql` selects after its header. */
  const CostFields: string :=
    MoneyField("checkoutChargeAmount")
    + MoneyField("subtotalAmount")
    + "subtotalAmountEstimated\n"
    + MoneyField("totalAmount")
    + "totalAmountEstimated\n"
    + MoneyField("totalDutyAmount")
    + "totalDutyAmountEstimated\n"
    + MoneyField("totalTaxAmount")
    + "totalTaxAmountEstimated\n}"

  /** `name: Type` for every argument, as the cost header writes them. */
  function ArgTypeDecls(args: seq<Field>): (r: seq<string>)
    ensures |r| == |args|
    ensures forall i :: 0 <= i < |args| ==> r[i] == args[i].key + ": " + TypeString(args[i].value)
  {
    seq(|args|, i requires 0 <= i < |args| => args[i].key + ": " + TypeString(args[i].value))
  }

  /** `CostRepresentation::to_graphql`. With arguments the header lists them
      with their TYPE forms and, unlike every other list here, keeps the
      trailing separator: `cost(k: T, ) {`. */
  function CostText(args: seq<Field>): (r: string)
    ensures |args| == 0 ==> StartsWith(r, "cost {\n")
    ensures |args| > 0 ==> StartsWith(r, "cost(" + Join(ArgTypeDecls(args), ", ") + ", ) {\n")
    ensures EndsWith(r, "totalTaxAmountEstimated\n}")
  {
    var head := if |args| > 0 then "cost(" + Terminated(ArgTypeDecls(args), ", ") + ") {\n"
                else "cost {\n";
    CostHeadForm(args);
    StartsWithConcat(head, CostFields);
    assert EndsWith(CostFields, "totalTaxAmountEstimated\n}");
    EndsWithSuffix(head, CostFields, "totalTaxAmountEstimated\n}");
    head + CostFields
  }

  lemma CostHeadForm(args: seq<Field>)
    ensures |args| > 0 ==>
              ("cost(" + Terminated(ArgTypeDecls(args), ", ") + ") {\n"
               == "cost(" + Join(ArgTypeDecls(args), ", ") + ", ) {\n")
  {
    if |args| > 0 {
      TerminatedIsJoinPlusSep(ArgTypeDecls(args), ", ");
    }
  }

  /** `CartLineCost::to_graphql`: three money amounts of one line. */
  const CartLineCostText: string :=
    "{\n\tamountPerQuantity " + MoneyV2Text
    + "\n\tsubtotalAmount " + MoneyV2Text
    + "\n\ttotalAmount " + MoneyV2Text + "\n}"

  /** `Merchandise::to_graphql`: the variant's id and title. */
  const MerchandiseText: string := "{\n... on ProductVariant {\nid\ntitle\n}\n}"

  /** `LineItem::to_graphql`: the arguments reach only `CartLineCost`, which
      ignores them, so the text is fixed. */
  const LineItemText: string :=
    "{\nid\nquantity\nmerchandise " + MerchandiseText + "\ncost " + CartLineCostText + "}"
}

=== FILE: issue_archive.dfy ===
/** The issue archive kept in S3: the bucket the backend reads for its
    region, how an object key names an issue, and how the latest issue is
    chosen from a listing. The AWS calls themselves (listing, presigning) are
    not modelled; a listing is the sequence of its objects' keys.
 */
module IssueArchive {
  import opened Wrappers
  import opened Strings

  /** The largest `usize` on the 64-bit targets the backend runs on. */
  const UsizeMax: nat := 0xFFFF_FFFF_FFFF_FFFF

  const UnwrapNone: string := "called `Option::unwrap()` on a `None` value"

  // ----- regions and buckets -----

  /** `get_s3_client`: the region from the environment, or `us-east-1`. */
  function ClientRegion(configured: Option<string>): (r: string)
    ensures configured.Some? ==> r == configured.value
    ensures configured.None? ==> r == "us-east-1"
  {
    configured.GetOr("us-east-1")
  }

  /** `get_bucket_for_client`: one bucket per supported region; any other
      region, or none, is a panic. */
  function BucketFor(region: Option<string>): (r: Result<string>)
    ensures r.Ok? <==> region == Some("us-east-1") || region == Some("us-east-2")
    ensures region == Some("us-east-1") ==> r == Ok("nonothingissues1")
    ensures region == Some("us-east-2") ==> r == Ok("nonothingissues")
  {
    if region == Some("us-east-1") then Ok("nonothingissues1")
    else if region == Some("us-east-2") then Ok("nonothingissues")
    else Fail("Invalid region")
  }

  /** Different regions never share a bucket. */
  lemma BucketDeterminesRegion(a: Option<string>, b: Option<string>)
    requires BucketFor(a).Ok? && BucketFor(a) == BucketFor(b)
    ensures a == b
  {
    assert "nonothingissues1" != "nonothingissues" by {
      assert |"nonothingissues1"| != |"nonothingissues"|;
    }
  }

  /** A client built without a configured region reads the `us-east-1`
      bucket. */
  lemma DefaultRegionBucket()
    ensures BucketFor(Some(ClientRegion(None))) == Ok("nonothingissues1")
  {
  }

  // ----- Rust string trimming and parsing -----

  /** `trim_start_matches(pat)`: every leading repetition of `pat` is
      removed, not just one. */
  function TrimStartMatches(s: string, pat: string): (r: string)
    requires |pat| > 0
    ensures !StartsWith(r, pat)
    ensures |r| <= |s| && r == s[|s| - |r|..]
    decreases |s|
  {
    if StartsWith(s, pat) then TrimStartMatches(s[|pat|..], pat) else s
  }

  /** `trim_end_matches(pat)`: every trailing repetition of `pat` is
      removed. */
  function TrimEndMatches(s: string, pat: string): (r: string)
    requires |pat| > 0
    ensures !EndsWith(r, pat)
    ensures |r| <= |s| && r == s[..|r|]
    decreases |s|
  {
    if EndsWith(s, pat) then TrimEndMatches(s[..|s| - |pat|], pat) else s
  }

  /** Trimming a repeated prefix leaves what follows the repetitions. */
  lemma {:induction false} TrimStartRepeated(pat: string, k: nat, rest: string)
    requires |pat| > 0 && !StartsWith(rest, pat)
    ensures TrimStartMatches(RepeatText(pat, k) + rest, pat) == rest
    decreases k
  {
    if k == 0 {
      assert RepeatText(pat, k) + rest == rest;
    } else {
      var t := RepeatText(pat, k - 1) + rest;
      assert RepeatText(pat, k) + rest == pat + t by {
        AppendAssoc(pat, RepeatText(pat, k - 1), rest);
      }
      StartsWithConcat(pat, t);
      assert (pat + t)[|pat|..] == t;
      TrimStartRepeated(pat, k - 1, rest);
    }
  }

  /** `pat` written `k` times. */
  function RepeatText(pat: string, k: nat): (r: string)
    ensures |r| == k * |pat|
  {
    if k == 0 then "" else pat + RepeatText(pat, k - 1)
  }

  /** The digits `parse::<usize>` reads: an optional leading `+` is
      dropped. */
  function Unsigned(s: string): string {
    if |s| > 0 && s[0] == '+' then s[1..] else s
  }

  /** `parse::<usize>()`: a non-empty run of decimal digits, after an
      optional `+`, whose value fits in a `usize`. */
  function ParseUsize(s: string): (r: Result<nat>)
    ensures r.Ok? ==> r.value <= UsizeMax
    ensures r.Ok? <==> |Unsigned(s)| > 0 && AllDigits(Unsigned(s)) && DigitsValue(Unsigned(s)) <= UsizeMax
    ensures r.Ok? ==> r.value == DigitsValue(Unsigned(s))
  {
    var d := Unsigned(s);
    if |s| == 0 then Fail("cannot parse integer from empty string")
    else if |d| == 0 then Fail("invalid digit found in string")
    else if !AllDigits(d) then Fail("invalid digit found in string")
    else if DigitsValue(d) > UsizeMax then Fail("number too large to fit in target type")
    else Ok(DigitsValue(d))
  }

  /** Parsing reads back what decimal display writes, with or without a
      `+`, for every value a `usize` holds, and fails beyond it. */
  lemma ParseDisplayed(n: nat)
    ensures n <= UsizeMax ==> ParseUsize(NatToString(n)) == Ok(n)
    ensures n <= UsizeMax ==> ParseUsize("+" + NatToString(n)) == Ok(n)
    ensures n > UsizeMax ==> ParseUsize(NatToString(n)).Fail?
  {
    NatToStringRoundTrip(n);
    assert ("+" + NatToString(n))[1..] == NatToString(n);
  }

  /** Text that is not a bare number does not parse: nothing at all, a lone
      sign, or a minus sign. */
  lemma ParseRejects(s: string)
    ensures ParseUsize("").Fail? && ParseUsize("+").Fail?
    ensures ParseUsize("-" + s).Fail?
  {
    assert !IsDigit(("-" + s)[0]);
  }

  // ----- issue keys -----

  const IssueMarker: string := "issue_"

  /** A key from its first `issue_` on; the whole key when it has none. */
  function FromIssueMarker(key: string): (r: string)
    ensures Contains(key, IssueMarker) ==> StartsWith(r, IssueMarker)
    ensures !Contains(key, IssueMarker) ==> r == key
    ensures |r| <= |key| && r == key[|key| - |r|..]
  {
    match Find(key, IssueMarker)
    case Some(i) => key[i..]
    case None => key
  }

  /** The closure mapping a listed key to an issue number: keys that are not
      PDFs count as issue 0; a PDF key must read as `issue_<n>.pdf` after its
      prefix, or parsing panics. */
  function IssueNumberOf(key: string): (r: Result<nat>)
    ensures !EndsWith(key, ".pdf") ==> r == Ok(0)
    ensures r.Ok? ==> r.value <= UsizeMax
  {
    var k := FromIssueMarker(key);
    SameEnding(key, k);
    if !EndsWith(k, ".pdf") then Ok(0)
    else ParseUsize(TrimEndMatches(TrimStartMatches(k, IssueMarker), ".pdf"))
  }

  /** Cutting a key at its marker does not change whether it is a PDF. */
  lemma SameEnding(key: string, k: string)
    requires k == FromIssueMarker(key)
    ensures EndsWith(k, ".pdf") <==> EndsWith(key, ".pdf")
  {
    if Contains(key, IssueMarker) {
      assert |k| >= |IssueMarker|;
      assert k[|k| - 4..] == key[|key| - 4..];
    }
  }

  /** Whatever comes before the first `issue_` of a key is ignored. */
  lemma PrefixIgnored(prefix: string, rest: string)
    requires StartsWith(rest, IssueMarker)
    requires forall j: nat :: j < |prefix| ==> !OccursAt(prefix + rest, IssueMarker, j)
    ensures IssueNumberOf(prefix + rest) == IssueNumberOf(rest)
  {
    var key := prefix + rest;
    assert OccursAt(key, IssueMarker, |prefix|) by {
      assert key[|prefix|..|prefix| + |IssueMarker|] == rest[..|IssueMarker|];
    }
    assert Find(key, IssueMarker) == Some(|prefix|);
    assert key[|prefix|..] == rest;
    assert OccursAt(rest, IssueMarker, 0);
    assert Find(rest, IssueMarker) == Some(0);
    assert rest[0..] == rest;
  }

  /** `issue_<n>.pdf` */
  function IssueFile(n: nat): string {
    IssueMarker + NatToString(n) + ".pdf"
  }

  /** The key `get_signed_url_for_issue` asks for: `nnm_issues/issue_<n>.pdf`. */
  function IssueKey(n: nat): (r: string)
    ensures EndsWith(r, ".pdf")
  {
    EndsWithConcat("nnm_issues/" + IssueMarker + NatToString(n), ".pdf");
    assert "nnm_issues/" + IssueFile(n) == "nnm_issues/" + IssueMarker + NatToString(n) + ".pdf";
    "nnm_issues/" + IssueFile(n)
  }

  /** A file name `issue_<n>.pdf` reads back as `n`. */
  lemma IssueFileRoundTrip(n: nat)
    requires n <= UsizeMax
    ensures IssueNumberOf(IssueFile(n)) == Ok(n)
  {
    var digits := NatToString(n);
    assert !StartsWith(digits + ".pdf", IssueMarker) by {
      assert IsDigit((digits + ".pdf")[0]);
    }
    assert !EndsWith(digits, ".pdf") by {
      assert IsDigit(digits[|digits| - 1]);
    }
    IssueNumberOfMiddle(digits);
    ParseDisplayed(n);
  }

  /** A key built for issue `n` reads back as `n`: the folder in front holds
      no `issue_` of its own. */
  lemma IssueKeyRoundTrip(n: nat)
    requires n <= UsizeMax
    ensures IssueNumberOf(IssueKey(n)) == Ok(n)
  {
    var key := IssueKey(n);
    var file := IssueFile(n);
    assert key == "nnm_issues/" + file;
    forall j: nat | j < |"nnm_issues/"|
      ensures !OccursAt(key, IssueMarker, j)
    {
      assert key[j + 5] != '_';
      if j + |IssueMarker| <= |key| {
        assert key[j..j + |IssueMarker|][5] == key[j + 5];
      }
    }
    PrefixIgnored("nnm_issues/", file);
    IssueFileRoundTrip(n);
  }

  /** An `issue_<mid>.pdf` key reads as whatever `parse::<usize>` makes of
      its middle, when the middle neither begins another `issue_` nor ends in
      another `.pdf` (either would be trimmed away too). */
  lemma IssueNumberOfMiddle(mid: string)
    requires !StartsWith(mid + ".pdf", IssueMarker)
    requires !EndsWith(mid, ".pdf")
    ensures IssueNumberOf(IssueMarker + mid + ".pdf") == ParseUsize(mid)
  {
    var tail := mid + ".pdf";
    var file := IssueMarker + mid + ".pdf";
    assert file == IssueMarker + tail;
    assert OccursAt(file, IssueMarker, 0);
    assert Find(file, IssueMarker) == Some(0);
    assert file[0..] == file;
    EndsWithConcat(IssueMarker + mid, ".pdf");
    TrimStartRepeated(IssueMarker, 1, tail);
    assert RepeatText(IssueMarker, 1) == IssueMarker;
    assert tail[..|tail| - 4] == mid;
    assert TrimEndMatches(tail, ".pdf") == mid;
  }

  /** A PDF whose middle is not a run of digits, after an optional `+`, is
      a panic, not issue 0. */
  lemma NonNumericPdf(mid: string)
    requires !(|Unsigned(mid)| > 0 && AllDigits(Unsigned(mid)))
    requires !StartsWith(mid + ".pdf", IssueMarker)
    requires !EndsWith(mid, ".pdf")
    ensures IssueNumberOf(IssueMarker + mid + ".pdf").Fail?
  {
    IssueNumberOfMiddle(mid);
  }

  /** A PDF whose number does not fit in a `usize` is a panic as well. */
  lemma OverflowingPdf(mid: string)
    requires AllDigits(mid) && |mid| > 0 && DigitsValue(mid) > UsizeMax
    ensures IssueNumberOf(IssueMarker + mid + ".pdf").Fail?
  {
    assert !StartsWith(mid + ".pdf", IssueMarker) by {
      assert IsDigit((mid + ".pdf")[0]);
    }
    assert !EndsWith(mid, ".pdf") by {
      if |mid| >= 4 {
        assert IsDigit(mid[|mid| - 1]);
      }
    }
    IssueNumberOfMiddle(mid);
  }

  // ----- the latest issue -----

  /** What one listed object contributes; an object without a key is a
      panic. */
  function Contribution(key: Option<string>): (r: Result<nat>)
    ensures key.Some? ==> r == IssueNumberOf(key.value)
    ensures key.None? ==> r.Fail?
  {
    match key
    case Some(k) => IssueNumberOf(k)
    case None => Fail(UnwrapNone)
  }

  /** `max().unwrap()` over the contributions of a listing, evaluated in
      order: the first panic ends it, an empty listing is a panic, and
      otherwise the largest value is returned. */
  method MaxContribution(cs: seq<Result<nat>>) returns (r: Result<nat>)
    ensures r.Fail? <==> |cs| == 0 || exists i :: 0 <= i < |cs| && cs[i].Fail?
    ensures r.Ok? ==> forall i :: 0 <= i < |cs| ==> cs[i].Ok? && cs[i].value <= r.value
    ensures r.Ok? ==> exists i :: 0 <= i < |cs| && cs[i] == Ok(r.value)
  {
    if |cs| == 0 {
      return Fail(UnwrapNone);
    }
    var best: nat := 0;
    var i := 0;
    while i < |cs|
      invariant 0 <= i <= |cs|
      invariant forall j :: 0 <= j < i ==> cs[j].Ok? && cs[j].value <= best
      invariant i > 0 ==> exists j :: 0 <= j < i && cs[j] == Ok(best)
    {
      if cs[i].Fail? {
        return cs[i];
      }
      if i == 0 || cs[i].value > best {
        best := cs[i].value;
      }
      i := i + 1;
    }
    return Ok(best);
  }

  /** The latest issue of a listing: no listed key names a later one, and
      some listed key names it. */
  method LatestIssue(keys: seq<Option<string>>) returns (r: Result<nat>)
    ensures r.Fail? <==> |keys| == 0 || exists i :: 0 <= i < |keys| && Contribution(keys[i]).Fail?
    ensures r.Ok? ==> forall i :: 0 <= i < |keys| ==>
                        Contribution(keys[i]).Ok? && Contribution(keys[i]).value <= r.value
    ensures r.Ok? ==> exists i :: 0 <= i < |keys| && Contribution(keys[i]) == Ok(r.value)
  {
    var cs := seq(|keys|, i requires 0 <= i < |keys| => Contribution(keys[i]));
    assert forall i :: 0 <= i < |keys| ==> cs[i] == Contribution(keys[i]);
    r := MaxContribution(cs);
  }

  /** Where an issue is fetched from. */
  datatype ObjectRef = ObjectRef(bucket: string, key: string)

  /** The object `get_signed_url_for_issue` presigns: the region's bucket and
      the issue's key. */
  function IssueObject(n: nat, region: Option<string>): (r: Result<ObjectRef>)
    requires n <= UsizeMax
    ensures r.Fail? <==> BucketFor(region).Fail?
    ensures r.Ok? ==> r.value.bucket == BucketFor(region).value && r.value.key == IssueKey(n)
    ensures r.Ok? ==> IssueNumberOf(r.value.key) == Ok(n)
  {
    IssueKeyRoundTrip(n);
    match BucketFor(region)
    case Ok(b) => Ok(ObjectRef(b, IssueKey(n)))
    case Fail(e) => Fail(e)
  }

  /** `get_signed_url_for_latest_issue`: the bucket is chosen first, then the
      listing's latest issue is fetched from it. The object served names an
      issue that some listed key names and no listed key exceeds. */
  method LatestIssueObject(keys: seq<Option<string>>, region: Option<string>) returns (r: Result<ObjectRef>)
    ensures r.Fail? <==> || BucketFor(region).Fail? || |keys| == 0
                         || exists i :: 0 <= i < |keys| && Contribution(keys[i]).Fail?
    ensures r.Ok? ==> r.value.bucket == BucketFor(region).value
    ensures r.Ok? ==> exists n: nat :: IssueNumberOf(r.value.key) == Ok(n)
                        && (forall i :: 0 <= i < |keys| ==> Contribution(keys[i]).Ok? && Contribution(keys[i]).value <= n)
                        && (exists i :: 0 <= i < |keys| && Contribution(keys[i]) == Ok(n))
  {
    var bucket := BucketFor(region);
    if bucket.Fail? {
      return Fail(bucket.reason);
    }
    var latest := LatestIssue(keys);
    if latest.Fail? {
      return Fail(latest.reason);
    }
    var n := latest.value;
    assert n <= UsizeMax by {
      var i :| 0 <= i < |keys| && Contribution(keys[i]) == Ok(n);
    }
    r := IssueObject(n, region);
    assert r.Ok? && IssueNumberOf(r.value.key) == Ok(n);
  }
}

=== FILE: issue_viewer.dfy ===
/** The navigation state of the PDF issue viewer: which two-page spread is
    shown and how wide a page is drawn. The document's page count is a
    parameter of a viewing session; it is 0 until the document has loaded.
    The left page of the spread at `page` is page number `page` and the
    right one is `page + 1` (page numbers count from 1), so the spread at 0
    is the cover alone.
 */
module IssueViewer {
  datatype Viewer = Viewer(page: int, width: int)

  /** What the reader can do. A click on a disabled button or on a page
      that is not drawn does nothing. */
  datatype Event =
    | KeyDown(key: string)
    | PreviousClick
    | NextClick
    | LeftPageClick
    | RightPageClick
    | ShrinkClick
    | GrowClick

  const WidthStep: int := 100
  const MinWidth: int := 100
  const MaxWidth: int := 1000

  /** The first effect sets the width from the media query: 800 on a wide
      screen, 400 otherwise. */
  function InitialWidth(wide: bool): (w: int)
    ensures w == 400 || w == 800
    ensures w % WidthStep == 0 && MinWidth <= w <= MaxWidth
    ensures wide <==> w > 400
  {
    if wide then 800 else 400
  }

  /** The viewer once its first effect has run. */
  function Initial(wide: bool): (v: Viewer)
    ensures v.page == 0 && v.width == InitialWidth(wide)
    ensures forall numPages: nat :: Valid(v, numPages)
  {
    Viewer(0, InitialWidth(wide))
  }

  // ----- what is drawn -----

  predicate LeftPageShown(v: Viewer) {
    v.page != 0
  }

  predicate RightPageShown(v: Viewer, numPages: nat) {
    v.page != numPages
  }

  predicate ContributorsShown(v: Viewer, numPages: nat) {
    v.page == 0 || v.page == numPages
  }

  predicate PreviousEnabled(v: Viewer) {
    !(v.page <= 1)
  }

  predicate NextEnabled(v: Viewer, numPages: nat) {
    !(v.page + 2 > numPages)
  }

  predicate ShrinkEnabled(v: Viewer) {
    !(v.width <= MinWidth)
  }

  predicate GrowEnabled(v: Viewer) {
    !(v.width >= MaxWidth)
  }

  /** The state a viewing session keeps: the spread lies within the
      document and the width is a whole number of steps within the
      limits. */
  predicate Valid(v: Viewer, numPages: nat) {
    0 <= v.page <= numPages && v.width % WidthStep == 0 && MinWidth <= v.width <= MaxWidth
  }

  /** In a valid state every page drawn exists, and the contributors are
      listed exactly when one side of the spread is empty (the cover, or
      the back page of the issue). */
  lemma ShownPagesExist(v: Viewer, numPages: nat)
    requires Valid(v, numPages)
    ensures LeftPageShown(v) ==> 1 <= v.page <= numPages
    ensures RightPageShown(v, numPages) ==> 1 <= v.page + 1 <= numPages
    ensures ContributorsShown(v, numPages) <==> !(LeftPageShown(v) && RightPageShown(v, numPages))
  {
  }

  // ----- page turns -----

  /** The key handler: ArrowLeft turns back a spread unless on the cover,
      ArrowRight turns forward unless on the last page, each clamped to the
      document; any other key is ignored. */
  function KeyPage(page: int, numPages: nat, key: string): (r: int)
    ensures 0 <= page <= numPages ==> 0 <= r <= numPages
    ensures key != "ArrowLeft" && key != "ArrowRight" ==> r == page
    ensures key == "ArrowLeft" ==> r <= page && page - 2 <= r
    ensures key == "ArrowRight" ==> page <= r <= page + 2
    ensures r != page <==> (key == "ArrowLeft" && page > 0) || (key == "ArrowRight" && page + 1 < numPages)
  {
    if key == "ArrowLeft" && page > 0 then
      if page - 2 > 0 then page - 2 else 0
    else if key == "ArrowRight" && page + 1 < numPages then
      if page + 2 < numPages - 1 then page + 2 else numPages - 1
    else page
  }

  /** ArrowRight from the cover of a document of at least four pages shows
      the spread at page 2; from near the end it lands on the last page. */
  lemma KeyPageForward(page: int, numPages: nat)
    requires 0 <= page && page + 1 < numPages
    ensures KeyPage(page, numPages, "ArrowRight") == (if page + 3 <= numPages then page + 2 else numPages - 1)
    ensures KeyPage(page, numPages, "ArrowRight") <= numPages - 1
  {
  }

  /** ArrowLeft from a spread never goes below the cover, and from page 1
      or 2 it reaches the cover. */
  lemma KeyPageBack(page: int, numPages: nat)
    requires 0 < page <= numPages
    ensures KeyPage(page, numPages, "ArrowLeft") == (if page <= 2 then 0 else page - 2)
  {
  }

  /** The events that change the width rather than the spread. */
  predicate Resizes(e: Event) {
    e.ShrinkClick? || e.GrowClick?
  }

  /** The component's handlers as written. The page clicks are not guarded:
      clicking the left page subtracts 2 and clicking the right page adds
      2 whatever the page is. */
  function AsWrittenStep(v: Viewer, numPages: nat, e: Event): (r: Viewer)
    ensures e.ShrinkClick? || e.GrowClick? ==> r.page == v.page
    ensures !(e.ShrinkClick? || e.GrowClick?) ==> r.width == v.width
    ensures e.PreviousClick? ==> r.page == (if PreviousEnabled(v) then v.page - 2 else v.page)
    ensures e.NextClick? ==> r.page == (if NextEnabled(v, numPages) then v.page + 2 else v.page)
    ensures e.LeftPageClick? ==> r.page == (if LeftPageShown(v) then v.page - 2 else v.page)
    ensures e.RightPageClick? ==> r.page == (if RightPageShown(v, numPages) then v.page + 2 else v.page)
    ensures e.KeyDown? ==> r.page == KeyPage(v.page, numPages, e.key)
  {
    match e
    case KeyDown(key) => v.(page := KeyPage(v.page, numPages, key))
    case PreviousClick => if PreviousEnabled(v) then v.(page := v.page - 2) else v
    case NextClick => if NextEnabled(v, numPages) then v.(page := v.page + 2) else v
    case LeftPageClick => if LeftPageShown(v) then v.(page := v.page - 2) else v
    case RightPageClick => if RightPageShown(v, numPages) then v.(page := v.page + 2) else v
    case ShrinkClick => if ShrinkEnabled(v) then v.(width := v.width - WidthStep) else v
    case GrowClick => if GrowEnabled(v) then v.(width := v.width + WidthStep) else v
  }

  /** The keys, the Previous/Next buttons and the resize buttons keep a
      session valid; only the page clicks can break it. */
  lemma AsWrittenButtonsKeepValid(v: Viewer, numPages: nat, e: Event)
    requires Valid(v, numPages) && !e.LeftPageClick? && !e.RightPageClick?
    ensures Valid(AsWrittenStep(v, numPages, e), numPages)
  {
  }

  /** The events in a session as written, in order: page turns leave the
      width alone, resizing leaves the spread alone. */
  function AsWrittenRun(v: Viewer, numPages: nat, es: seq<Event>): (r: Viewer)
    ensures (forall i :: 0 <= i < |es| ==> !Resizes(es[i])) ==> r.width == v.width
    ensures (forall i :: 0 <= i < |es| ==> Resizes(es[i])) ==> r.page == v.page
    decreases |es|
  {
    if |es| == 0 then v else AsWrittenRun(AsWrittenStep(v, numPages, es[0]), numPages, es[1..])
  }

  /** A two-page document: ArrowRight moves from the cover to page 1, whose
      left side is drawn; clicking it moves to page -1, and the viewer then
      asks for page number -1. */
  lemma AsWrittenLeftClickEscapes(wide: bool)
    ensures AsWrittenRun(Initial(wide), 2, [KeyDown("ArrowRight"), LeftPageClick]).page == -1
    ensures !Valid(AsWrittenRun(Initial(wide), 2, [KeyDown("ArrowRight"), LeftPageClick]), 2)
  {
    var v1 := AsWrittenStep(Initial(wide), 2, KeyDown("ArrowRight"));
    assert v1.page == 1;
    assert AsWrittenRun(Initial(wide), 2, [KeyDown("ArrowRight"), LeftPageClick])
        == AsWrittenRun(v1, 2, [LeftPageClick]);
  }

  /** A three-page document: clicking the right page of the cover shows
      page 2, whose right side (page number 3) is drawn; clicking it again
      moves past the end, to page 4. */
  lemma AsWrittenRightClickEscapes(wide: bool)
    ensures AsWrittenRun(Initial(wide), 3, [RightPageClick, RightPageClick]).page == 4
    ensures !Valid(AsWrittenRun(Initial(wide), 3, [RightPageClick, RightPageClick]), 3)
  {
    var v1 := AsWrittenStep(Initial(wide), 3, RightPageClick);
    assert v1.page == 2;
    assert AsWrittenRun(Initial(wide), 3, [RightPageClick, RightPageClick])
        == AsWrittenRun(v1, 3, [RightPageClick]);
  }

  // ----- the corrected viewer -----

  /** The handlers with the page clicks turning pages the way the arrow
      keys do: a click on the left page acts as ArrowLeft and a click on
      the right page as ArrowRight. */
  function Step(v: Viewer, numPages: nat, e: Event): (r: Viewer)
    ensures Valid(v, numPages) ==> Valid(r, numPages)
    ensures e.LeftPageClick? ==> r == (if LeftPageShown(v) then AsWrittenStep(v, numPages, KeyDown("ArrowLeft")) else v)
    ensures e.RightPageClick? ==> r == (if RightPageShown(v, numPages) then AsWrittenStep(v, numPages, KeyDown("ArrowRight")) else v)
    ensures !e.LeftPageClick? && !e.RightPageClick? ==> r == AsWrittenStep(v, numPages, e)
  {
    match e
    case LeftPageClick =>
      if LeftPageShown(v) then v.(page := KeyPage(v.page, numPages, "ArrowLeft")) else v
    case RightPageClick =>
      if RightPageShown(v, numPages) then v.(page := KeyPage(v.page, numPages, "ArrowRight")) else v
    case _ => AsWrittenStep(v, numPages, e)
  }

  /** The events in a corrected session, in order: page turns leave the
      width alone, resizing leaves the spread alone. */
  function Run(v: Viewer, numPages: nat, es: seq<Event>): (r: Viewer)
    ensures (forall i :: 0 <= i < |es| ==> !Resizes(es[i])) ==> r.width == v.width
    ensures (forall i :: 0 <= i < |es| ==> Resizes(es[i])) ==> r.page == v.page
    decreases |es|
  {
    if |es| == 0 then v else Run(Step(v, numPages, es[0]), numPages, es[1..])
  }

  /** Whatever the reader does, the corrected viewer stays on a spread of
      the document at an allowed width, so every page it draws exists. */
  lemma {:induction false} RunKeepsValid(v: Viewer, numPages: nat, es: seq<Event>)
    requires Valid(v, numPages)
    ensures Valid(Run(v, numPages, es), numPages)
    decreases |es|
  {
    if |es| > 0 {
      RunKeepsValid(Step(v, numPages, es[0]), numPages, es[1..]);
    }
  }

  /** Every session starts valid and so stays valid. */
  lemma SessionValid(wide: bool, numPages: nat, es: seq<Event>)
    ensures Valid(Run(Initial(wide), numPages, es), numPages)
  {
    RunKeepsValid(Initial(wide), numPages, es);
  }

  /** Until the document has loaded nothing moves the spread off the
      cover, in the viewer as written as well. */
  lemma {:induction false} NothingTurnsBeforeLoad(v: Viewer, es: seq<Event>)
    requires v.page == 0
    ensures AsWrittenRun(v, 0, es).page == 0
    ensures Run(v, 0, es).page == 0
    decreases |es|
  {
    if |es| > 0 {
      NothingTurnsBeforeLoad(AsWrittenStep(v, 0, es[0]), es[1..]);
      NothingTurnsBeforeLoad(Step(v, 0, es[0]), es[1..]);
    }
  }
}

=== FILE: links.dfy ===
/** Contributor links: a handle that starts with `@` is an Instagram handle
    and becomes a profile link; anything else is taken to be a link
    already.
 */
module Links {
  const InstagramPrefix: string := "https://instagram.com/"

  /** `handle_to_link`. Indexing the empty string yields `undefined`, which is
      not `'@'`, so the empty handle comes back unchanged. */
  function HandleToLink(name: string): (r: string)
    ensures |name| == 0 || name[0] != '@' ==> r == name
    ensures |name| > 0 && name[0] == '@' ==>
              |r| == |InstagramPrefix| + |name| - 1 && r[..|InstagramPrefix|] == InstagramPrefix
              && r[|InstagramPrefix|..] == name[1..]
  {
    if |name| == 0 || name[0] != '@' then name
    else InstagramPrefix + name[1..]
  }

  /** A rewritten handle starts with `h`, so it is never rewritten again. */
  lemma LinkStartsWithH(name: string)
    requires |name| > 0 && name[0] == '@'
    ensures |HandleToLink(name)| > 0 && HandleToLink(name)[0] == 'h'
  {
    assert HandleToLink(name)[0] == InstagramPrefix[0];
  }

  lemma HandleToLinkIdempotent(name: string)
    ensures HandleToLink(HandleToLink(name)) == HandleToLink(name)
  {
    if |name| > 0 && name[0] == '@' {
      LinkStartsWithH(name);
    }
  }

  /** The handle `@x` links to `https://instagram.com/x`. */
  lemma InstagramHandle(user: string)
    ensures HandleToLink("@" + user) == InstagramPrefix + user
  {
    assert ("@" + user)[1..] == user;
  }

  /** The Instagram handle can be read back from its link. */
  lemma LinkReadsBack(name: string)
    requires |name| > 0 && name[0] == '@'
    ensures "@" + HandleToLink(name)[|InstagramPrefix|..] == name
  {
    assert name == "@" + name[1..];
  }
}

=== FILE: shopify_ids.dfy ===
/** Shopify cart identifiers. Shopify names a cart by a global id
    `gid://shopify/Cart/<token>`. The browser keeps only the bare token (it
    deletes the marker with `String.replace`), and the backend puts the
    marker back in front before it asks Shopify for the cart.
 */
module ShopifyIds {
  import opened Strings

  const CartGidPrefix: string := "gid://shopify/Cart/"

  /** `id.replace("gid://shopify/Cart/", "")`: deletes the FIRST occurrence of
      the marker, wherever it is, not a checked prefix. */
  function StripCartGid(id: string): (r: string)
    ensures !Contains(id, CartGidPrefix) ==> r == id
    ensures Contains(id, CartGidPrefix) ==> |r| == |id| - |CartGidPrefix|
  {
    ReplaceFirst(id, CartGidPrefix, "")
  }

  /** `format!("gid://shopify/Cart/{}", id)` */
  function CartGid(id: string): (r: string)
    ensures StartsWith(r, CartGidPrefix)
    ensures r[|CartGidPrefix|..] == id
  {
    CartGidPrefix + id
  }

  /** The marker in front of a token is what gets deleted. */
  lemma StripCartGidOfGid(token: string)
    ensures StripCartGid(CartGid(token)) == token
  {
    ReplaceFirstPrefix(CartGidPrefix, token);
  }

  lemma StripEveryGid()
    ensures forall token :: StripCartGid(CartGid(token)) == token
  {
    forall token
      ensures StripCartGid(CartGid(token)) == token
    {
      StripCartGidOfGid(token);
    }
  }

  /** A marker anywhere else is deleted too: when no occurrence starts
      earlier, the text before and after it is kept. */
  lemma StripCartGidInside(before: string, after: string)
    requires forall j: nat :: j < |before| ==> !OccursAt(before + CartGidPrefix + after, CartGidPrefix, j)
    ensures StripCartGid(before + CartGidPrefix + after) == before + after
  {
    var s := before + CartGidPrefix + after;
    assert OccursAt(s, CartGidPrefix, |before|);
    var i := Find(s, CartGidPrefix).value;
    assert i == |before|;
    assert s[..i] == before;
    assert s[i + |CartGidPrefix|..] == after;
  }

  /** Client and backend agree: a gid stripped by the browser and re-prefixed
      by the backend is the gid Shopify issued, whatever the token. */
  lemma GidRoundTrip(token: string)
    ensures CartGid(StripCartGid(CartGid(token))) == CartGid(token)
  {
    StripCartGidOfGid(token);
  }

  /** Stripping twice is stripping once exactly when the once-stripped id no
      longer contains the marker. */
  lemma StripIdempotentIff(id: string)
    ensures StripCartGid(StripCartGid(id)) == StripCartGid(id)
        <==> !Contains(StripCartGid(id), CartGidPrefix)
  {
    var once := StripCartGid(id);
    if Contains(once, CartGidPrefix) {
      assert |StripCartGid(once)| == |once| - |CartGidPrefix|;
    }
  }

  /** A doubly marked id is not stable under stripping: the constructor and
      `set_id` may disagree with `dupe` about it. */
  lemma StripNotIdempotent()
    ensures StripCartGid(CartGid(CartGid("7"))) == CartGid("7")
    ensures StripCartGid(StripCartGid(CartGid(CartGid("7")))) == "7"
  {
    StripCartGidOfGid(CartGid("7"));
    StripCartGidOfGid("7");
  }
}

=== FILE: strings.dfy ===
/** String helpers with the exact semantics of the library calls the
    modelled code relies on: JavaScript's `String.prototype.replace` with a
    string pattern (first occurrence only), Rust's `str::find`, the
    "push `item, ` then pop a trailing `, `" idiom used by every renderer,
    and decimal display and parsing of integers.
 */
module Strings {
  import opened Wrappers

  /** `pat` occurs in `s` starting at index `i`. */
  predicate OccursAt(s: string, pat: string, i: nat) {
    i + |pat| <= |s| && s[i..i + |pat|] == pat
  }

  predicate StartsWith(s: string, pat: string) {
    |pat| <= |s| && s[..|pat|] == pat
  }

  predicate EndsWith(s: string, pat: string) {
    |pat| <= |s| && s[|s| - |pat|..] == pat
  }

  predicate Contains(s: string, pat: string) {
    exists i: nat :: i <= |s| && OccursAt(s, pat, i)
  }

  /** The first index at or after `i` where `pat` occurs in `s`. */
  function FindFrom(s: string, pat: string, i: nat): (r: Option<nat>)
    requires i <= |s|
    decreases |s| - i
    ensures r.Some? ==> i <= r.value <= |s| && OccursAt(s, pat, r.value)
    ensures r.Some? ==> forall j: nat :: i <= j < r.value ==> !OccursAt(s, pat, j)
    ensures r.None? ==> forall j: nat :: i <= j <= |s| ==> !OccursAt(s, pat, j)
  {
    if OccursAt(s, pat, i) then Some(i)
    else if i == |s| then None
    else FindFrom(s, pat, i + 1)
  }

  /** Rust's `str::find` / JavaScript's `indexOf`: the first occurrence of `pat`. */
  function Find(s: string, pat: string): (r: Option<nat>)
    ensures r.Some? <==> Contains(s, pat)
    ensures r.Some? ==> OccursAt(s, pat, r.value)
    ensures r.Some? ==> forall j: nat :: j < r.value ==> !OccursAt(s, pat, j)
  {
    FindFrom(s, pat, 0)
  }

  /** JavaScript's `s.replace(pat, rep)` with a string pattern: only the FIRST
      occurrence is replaced, wherever it is, and a string without `pat` is
      returned unchanged. */
  function ReplaceFirst(s: string, pat: string, rep: string): string {
    match Find(s, pat)
    case None => s
    case Some(i) => s[..i] + rep + s[i + |pat|..]
  }

  lemma ReplaceFirstAbsent(s: string, pat: string, rep: string)
    requires !Contains(s, pat)
    ensures ReplaceFirst(s, pat, rep) == s
  {
  }

  /** When `s` starts with a non-empty `pat`, deleting the first occurrence
      deletes exactly that prefix. */
  lemma ReplaceFirstPrefix(pat: string, rest: string)
    ensures ReplaceFirst(pat + rest, pat, "") == rest
  {
    var s := pat + rest;
    assert OccursAt(s, pat, 0);
    assert Find(s, pat) == Some(0);
    assert s[|pat|..] == rest;
  }

  /** `parts` joined with `sep`, as Rust's `join` or JavaScript's `Array.join`. */
  function Join(parts: seq<string>, sep: string): string
    decreases |parts|
  {
    if |parts| == 0 then ""
    else if |parts| == 1 then parts[0]
    else parts[0] + sep + Join(parts[1..], sep)
  }

  lemma JoinTwo(a: string, b: string, sep: string)
    ensures Join([a, b], sep) == a + sep + b
  {
    assert [a, b][1..] == [b];
  }

  /** Every part followed by `sep`: what the renderers accumulate before they
      pop the trailing separator. */
  function Terminated(parts: seq<string>, sep: string): string
    decreases |parts|
  {
    if |parts| == 0 then "" else parts[0] + sep + Terminated(parts[1..], sep)
  }

  /** `if s.ends_with(", ") { s.pop(); s.pop(); }` */
  function PopSeparator(s: string): string {
    if EndsWith(s, ", ") then s[..|s| - 2] else s
  }

  lemma {:induction false} TerminatedIsJoinPlusSep(parts: seq<string>, sep: string)
    requires |parts| > 0
    ensures Terminated(parts, sep) == Join(parts, sep) + sep
    decreases |parts|
  {
    if |parts| > 1 {
      TerminatedIsJoinPlusSep(parts[1..], sep);
      assert Terminated(parts, sep) == parts[0] + sep + (Join(parts[1..], sep) + sep);
    }
  }

  /** The push-then-pop idiom yields exactly a `", "`-join, provided the
      text before the list does not itself end in `", "` when the list is
      empty. */
  lemma PopAfterTerminated(prefix: string, parts: seq<string>)
    requires |parts| > 0 || !EndsWith(prefix, ", ")
    ensures PopSeparator(prefix + Terminated(parts, ", ")) == prefix + Join(parts, ", ")
  {
    if |parts| > 0 {
      TerminatedIsJoinPlusSep(parts, ", ");
      var s := prefix + Terminated(parts, ", ");
      assert s == (prefix + Join(parts, ", ")) + ", ";
      assert EndsWith(s, ", ");
    } else {
      assert prefix + Terminated(parts, ", ") == prefix;
    }
  }

  /** The push-then-pop idiom between an opening and a closing bracket. */
  lemma PopJoinBracketed(prefix: string, open: string, parts: seq<string>, close: string)
    requires |parts| > 0
    ensures PopSeparator(prefix + open + Terminated(parts, ", ")) + close
            == prefix + (open + Join(parts, ", ") + close)
  {
    var j := Join(parts, ", ");
    TerminatedIsJoinPlusSep(parts, ", ");
    AppendAssoc(prefix + open, j, ", ");
    PopAppended(prefix + open + j);
    AppendAssoc(prefix, open, j);
    AppendAssoc(prefix, open + j, close);
  }

  lemma AppendAssoc(a: string, b: string, c: string)
    ensures a + b + c == a + (b + c)
  {
  }

  lemma PopAppended(a: string)
    ensures PopSeparator(a + ", ") == a
  {
    var t := a + ", ";
    assert t[|t| - 2..] == ", ";
    assert t[..|t| - 2] == a;
  }

  lemma StartsWithConcat(a: string, b: string)
    ensures StartsWith(a + b, a)
  {
    assert (a + b)[..|a|] == a;
  }

  /** Dropping a one-character closer gives back what it closed. */
  lemma DropCloser(a: string, b: string)
    requires |b| == 1
    ensures (a + b)[..|a + b| - 1] == a
  {
  }

  lemma EndsWithConcat(a: string, b: string)
    ensures EndsWith(a + b, b)
  {
    assert (a + b)[|a + b| - |b|..] == b;
  }

  lemma StartsWithTrans(s: string, p: string, q: string)
    requires StartsWith(s, p) && StartsWith(p, q)
    ensures StartsWith(s, q)
  {
    assert s[..|q|] == s[..|p|][..|q|];
  }

  /** A prefix of a prefix. */
  lemma StartsWithLeft(s: string, a: string, b: string)
    requires StartsWith(s, a + b)
    ensures StartsWith(s, a)
  {
    assert s[..|a|] == (a + b)[..|a|];
  }

  lemma EndsWithSuffix(a: string, b: string, c: string)
    requires EndsWith(b, c)
    ensures EndsWith(a + b, c)
  {
    assert (a + b)[|a + b| - |c|..] == b[|b| - |c|..];
  }

  lemma EndsWithTrans(s: string, p: string, q: string)
    requires EndsWith(s, p) && EndsWith(p, q)
    ensures EndsWith(s, q)
  {
    assert s[|s| - |q|..] == s[|s| - |p|..][|p| - |q|..];
  }

  /** `n` copies of `c`. */
  function Repeat(c: char, n: nat): (r: string)
    ensures |r| == n
    ensures forall i :: 0 <= i < n ==> r[i] == c
  {
    if n == 0 then [] else [c] + Repeat(c, n - 1)
  }

  // ----- decimal display and parsing -----

  predicate IsDigit(c: char) {
    '0' <= c <= '9'
  }

  predicate AllDigits(s: string) {
    forall i :: 0 <= i < |s| ==> IsDigit(s[i])
  }

  function DigitChar(d: nat): (c: char)
    requires d < 10
    ensures IsDigit(c)
  {
    ['0', '1', '2', '3', '4', '5', '6', '7', '8', '9'][d]
  }

  function DigitValue(c: char): (d: nat)
    requires IsDigit(c)
    ensures d < 10
  {
    (c as int - '0' as int) as nat
  }

  lemma DigitRoundTrip(d: nat)
    requires d < 10
    ensures DigitValue(DigitChar(d)) == d
  {
  }

  /** Decimal display of a natural number (Rust's `{}` on an unsigned value):
      no sign and no leading zeros. */
  function NatToString(n: nat): (r: string)
    ensures |r| > 0 && AllDigits(r)
    ensures n > 0 ==> r[0] != '0'
  {
    if n < 10 then [DigitChar(n)] else NatToString(n / 10) + [DigitChar(n % 10)]
  }

  /** The value of a non-empty run of decimal digits. */
  function DigitsValue(s: string): nat
    requires AllDigits(s)
    decreases |s|
  {
    if |s| == 0 then 0 else DigitsValue(s[..|s| - 1]) * 10 + DigitValue(s[|s| - 1])
  }

  lemma {:induction false} NatToStringRoundTrip(n: nat)
    ensures DigitsValue(NatToString(n)) == n
    decreases n
  {
    var s := NatToString(n);
    if n < 10 {
      DigitRoundTrip(n);
    } else {
      NatToStringRoundTrip(n / 10);
      DigitRoundTrip(n % 10);
      assert s[..|s| - 1] == NatToString(n / 10);
    }
  }

  /** Decimal display of an integer (Rust's `{}` on `i64`): a `-` sign for
      negative values. */
  function IntToString(n: int): string {
    if n < 0 then "-" + NatToString(-n) else NatToString(n)
  }
}

=== FILE: wrappers.dfy ===
/** Option and Result values shared by the whole model.

    A `Result` is the model's stand-in for an abnormal end of an operation:
    a Rust `panic!`/`unwrap` on `None`, or a JavaScript `TypeError` thrown
    from a property access on `undefined`.
 */
module Wrappers {

  datatype Option<+T> = None | Some(value: T) {

    /** The value inside `Some`, or `default` for `None`. */
    function GetOr(default: T): T {
      match this
      case Some(v) => v
      case None => default
    }
  }

  datatype Result<+T> = Ok(value: T) | Fail(reason: string)
}
